=== FILE: README.md ===
# rls_buddy: a Dafny model of the gateway, the tracking service and the user service

rls_buddy is a set of three FastAPI services for people with restless legs
syndrome:

- The **API gateway** routes every request by the prefix of its path. Paths
  starting `users` or `token` go to the user service, and paths starting
  `trackings` or `details` go to the tracking service. It relays the answer
  and turns 422 into 400.
- The **user service** registers users, logs them in and issues JWTs
  carrying the scopes `me` and `items`. It validates tokens for the tracking
  service through `GET /token-validate`. When a user deletes their account
  it publishes a `USER_DELETED` event to a RabbitMQ fanout exchange.
- The **tracking service** stores one Sleep and one Day record per user and
  date. Symptoms and triggers are linked to the records through
  association tables. Every endpoint asks the user service who the caller
  is. A consumer of the exchange deletes every tracking of a deleted user.

Both services install a `RequestValidationError` handler, so a request body
the schema rejects is answered 400 with the body echoed back as `input_data`,
not FastAPI's default 422.

The model follows the code file by file, one Dafny module per source file.

| module | source file |
|---|---|
| `Basics` | Python built-ins the services lean on: `str.startswith`, `int()`/`str()`, `str.split`/`str.join` |
| `Gateway` | `api_gateway/main.py` |
| `Enums` | `tracking_service/enums.py` |
| `TrackingModels` | `tracking_service/models.py` |
| `TrackingSchemas` | `tracking_service/schemas/sleep.py`, `day.py`, `symptoms.py`, `triggers.py` |
| `TrackingCrud` | `tracking_service/crud.py`, as functions on the database value |
| `TrackingDb` | `tracking_service/crud.py`, as methods on a mutable store |
| `TrackingEvents` | `tracking_service/events.py` |
| `TrackingAuth` | `tracking_service/auth.py` |
| `TrackingRouter` | `tracking_service/routers/trackings.py` |
| `UserSchemes` | `user_service/schemes.py` |
| `UserCrud` | `user_service/crud.py` and `user_service/models.py` |
| `UserAuthentication` | `user_service/authentication.py` |
| `UserRouter` | `user_service/routers/user.py`, `user_service/routers/auth.py` |
| `System` | the three services together |

Every data-access call is modelled twice:

- as a pure function from the tables before the call to the outcome and
  the tables after it (`CreateTrackingSpec`, `DeleteUserSpec`, …);
- as a method of a class that holds the tables as mutable maps
  (`TrackingDb.TrackingStore`, `UserCrud.UserStore`). These methods do the
  work step by step, like the SQLAlchemy session. Each is proved to leave
  exactly the tables its function describes, and to keep the table
  constraints: unique `(user_id, date)`, unique names and e-mails, and
  foreign keys that resolve.

A failed commit leaves the tables unchanged: nothing is committed.

The world outside the code is passed in as parameters:

| parameter | stands for |
|---|---|
| `commitFails` | a database error during a commit (or, for user and tracking inserts, any database error of the insert) |
| `busUp` | whether the RabbitMQ broker is reachable |
| `validate` | the user service's answer to the tracking service's HTTP call |
| `decoded` | what `jwt.decode` returns; `None` is any `PyJWTError` |
| `now` | the clock |
| `hash`, `matches` | bcrypt |
| `encode` | the JWT encoder |
| `normalise` | the e-mail validator behind `EmailStr` |
| `reply` | the upstream answer the gateway receives; `None` is any `httpx` exception |

New primary keys come from the store's id counters, or are a parameter
`newId` in the pure functions.

## Model

| member | source | states |
|---|---|---|
| Basics.StartsWithExtended | api_gateway/main.py:147-149 | a string that starts with a prefix still starts with it after anything is appended |
| Basics.DigitChar | tracking_service/auth.py:96 | the digit character for a value below ten is a digit that reads back as that value |
| Basics.NatToDigits | user_service/routers/auth.py:49 | `str(n)` of a natural number is a non-empty string of decimal digits |
| Basics.ParseInt | tracking_service/auth.py:96 | `int(s)` accepts exactly a non-empty run of digits, or a sign followed by one; the value is the digits' decimal value, negated after `-`; anything else is a ValueError |
| Basics.DigitsRoundTrip | user_service/routers/auth.py:49 | reading back the decimal digits of a natural number gives that number |
| Basics.IntStringRoundTrip | user_service/routers/auth.py:49 | `int(str(n)) == n` for every integer, so the `sub` claim written at login reads back as the user id |
| Basics.PyInt | tracking_service/events.py:32 | `int(v)` on a JSON value: integers pass unchanged; null, lists and objects raise |
| Basics.Split | user_service/routers/auth.py:24 | `s.split(",")` always yields at least one piece |
| Basics.SplitOfSeparatorFree | user_service/routers/auth.py:24 | text without the separator splits into itself alone |
| Basics.SplitAfterPiece | user_service/routers/auth.py:24 | splitting `a + "," + b` yields `a` followed by the pieces of `b` when `a` has no comma |
| Basics.SplitJoinRoundTrip | tracking_service/auth.py:87 | splitting what `",".join` built gives back the pieces when at least one is given and none contains a comma |
| Enums.ParseTrackingType | tracking_service/enums.py:12-14 | a text is a TrackingType exactly when it is "sleep" or "day", and the member's value is that text |
| Enums.ParseSleepQuality | tracking_service/enums.py:17-20 | a text is a SleepQuality exactly when it is "bad", "moderate" or "good", and the member's value is that text |
| Enums.ParseTriggerCategory | tracking_service/enums.py:4-9 | a text is a TriggerCategory exactly when it is one of the five category values, and the member's value is that text |
| Enums.TrackingTypeValues | tracking_service/enums.py:12-14 | parsing round-trips with the values in both directions |
| Enums.SleepQualityValues | tracking_service/enums.py:17-20 | parsing round-trips with the values in both directions |
| Enums.TriggerCategoryValues | tracking_service/enums.py:4-9 | parsing round-trips with the values in both directions |
| Gateway.PrefixChar | api_gateway/main.py:147-149 | a string that starts with a prefix agrees with it at every position of the prefix |
| Gateway.NotPrefix | api_gateway/main.py:147-149 | one differing or missing character rules a prefix out |
| Gateway.PrefixesExclusive | api_gateway/main.py:146-151 | no path starts with both a user-service prefix and a tracking-service prefix, so the routing order never matters |
| Gateway.RoutingByPrefix | api_gateway/main.py:146-151 | `users`/`token` paths go to the user service, `trackings`/`details` paths to the tracking service, every other path nowhere |
| Gateway.RoutingStableUnderExtension | api_gateway/main.py:146-151 | a routed path keeps its target whatever is appended to it |
| Gateway.RoutingExamples | api_gateway/tests.py:99-125 | the gateway's own routing test cases, including `userdetails` being unrouted |
| Gateway.MapStatusCode | api_gateway/main.py:138-143 | 422 becomes 400, every other status passes unchanged, and 422 never comes out |
| Gateway.MapStatusCodeIdempotent | api_gateway/main.py:138-143 | remapping twice is remapping once |
| Gateway.Forward | api_gateway/main.py:107-123 | no upstream call exactly when no service or an empty base URL is resolved; otherwise the call goes to `base + "/" + path` with the inbound verb, headers, query and body |
| Gateway.Proxy | api_gateway/main.py:107-135 | 404 "Service not found" when unrouted, 502 when the upstream call raises, otherwise the upstream content and headers with the remapped status |
| Gateway.UnroutedIgnoresUpstream | api_gateway/main.py:107-112 | an unrouted request is answered 404 whatever any upstream would answer |
| Gateway.ProxyNeverAnswers422 | api_gateway/main.py:130-143 | no gateway answer is a 422 |
| Gateway.DefaultConfigForwardsRoutedPaths | api_gateway/main.py:32-33 | with the default service URLs every routed path is forwarded |
| TrackingModels.AlchemyModelFactory | tracking_service/models.py:161-169 | "day" and "sleep" name their tables and nothing else does; any other type is the invalid-type error |
| TrackingModels.FactoryAcceptsTrackingTypes | tracking_service/models.py:161-169 | the factory accepts every TrackingType value and maps it back to that type |
| TrackingModels.WithTable | tracking_service/models.py:98-150 | replacing one tracking table leaves the other table and the symptoms and triggers untouched |
| TrackingModels.AtMostOnePerUserAndDate | tracking_service/models.py:120-126 | under the `(user_id, date)` unique constraints a user has at most one Day and one Sleep per date |
| TrackingSchemas.Dump | tracking_service/schemas/sleep.py:10-22 | `model_dump()` always carries `comment`; it carries `date` only for the create schemas and `duration` only for the sleep schemas |
| TrackingSchemas.UpdatesCarryNoDate | tracking_service/schemas/day.py:18-24 | no update payload can move a tracking to another date |
| TrackingSchemas.PositiveIntField | tracking_service/schemas/sleep.py:11 | lax `PositiveInt`: the value converts as `int()` converts it (an integer, a boolean as 0 or 1, or a decimal text such as "8") and is accepted exactly when the result is above zero, which is the value kept |
| TrackingSchemas.DateField | tracking_service/schemas/sleep.py:12 | a required date is present and a date value |
| TrackingSchemas.QualityFieldOf | tracking_service/schemas/sleep.py:13 | an accepted quality is the text of a SleepQuality member |
| TrackingSchemas.NullableText | tracking_service/schemas/sleep.py:14 | `str \| None` accepts exactly a present text or an explicit null |
| TrackingSchemas.Text | tracking_service/schemas/sleep.py:22 | `str` accepts exactly a present, non-null text |
| TrackingSchemas.IntItems | tracking_service/schemas/sleep.py:15 | lax `list[int]`: the list converts exactly when every element converts as `int()` converts it, element for element and in order |
| TrackingSchemas.NullableIds | tracking_service/schemas/day.py:11-13 | `list[int] \| None` accepts exactly an explicit null or a list whose elements all convert to integers |
| TrackingSchemas.ParseSleepCreate | tracking_service/schemas/sleep.py:10-15 | a body is a SleepCreate exactly when all five fields validate, and its duration is positive |
| TrackingSchemas.ParseSleepUpdate | tracking_service/schemas/sleep.py:18-22 | a body is a SleepUpdate exactly when duration, quality, symptoms and a non-null comment validate |
| TrackingSchemas.ParseDayCreate | tracking_service/schemas/day.py:8-15 | a body is a DayCreate exactly when the date, the comment and the three id lists validate |
| TrackingSchemas.ParseDayUpdate | tracking_service/schemas/day.py:18-24 | a body is a DayUpdate exactly when the comment and the three id lists validate |
| TrackingSchemas.ParseTrackingUpdate | tracking_service/routers/trackings.py:119-124 | the `SleepUpdate \| DayUpdate` body yields an update payload, and is rejected only when neither schema accepts it |
| TrackingSchemas.SleepSchemasRejectNonPositiveDuration | tracking_service/schemas/sleep.py:11 | both sleep schemas reject a duration of zero or less |
| TrackingSchemas.SleepSchemasRejectUnknownQuality | tracking_service/schemas/sleep.py:13 | both sleep schemas reject a quality outside the three values |
| TrackingSchemas.CreateSchemasRequireDate | tracking_service/schemas/day.py:12 | both create schemas reject a missing or null date |
| TrackingSchemas.SleepCommentNullability | tracking_service/schemas/sleep.py:14-22 | a null comment is never a valid sleep update, and a sleep created with it stores no comment |
| TrackingSchemas.IdListsConvert | tracking_service/schemas/sleep.py:15 | an id list reads back as the same ids whether each id is sent as a JSON integer or as its decimal text |
| TrackingSchemas.ClientSleepBodyAccepted | app.py:132-145 | the sleep body the command-line client builds, with the duration as the text "8" and the date given as a whole number, is a valid SleepCreate with duration 8 |
| TrackingSchemas.SymptomRows | tracking_service/schemas/sleep.py:29 | the output list holds the stored symptom of each id, in the order of the ids |
| TrackingSchemas.TriggerRows | tracking_service/schemas/day.py:32 | the output list holds the stored trigger of each id, in the order of the ids |
| TrackingSchemas.ToOut | tracking_service/schemas/sleep.py:25-30 | a stored row fails response validation exactly when its comment is null or a Sleep's duration is not positive; otherwise the output keeps id, user, date, variant and comment, and a Sleep's duration and quality |
| TrackingSchemas.OutRowsMatchIds | tracking_service/schemas/day.py:27-34 | the rows in the output carry exactly the ids the stored tracking refers to, in order |
| TrackingCrud.GetModelByAttribute | tracking_service/crud.py:61-68 | exactly the four association attributes name a table, and only `triggers` names the Trigger table |
| TrackingCrud.SetAssociation | tracking_service/crud.py:76-77 | setting an association fails exactly when the attribute is mapped on the row and some id is unknown |
| TrackingCrud.FoldAssociations | tracking_service/crud.py:74-77 | the first loop changes only association lists and keeps the references resolvable; it fails exactly when some attribute rejects |
| TrackingCrud.FoldStep | tracking_service/crud.py:72-76 | one more pass of the first loop is one more step after the passes so far, and nothing after a failure |
| TrackingCrud.KeysBefore | tracking_service/crud.py:72-73 | after the whole loop, the popped keys are exactly the relationship attributes |
| TrackingCrud.KeysBeforeStep | tracking_service/crud.py:72-73 | each pass pops one attribute that no earlier pass popped |
| TrackingCrud.PopStep | tracking_service/crud.py:73 | popping a key not popped before yields the dump's own entry and leaves the rest of the dump unchanged |
| TrackingCrud.FoldFailureStays | tracking_service/crud.py:74-76 | once a `setattr` has failed, the whole call fails |
| TrackingCrud.SetColumn | tracking_service/crud.py:78-80 | setting a column never changes the table, id or owner of a row, and only `date` changes its date |
| TrackingCrud.SetColumns | tracking_service/crud.py:78-80 | the second loop keeps table, id and owner, and keeps the date when none is given |
| TrackingCrud.AddValues | tracking_service/crud.py:71-80 | `add_values_to_model` keeps table, id and owner; without `update` it touches only association lists; it fails exactly when an attribute rejects |
| TrackingCrud.WithComment | tracking_service/crud.py:78-80 | only the comment changes |
| TrackingCrud.AssociationKeysDistinct | tracking_service/crud.py:71-80 | the attribute and column names are pairwise distinct, so the loops cannot interfere |
| TrackingCrud.FoldUnroll | tracking_service/crud.py:74-77 | the first loop is the four steps in the given order |
| TrackingCrud.FoldOnSleepDump | tracking_service/crud.py:74-77 | on a sleep payload the first loop sets the given symptoms, or fails on an unknown one |
| TrackingCrud.FoldOnDayDump | tracking_service/crud.py:74-77 | on a day payload the first loop sets the given triggers and both symptom lists, or fails on an unknown id |
| TrackingCrud.FoldSymptomsList | tracking_service/crud.py:74-76 | with only a symptoms list in the dump, a Sleep gets that list or the loop fails on an unknown id; a Day is untouched |
| TrackingCrud.FoldDayLists | tracking_service/crud.py:74-76 | with the three day lists in the dump, a Day gets all three or the loop fails on an unknown id; a Sleep is untouched |
| TrackingCrud.FoldOnDump | tracking_service/crud.py:74-77 | on any payload the first loop sets the payload's id lists, or fails on an unknown id |
| TrackingCrud.ColumnsUnroll | tracking_service/crud.py:78-80 | the second loop is the four column steps |
| TrackingCrud.UpdateStoresPayload | tracking_service/crud.py:71-80 | with `update` the result is exactly the payload written field by field (`Updated`), unless an id list names an unknown row |
| TrackingCrud.GetTrackingById | tracking_service/crud.py:83-91 | the row of that type under that id, NotFound when absent, the invalid-type error for an unknown type |
| TrackingCrud.GetTrackingByIdAndUser | tracking_service/crud.py:94-103 | as above, and NotAllowed exactly when the row belongs to another user |
| TrackingCrud.GetTrackingsByUser | tracking_service/crud.py:239-258 | exactly the caller's rows of the type, limited to the date window when both bounds are given |
| TrackingCrud.NoWindowWithoutBothDates | tracking_service/crud.py:250-253 | with either bound missing no date filter applies |
| TrackingCrud.WindowMonotone | tracking_service/crud.py:250-253 | a narrower window returns a subset of a wider one |
| TrackingCrud.GetSymptoms | tracking_service/crud.py:273-281 | the stored symptoms with the given ids, or all of them for a null or empty list |
| TrackingCrud.GetTriggers | tracking_service/crud.py:297-307 | the stored triggers with the given ids, or all of them for a null or empty list |
| TrackingCrud.NewRecord | tracking_service/crud.py:156-168 | `model(**data)` succeeds exactly when the payload matches the table; the row has the new id, the caller and the payload's date, and no associations yet |
| TrackingCrud.CreateTrackingSpec | tracking_service/crud.py:148-190 | `create_tracking` succeeds exactly when the payload fits the type's table, every given id resolves, the `(user, date)` is free and the commit succeeds; it then adds one row with the new id, the caller and the payload's date; an unknown type is the invalid-type error, every other failure is NotValid and stores nothing |
| TrackingCrud.FoldResolves | tracking_service/crud.py:71-77 | setting associations that were accepted keeps every reference resolvable |
| TrackingCrud.UpdateTrackingSpec | tracking_service/crud.py:106-141 | `update_tracking` checks existence, then ownership, then stores exactly `Updated(row, payload)`; an unknown symptom or trigger id, or a failing commit, is NotUpdated and stores nothing |
| TrackingCrud.DeleteTrackingSpec | tracking_service/crud.py:193-215 | `delete_tracking` checks existence, then ownership, then removes exactly that row; a failing commit is NotDeleted and removes nothing |
| TrackingCrud.Purge | tracking_service/crud.py:224-230 | exactly the rows of other users remain, unchanged |
| TrackingCrud.PurgeUser | tracking_service/crud.py:218-236 | the bulk delete removes only Sleep and Day rows and never touches symptoms or triggers |
| TrackingCrud.PurgeUserRemovesExactlyTheUser | tracking_service/crud.py:218-236 | after the bulk delete the user has no rows left, and every other user's rows are kept unchanged |
| TrackingCrud.PurgeUserNoOp | tracking_service/crud.py:218-236 | with no rows of the user the bulk delete changes nothing |
| TrackingCrud.PurgeUserIdempotent | tracking_service/crud.py:218-236 | deleting a user's rows twice is deleting them once |
| TrackingCrud.PurgeUserCommutes | tracking_service/crud.py:218-236 | bulk deletes of two users commute |
| TrackingCrud.DeleteTrackingsByUserSpec | tracking_service/crud.py:218-236 | success exactly when the commit succeeds; then the user has no rows and others keep theirs; otherwise nothing changes |
| TrackingCrud.CreateSymptomSpec | tracking_service/crud.py:261-270 | a new symptom under the new id, or nothing stored when the name is taken |
| TrackingCrud.CreateTriggerSpec | tracking_service/crud.py:285-294 | a new trigger under the new id, or nothing stored when the name is taken |
| TrackingCrud.DeleteThenGetNotFound | tracking_service/crud.py:193-215 | after a successful delete, looking the row up again is NotFound |
| TrackingCrud.DeleteKeepsReferencedRows | tracking_service/models.py:41-67 | deleting a tracking leaves every symptom, trigger and other tracking in place |
| TrackingCrud.UpdateKeepsIdentity | tracking_service/crud.py:106-141 | an update never moves a tracking to another user, date, id or table |
| TrackingCrud.CreateRejectsUnknownIds | tracking_service/crud.py:148-190 | a create naming an unknown symptom or trigger is NotValid and stores nothing |
| TrackingCrud.CreateStoresPayload | tracking_service/crud.py:148-190 | a successful create stores the payload's fields and id lists under the caller's id |
| TrackingCrud.DuplicateNameRejected | tracking_service/models.py:85-95 | a second symptom or trigger with a stored name is refused and nothing is stored |
| TrackingCrud.CreatePreservesConsistent | tracking_service/models.py:98-150 | a create keeps every table constraint |
| TrackingCrud.StoreRowKeepsUnique | tracking_service/models.py:98-150 | storing a row whose (user, date) no other row holds keeps (user, date) unique |
| TrackingCrud.StoreRowPreservesConsistent | tracking_service/models.py:98-150 | storing a row of the table's kind, with resolvable references and a free (user, date), keeps every table constraint |
| TrackingCrud.UpdatePreservesConsistent | tracking_service/models.py:98-150 | an update keeps every table constraint |
| TrackingCrud.FoldResolvesOnUpdate | tracking_service/crud.py:106-141 | an accepted update keeps every reference resolvable |
| TrackingCrud.DeletePreservesConsistent | tracking_service/models.py:98-150 | a delete keeps every table constraint |
| TrackingCrud.PurgeUserPreservesConsistent | tracking_service/models.py:98-150 | a bulk delete keeps every table constraint |
| TrackingCrud.CreateSymptomPreservesConsistent | tracking_service/models.py:89-95 | a new symptom keeps every table constraint |
| TrackingCrud.CreateTriggerPreservesConsistent | tracking_service/models.py:79-86 | a new trigger keeps every table constraint |
| TrackingDb.TrackingStore.constructor | tracking_service/models.py:41-150 | an empty database satisfies the constraints |
| TrackingDb.TrackingStore.AddValuesToModel | tracking_service/crud.py:71-80 | the in-place loops compute exactly `AddValues` |
| TrackingDb.TrackingStore.LinkAssociations | tracking_service/crud.py:72-76 | the first loop in place computes exactly `FoldAssociations`, and what is left of the dump is the dump without the relationship attributes |
| TrackingDb.TrackingStore.SetRemainingColumns | tracking_service/crud.py:78-80 | the second loop in place sets exactly the remaining columns, as `SetColumns` says |
| TrackingDb.TrackingStore.StoreRow | tracking_service/crud.py:182-183 | the table of the row's kind gets the row under its id; every other table and every sequence is unchanged |
| TrackingDb.TrackingStore.InsertRow | tracking_service/crud.py:182-184 | a new row goes in under the next id of its sequence, which moves past it, and the constraints still hold |
| TrackingDb.TrackingStore.CreateTracking | tracking_service/crud.py:148-190 | leaves exactly the outcome and tables of `CreateTrackingSpec` with the next id and the same commit outcome, and keeps the constraints |
| TrackingDb.TrackingStore.UpdateTracking | tracking_service/crud.py:106-141 | leaves exactly the outcome and tables of `UpdateTrackingSpec` with the same commit outcome, and keeps the constraints |
| TrackingDb.TrackingStore.DeleteTracking | tracking_service/crud.py:193-215 | leaves exactly the outcome and tables of `DeleteTrackingSpec`, and keeps the constraints |
| TrackingDb.TrackingStore.DeleteTrackingsByUser | tracking_service/crud.py:218-236 | leaves exactly the outcome and tables of `DeleteTrackingsByUserSpec`, and keeps the constraints |
| TrackingDb.TrackingStore.CreateSymptom | tracking_service/crud.py:261-270 | leaves exactly the outcome and tables of `CreateSymptomSpec`, and keeps the constraints |
| TrackingDb.TrackingStore.CreateTrigger | tracking_service/crud.py:285-294 | leaves exactly the outcome and tables of `CreateTriggerSpec`, and keeps the constraints |
| TrackingEvents.CallbackDecision | tracking_service/events.py:31-39 | a bulk delete is decided only for a JSON object whose `type` is "USER_DELETED", and for the user its `user_id` converts to |
| TrackingEvents.ApplyEvent | tracking_service/events.py:14-39 | a USER_DELETED event purges that user; anything else changes nothing; the callback raises exactly on a malformed body or a failed delete |
| TrackingEvents.Callback | tracking_service/events.py:14-39 | the consumer acting on the store does exactly what `ApplyEvent` says |
| TrackingEvents.UserDeletedEventRoundTrip | tracking_service/events.py:31-36 | the published body decodes into a bulk delete of exactly that user |
| TrackingEvents.UserDeletedRemovesOnlyThatUser | tracking_service/events.py:34-36 | the event leaves no tracking of the user and keeps every other user's |
| TrackingEvents.OtherTypeChangesNothing | tracking_service/events.py:38-39 | an event of any other type is only logged |
| TrackingEvents.UserIdCheckedBeforeType | tracking_service/events.py:32-34 | without a convertible `user_id` the callback raises whatever the type |
| TrackingEvents.RedeliveryIsNoOp | tracking_service/events.py:14-39 | delivering the same body twice leaves the database as delivering it once |
| TrackingEvents.FailedDeletePropagates | tracking_service/crud.py:218-236 | a failing bulk delete escapes the callback and deletes nothing |
| TrackingAuth.GetUserIdFromToken | tracking_service/auth.py:80-106 | a 200 answer with a convertible `user_id` yields that id; a 200 without one is 500; any other status is 401 "Unauthorized" |
| TrackingAuth.OkReplyYieldsUserId | tracking_service/auth.py:94-96 | an integer `user_id` comes through unchanged |
| TrackingAuth.OkReplyWithoutUserIdIs500 | tracking_service/auth.py:96-102 | a 200 answer without a usable `user_id` is a server error |
| TrackingAuth.TransportErrorNeverAuthorizes | tracking_service/auth.py:89-93 | a failed call to the user service never yields a user |
| TrackingAuth.ScopesSurviveTheQuery | tracking_service/auth.py:87 | comma-free scopes, joined here and split by the user service, arrive as sent |
| TrackingRouter.EndpointsAskForMe | tracking_service/routers/trackings.py:44 | every tracking endpoint asks the user service for exactly the scope "me" |
| TrackingRouter.CreateErrorStatus | tracking_service/routers/trackings.py:88-94 | a create's NotValid error answers 400; never a success status |
| TrackingRouter.UpdateErrorStatus | tracking_service/routers/trackings.py:130-143 | NotFound 404, NotAllowed 401, NotUpdated 400; never a success status |
| TrackingRouter.DeleteErrorStatus | tracking_service/routers/trackings.py:160-175 | NotFound 404, NotAllowed 401, any other error 400; never a success status |
| TrackingRouter.GetErrorStatus | tracking_service/routers/trackings.py:190-202 | NotFound 404, NotAllowed 401; never a success status |
| TrackingRouter.Respond | tracking_service/routers/trackings.py:73-76 | a stored row is answered with the success status exactly when it validates as a response, otherwise 500 |
| TrackingRouter.UpdateAnswer | tracking_service/crud.py:70-80 | a committed update answers as the stored row, except that a SleepUpdate on a Day row leaves `duration`, `quality` and `symptoms` as plain attributes, so `SleepOut \| DayOut` answers 200 as a SleepOut with the payload's fields when the symptoms were given and all stored; a row that validates as neither is 500 |
| TrackingRouter.DeleteMe | tracking_service/routers/trackings.py:41-50 | an authorized caller always gets 204, and their rows are gone exactly when the bulk delete commits |
| TrackingRouter.OutAll | tracking_service/routers/trackings.py:53-70 | every row becomes a response body, keyed as before, or the list fails when one row fails |
| TrackingRouter.GetMe | tracking_service/routers/trackings.py:53-70 | auth first; an unknown type is 400; no row is 404; a row failing response validation is 500; otherwise 200 with `OutAll` of exactly the caller's rows of the type in the window |
| TrackingRouter.ParseCreate | tracking_service/routers/trackings.py:78-107 | /day parses a DayCreate body and /sleep a SleepCreate body |
| TrackingRouter.Create | tracking_service/routers/trackings.py:73-116 | auth first, then, exactly for a body the route's schema rejects, the validation handler's 400 echoing the body (tracking_service/main.py:52-67), with nothing stored; otherwise the tables become `CreateTrackingSpec`'s, a failure is 400, and a stored row is answered through `Respond` with 201 |
| TrackingRouter.Update | tracking_service/routers/trackings.py:119-143 | auth first, then, exactly for a body neither update schema accepts, the validation handler's 400 echoing the body (tracking_service/main.py:52-67), with nothing stored; otherwise the tables become `UpdateTrackingSpec`'s (still consistent), a failure gets its mapped status, and the updated row is answered as `UpdateAnswer` says |
| TrackingRouter.Delete | tracking_service/routers/trackings.py:146-175 | auth first; the tables become `DeleteTrackingSpec`'s; 204 exactly when the delete succeeded, otherwise the mapped status and no change |
| TrackingRouter.Get | tracking_service/routers/trackings.py:178-202 | auth first; a failed lookup gets its mapped status (404, 401, 400); the caller's row is answered through `Respond` with 200 |
| TrackingRouter.NonOwnerIsRejected | tracking_service/crud.py:94-103 | another user's tracking can be neither read, updated nor deleted: 401 and nothing changes |
| TrackingRouter.MissingIsNotFound | tracking_service/crud.py:83-91 | a missing tracking is 404 for read, update and delete alike |
| TrackingRouter.DeleteMeAlways204 | tracking_service/routers/trackings.py:46-50 | DELETE /trackings/me answers 204 even when the bulk delete fails |
| TrackingRouter.CreateStoresCallersRowOfRouteType | tracking_service/routers/trackings.py:73-116 | a create stores a row of the route's type, owned by the caller |
| TrackingRouter.StoredCreateAnswers201IffComment | tracking_service/schemas/day.py:27-34 | a create that stores its row answers 201 exactly when the comment is given; with a null comment the row is stored and the answer is 500 |
| TrackingRouter.FailedCommitStoresNothing | tracking_service/crud.py:167-190 | a failing commit on create is 400, and on update it is 400, 401 or 404; neither stores anything |
| TrackingRouter.ToOutReadsOnlyReferencedTables | tracking_service/schemas/sleep.py:25-30 | response validation of a row depends only on the symptom and trigger tables |
| TrackingRouter.CreateThenGet | tracking_service/routers/trackings.py:73-116 | after a 201, GET of the new id answers 200 with the body the create answered |
| TrackingRouter.UpdateThenGet | tracking_service/routers/trackings.py:119-143 | after a 200, GET of the id answers exactly what the update answered, unless a SleepUpdate body went to the Day route |
| TrackingRouter.SleepBodyOnDayRouteReadsBackAsDay | tracking_service/crud.py:70-80 | a SleepUpdate on the Day route with stored symptom ids answers 200 as a SleepOut, while GET of the row answers a DayOut |
| TrackingRouter.DeleteThenGet | tracking_service/routers/trackings.py:146-175 | after a 204, GET of the id answers 404 |
| TrackingRouter.GetMeAgreesWithGet | tracking_service/routers/trackings.py:53-70 | every tracking GET /trackings/me lists is what GET of its id answers |
| UserSchemes.ClassRun | user_service/schemes.py:54 | the greedy run of name characters from the start, and the first character after it is not one |
| UserSchemes.ValidateName | user_service/schemes.py:46-58 | shorter than two is TooShort, a space is HasSpace, otherwise accepted unchanged exactly when the pattern matches |
| UserSchemes.MatchedNamesHaveNoSpace | user_service/schemes.py:52-57 | a name the pattern matches contains no space |
| UserSchemes.AcceptedNames | user_service/schemes.py:46-58 | a name is accepted exactly when it has at least two characters and all are name characters, except possibly one final newline |
| UserSchemes.AcceptedNameUnchanged | user_service/schemes.py:48-58 | "Test_User" is accepted unchanged |
| UserSchemes.NameRejectionExamples | user_service/schemes.py:46-58 | a space, a one-letter name and a "!" are each rejected with their own reason |
| UserSchemes.TrailingNewlineAccepted | user_service/schemes.py:54 | "Jö" followed by a newline is accepted |
| UserSchemes.StrField | user_service/schemes.py:44-46 | a required string field is present and a string |
| UserSchemes.EmailField | user_service/schemes.py:45 | the e-mail is accepted exactly when it is a string the validator accepts |
| UserSchemes.NameField | user_service/schemes.py:46-58 | the name is accepted exactly when it is a string the name rules accept |
| UserSchemes.ParseUserUpdate | user_service/schemes.py:44-68 | a body is a UserUpdate exactly when the e-mail and the name are accepted |
| UserSchemes.ParseUserCreate | user_service/schemes.py:71-72 | a body is a UserCreate exactly when it is a UserUpdate with a password of at least four characters |
| UserSchemes.CreateBodyIsUpdateBody | user_service/schemes.py:71-72 | every valid create body is a valid update body with the same e-mail and name |
| UserCrud.GetUserByEmail | user_service/crud.py:41-43 | the one stored row with that e-mail, if any |
| UserCrud.GetUserById | user_service/crud.py:46-48 | the row stored under that id, if any |
| UserCrud.CreateUserSpec | user_service/crud.py:103-142 | a stored e-mail is Exists; a failing insert is NotValid; otherwise the row with the hashed password and the role is added |
| UserCrud.DeleteUserSpec | user_service/crud.py:56-66 | an unknown id is NotFound; a failing commit is NotDeleted; otherwise exactly that user is removed |
| UserCrud.UpdateSetsExactlyThePayload | user_service/crud.py:93-95 | the update replaces e-mail and name and keeps id, hash and role |
| UserCrud.UpdateUserSpec | user_service/crud.py:69-100 | an unknown id is NotFound; a failing commit or an e-mail held by another user is NotUpdated; otherwise the row gets the new e-mail and name |
| UserCrud.CreatePreservesWellFormed | user_service/models.py:14 | a create keeps rows keyed by id and e-mails unique |
| UserCrud.UpdatePreservesWellFormed | user_service/models.py:14 | an update keeps rows keyed by id and e-mails unique |
| UserCrud.DeletePreservesWellFormed | user_service/models.py:14 | a delete keeps rows keyed by id and e-mails unique |
| UserCrud.DuplicateEmailRejected | user_service/crud.py:122-127 | a second user with a stored e-mail is refused and nothing is stored |
| UserCrud.SecondDeleteNotFound | user_service/crud.py:56-66 | deleting the same id twice: the second call finds no user |
| UserCrud.CreatedUserFoundByEmail | user_service/crud.py:41-43 | a created user is found again by its e-mail |
| UserCrud.UserStore.constructor | user_service/models.py:8-17 | an empty table is well formed |
| UserCrud.UserStore.CreateUser | user_service/crud.py:103-142 | leaves exactly the outcome and table of `CreateUserSpec` with the next id, and keeps the table well formed |
| UserCrud.UserStore.DeleteUser | user_service/crud.py:56-66 | leaves exactly the outcome and table of `DeleteUserSpec` |
| UserCrud.UserStore.UpdateUser | user_service/crud.py:69-100 | the field-by-field `setattr` loop leaves exactly the outcome and table of `UpdateUserSpec` |
| UserAuthentication.ScopesJson | user_service/authentication.py:118 | the scopes as a JSON list, element for element |
| UserAuthentication.CreateAccessToken | user_service/authentication.py:111-120 | the data plus `exp` at issue time plus the lifetime (30 minutes when none or zero is given) and `scopes` always "me" and "items" |
| UserAuthentication.DecodeSigned | user_service/authentication.py:35-36 | decoding fails exactly when `exp` is not a time or has passed |
| UserAuthentication.IssuedTokenLifetime | user_service/authentication.py:111-120 | an issued token decodes from its issue until, not including, its expiry |
| UserAuthentication.StrItems | user_service/schemes.py:19-21 | a JSON list is a `list[str]` exactly when every element is a string |
| UserAuthentication.ReadClaims | user_service/authentication.py:37-41 | no subject exactly when `sub` is missing or null; a read subject is `int(sub)` |
| UserAuthentication.MissingScope | user_service/authentication.py:58-64 | some required scope is missing exactly when not all of them are granted |
| UserAuthentication.VerifyTokenSpec | user_service/authentication.py:28-66 | the user id exactly when the token decodes, names a stored user and grants every required scope; undecodable 401, unknown user 404, missing scope 401 |
| UserAuthentication.VerifyToken | user_service/authentication.py:28-66 | the step-by-step checks give exactly `VerifyTokenSpec` |
| UserAuthentication.GetCurrentUserSpec | user_service/authentication.py:69-108 | grants exactly when `verify_token` does, with that user's row; every refusal is 401 or 500 |
| UserAuthentication.GetCurrentUser | user_service/authentication.py:69-108 | the step-by-step checks give exactly `GetCurrentUserSpec` |
| UserAuthentication.UnknownUserStatusDiffers | user_service/authentication.py:50-55 | a token of an unknown user is 404 in `verify_token` but 401 in `get_current_user` |
| UserAuthentication.Verify | user_service/authentication.py:123-129 | 401 "Incorrect email or password" exactly when the password does not match |
| UserAuthentication.IssuedScopesReadBack | user_service/routers/auth.py:47-52 | a login token reads back as that user with the scopes "me" and "items" |
| UserAuthentication.IssuedTokenVerifies | user_service/authentication.py:28-66 | an unexpired login token passes `verify_token` exactly for requests whose scopes are among "me" and "items" |
| UserRouter.ToUserOut | user_service/schemes.py:24-28 | the response keeps id, e-mail, name and role, and drops the hash |
| UserRouter.ReadMe | user_service/routers/user.py:16-20 | 200 with the caller's own row exactly when the token is accepted |
| UserRouter.CreateUser | user_service/routers/user.py:77-96 | exactly for a body the schema rejects, the validation handler's 400 echoing the body (user_service/main.py:37-53), with nothing stored; otherwise the table becomes `CreateUserSpec`'s with role USER, 201 exactly when it succeeds (returning the stored user) and 400 for either crud error |
| UserRouter.CreateAdmin | user_service/routers/user.py:54-74 | auth first; then, exactly for a body the schema rejects, the validation handler's 400 echoing the body (user_service/main.py:37-53), with nothing stored; otherwise the table becomes `CreateUserSpec`'s with role ADMIN, 201 exactly when it succeeds, 400 for a taken e-mail and 500 for the uncaught UserNotValidError |
| UserRouter.CreatedUserCanLogIn | user_service/routers/user.py:54-96 | a user created through either route can log in with their password, and the token names the new id |
| UserRouter.DuplicateEmailIs400 | user_service/routers/user.py:70-91 | a stored e-mail is 400 on both create paths and stores nothing |
| UserRouter.UpdateErrorStatus | user_service/routers/user.py:112-125 | Exists 400, NotFound 404, NotAllowed 401, any other error 500 |
| UserRouter.UpdateMeAsWritten | user_service/routers/user.py:99-111 | PUT /users/ as written: auth first, then, exactly for a body the schema rejects, the validation handler's 400 echoing the body (user_service/main.py:37-53); a committed update answers 500 |
| UserRouter.UpdateMeAsWrittenAnswers500 | user_service/crud.py:93-100 | a committed update is stored and yet answered 500 |
| UserRouter.UpdateMeAsWrittenExample | user_service/routers/user.py:109-111 | a stored user renaming themselves is told the request failed |
| UserRouter.ExampleTokenGranted | user_service/authentication.py:28-66 | a token with subject "1" and scope "me" is granted for stored user 1 |
| UserRouter.ExampleBodyParses | user_service/schemes.py:44-68 | the body with e-mail "a@x.org" and name "Alicia" parses to that update |
| UserRouter.ExampleUpdateCommits | user_service/crud.py:69-100 | renaming the only user, keeping the e-mail, commits |
| UserRouter.UpdateMe | user_service/routers/user.py:99-125 | PUT /users/ as intended: auth first, then, exactly for a body the schema rejects, the validation handler's 400 echoing the body (user_service/main.py:37-53); 200 with the updated row exactly when the update commits; otherwise nothing changes |
| UserRouter.UpdateMeDiffersOnlyInTheAnswer | user_service/routers/user.py:99-111 | where the intended endpoint answers 200, the one as written stores the same table and answers 500 |
| UserRouter.DeleteMeSpec | user_service/routers/user.py:23-51 | 204 exactly when the caller is deleted and the event is published; the user can be gone with a 500 when the broker is down |
| UserRouter.EventBus.constructor | user_service/events.py:11-74 | the exchange starts empty |
| UserRouter.EventBus.Publish | user_service/events.py:11-74 | the body is appended when the broker is up; otherwise nothing is published and the call fails |
| UserRouter.DeleteMe | user_service/routers/user.py:23-51 | the store and exchange end up exactly as `DeleteMeSpec` says |
| UserRouter.DeleteMePublishesOnlyTheCaller | user_service/routers/user.py:42-51 | a published event always names the caller, and a failed delete publishes nothing |
| UserRouter.BrokerDownLosesTheEvent | user_service/routers/user.py:50-51 | with the broker down the user is deleted but no event is published |
| UserRouter.ValidateToken | user_service/routers/auth.py:16-26 | the `scopes` parameter split on ","; the answer is `{"user_id": id}` exactly when `verify_token` accepts, otherwise its status, with a `{"detail": ...}` body except for the unhandled 500, whose body is plain text |
| UserRouter.ValidateWithoutScopesRefused | user_service/routers/auth.py:23-24 | without a `scopes` parameter the required scope is "", so even a fresh login token is refused with 401 |
| UserRouter.Login | user_service/routers/auth.py:29-52 | a bearer token for the user exactly when the e-mail is stored and the password matches; otherwise 401 |
| UserRouter.LoginTokenOpensEndpoints | user_service/routers/auth.py:47-52 | a login token lets its user through `verify_token` with scope "me" until it expires |
| System.PublishedEventIsConsumed | user_service/routers/user.py:50-51 | the body the user service publishes is the one the consumer turns into a bulk delete of that user |
| System.DeletionEvents | user_service/routers/user.py:50 | one USER_DELETED body per deleted user, in order |
| System.PurgeAll | tracking_service/crud.py:224-230 | removes only Sleep and Day rows; symptoms and triggers stay |
| System.PurgeThenPurgeAll | tracking_service/crud.py:218-236 | deleting one user and then a set is deleting the set with that user added |
| System.DeliverDeletions | tracking_service/events.py:34-36 | delivering a run of deletions removes exactly the rows of the users named, whatever the order and repeats |
| System.DeliveredDeletionsConverge | tracking_service/events.py:34-36 | once delivered, no deleted user has a tracking, and every other user's rows are unchanged |
| System.DuplicateDeliveryIsNoOp | tracking_service/events.py:34-36 | delivering the run twice over is delivering it once |
| System.DeletedUserLeavesNoTrackings | user_service/routers/user.py:43-51 | a 204 on DELETE /users/me puts the caller's deletion on the exchange, and after delivery the caller has no trackings |
| System.TrackingCallerIsTokenSubject | tracking_service/auth.py:80-106 | every tracking endpoint acts for exactly the user `verify_token` finds with scope "me"; each user-service refusal reaches the client as 401 |
| System.InvalidTrackingBodyReachesClientAs400 | api_gateway/main.py:138-143 | an authorized PUT whose body neither update schema accepts is answered 400 by the tracking service's validation handler, echoing the body, and that answer reaches the client through the gateway as 400 |

## Left out

- The RabbitMQ plumbing is not modelled: connections, channels, the exchange declaration and the consumer thread of `tracking_service/events.py` (and that an exception in the callback ends that thread). Only the callback and the published bodies are modelled.
- HTTP is not modelled: the httpx clients of the gateway and of `tracking_service/auth.py`, CORS, the templates and the docs proxies of the gateway. The upstream answer is a parameter.
- JWT signing and signature checks, bcrypt and the e-mail validator behind `EmailStr` are parameters (`decoded`, `encode`, `hash`, `matches`, `normalise`). The model takes a token's claims as the token.
- The symptom and trigger routers (`tracking_service/routers/symptoms.py`, `triggers.py`) are not part of this model. Their data-access calls (`create_symptom`, `get_symptoms`, `create_trigger`, `get_triggers`) are modelled.
- Request parsing below the schema is not modelled: the OAuth2 form of POST /token, a request without an `Authorization` header (FastAPI's bearer scheme answers 401 before any endpoint code runs), and a body that is not JSON at all.
- Dates and times are whole numbers. `datetime` parsing, time zones, and the `timestamp` and `updated` columns are not modelled.
- TrackingCrud.GetTrackingsByUser: the `timestamp` branch (tracking_service/crud.py:254-256) is left out because it is unreachable: the model factory rejects every type but "sleep" and "day" first.
- Basics.ParseInt: Python's `int()` also accepts surrounding whitespace and `_` digit separators. None of these is modelled; such input is rejected.
- TrackingSchemas.PositiveIntField: reads a text as `Basics.ParseInt` does. pydantic's lax integer also accepts a text with surrounding whitespace or a trailing `.0`, and an integral JSON float (the JSON model has no floats); such a duration is rejected here.
- TrackingSchemas.IntItems: the same gap as `PositiveIntField`, for each element of an id list.
- TrackingSchemas.NullableIds: inherits the `IntItems` gap.
- TrackingSchemas.ParseSleepCreate: inherits the `PositiveIntField` and `IntItems` gaps.
- TrackingSchemas.ParseSleepUpdate: inherits the `PositiveIntField` and `IntItems` gaps.
- TrackingSchemas.ParseDayCreate: inherits the `IntItems` gap.
- TrackingSchemas.ParseDayUpdate: inherits the `IntItems` gap.
- TrackingRouter.UpdateAnswer: a DayUpdate on a Sleep row answers as the Sleep row. The code would fall back to a DayOut built from plain attributes only for a stored Sleep row with a duration of zero or less, which no endpoint can store.
- The validation handlers' `detail` list (tracking_service/main.py:58-61, user_service/main.py:43-46) is built from pydantic's error texts, which are not modelled. The model's reply keeps the 400 and the echoed body.
- New primary keys come from a counter per table, not from the database's sequences.
- UserCrud.UserStore.CreateUser: the insert is modelled as failing only when the commit fails (`commitFails`). The Python code maps every database error to UserNotValidError.

## Findings

| source | as written | input that shows it | evidently intended | confidence | as-written member | corrected member |
|---|---|---|---|---|---|---|
| user_service/crud.py:69-100, user_service/routers/user.py:99-111 | `update_user` commits the change but returns nothing. The endpoint returns that `None` against `response_model=UserOut`, so response validation fails and the client gets 500. | An authenticated user with id 1, name "Alice" and e-mail "a@x.org" PUTs `{"email": "a@x.org", "name": "Alicia"}`: the row is renamed, and the answer is 500. | `update_user` returns the refreshed row, and the endpoint answers 200 with it as a UserOut | not executed | UserRouter.UpdateMeAsWritten | UserRouter.UpdateMe |

Other places where the code's behaviour differs from what a reader might
expect; the model follows the code in each:

- `verify_token` answers 404 for a token of an unknown user, while `get_current_user` answers 401 (`UserAuthentication.UnknownUserStatusDiffers`).
- The name pattern `^[...]*$` lets one final newline through (`UserSchemes.TrailingNewlineAccepted`).
- The response schemas declare a non-null `comment`, but the create schemas allow null. A create with a null comment is stored and answered 500 (`TrackingRouter.StoredCreateAnswers201IffComment`).
- `GET /token-validate` without a `scopes` parameter requires the scope "", which no token carries (`UserRouter.ValidateWithoutScopesRefused`).
- The routing tests in api_gateway/tests.py exercise a local copy of `determine_service_url`. The copy is identical to the gateway's own, so `Gateway.RoutingExamples` states them against the gateway's function.
- `publish_user_delete_event` runs outside any `try` (user_service/routers/user.py:50-51), so a failing publish answers 500 after the user is already deleted (`UserRouter.BrokerDownLosesTheEvent`).

=== FILE: basics.dfy ===
/**
 * Shared vocabulary of the services: optional values, JSON values as the
 * services exchange them, Python's `str.startswith`, `",".join`/`str.split`
 * and the `int()`/`str()` conversions between integers and decimal text.
 */
module Basics {

  datatype Option<T> = None | Some(value: T)

  /** A byte of a request or response body. */
  newtype byte = x: int | 0 <= x < 256

  /** A decoded JSON value (what `json.loads` returns and `json.dumps` takes). */
  datatype Json =
    | JNull
    | JBool(b: bool)
    | JInt(n: int)
    | JStr(s: string)
    | JArr(items: seq<Json>)
    | JObj(fields: map<string, Json>)

  /** Python's `dict.get(key)` on a JSON object: `None` when the key is absent. */
  function Get(fields: map<string, Json>, key: string): Option<Json>
  {
    if key in fields then Some(fields[key]) else None
  }

  /** Python's `s.startswith(prefix)`. */
  predicate StartsWith(s: string, prefix: string)
  {
    |prefix| <= |s| && s[..|prefix|] == prefix
  }

  lemma StartsWithExtended(s: string, t: string, prefix: string)
    requires StartsWith(s, prefix)
    ensures StartsWith(s + t, prefix)
  {
    assert (s + t)[..|prefix|] == s[..|prefix|];
  }

  // ---------------------------------------------------------------------
  // Decimal text: Python's str(int) and int(str)
  // ---------------------------------------------------------------------

  predicate IsDigit(c: char)
  {
    '0' <= c <= '9'
  }

  function DigitValue(c: char): nat
    requires IsDigit(c)
  {
    (c as int - '0' as int) as nat
  }

  function DigitChar(d: nat): (c: char)
    requires d < 10
    ensures IsDigit(c) && DigitValue(c) == d
  {
    ('0' as int + d) as char
  }

  predicate AllDigits(s: string)
  {
    forall i :: 0 <= i < |s| ==> IsDigit(s[i])
  }

  /** The value of a string of decimal digits, most significant first. */
  function DigitsValue(s: string): nat
    requires AllDigits(s)
  {
    if s == [] then 0 else DigitsValue(s[..|s| - 1]) * 10 + DigitValue(s[|s| - 1])
  }

  /** The shortest decimal spelling of a natural number. */
  function NatToDigits(n: nat): (s: string)
    ensures |s| >= 1 && AllDigits(s)
  {
    if n < 10 then [DigitChar(n)] else NatToDigits(n / 10) + [DigitChar(n % 10)]
  }

  /** Python's `str(n)` for an integer. */
  function IntToString(n: int): string
  {
    if n < 0 then "-" + NatToDigits(-n) else NatToDigits(n)
  }

  /**
   * Python's `int(s)` on text: an optional sign followed by at least one
   * decimal digit; anything else raises `ValueError` (here `None`).
   */
  function ParseInt(s: string): (r: Option<int>)
    ensures r.Some? <==>
      (|s| >= 1 && AllDigits(s)) || (|s| >= 2 && (s[0] == '-' || s[0] == '+') && AllDigits(s[1..]))
    ensures |s| >= 1 && AllDigits(s) ==> r == Some(DigitsValue(s) as int)
    ensures |s| >= 2 && s[0] == '+' && AllDigits(s[1..]) ==> r == Some(DigitsValue(s[1..]) as int)
    ensures |s| >= 2 && s[0] == '-' && AllDigits(s[1..]) ==> r == Some(-(DigitsValue(s[1..]) as int))
  {
    if |s| >= 2 && s[0] == '-' && AllDigits(s[1..]) then Some(-(DigitsValue(s[1..]) as int))
    else if |s| >= 2 && s[0] == '+' && AllDigits(s[1..]) then Some(DigitsValue(s[1..]) as int)
    else if |s| >= 1 && AllDigits(s) then Some(DigitsValue(s) as int)
    else None
  }

  lemma {:induction false} DigitsRoundTrip(n: nat)
    ensures DigitsValue(NatToDigits(n)) == n
  {
    var s := NatToDigits(n);
    if n >= 10 {
      DigitsRoundTrip(n / 10);
      assert s[..|s| - 1] == NatToDigits(n / 10);
      assert s[|s| - 1] == DigitChar(n % 10);
    }
  }

  /** `int(str(n)) == n`: the decimal text of an integer reads back as that integer. */
  lemma IntStringRoundTrip(n: int)
    ensures ParseInt(IntToString(n)) == Some(n)
  {
    if n < 0 {
      var d := NatToDigits(-n);
      assert IntToString(n)[1..] == d;
      DigitsRoundTrip(-n);
    } else {
      DigitsRoundTrip(n);
      assert IntToString(n)[0] != '-' && IntToString(n)[0] != '+';
    }
  }

  /**
   * Python's `int(v)` on a decoded JSON value: integers pass, booleans give
   * 0 or 1, text is parsed, and null, lists and objects raise `TypeError`.
   */
  function PyInt(v: Json): (r: Option<int>)
    ensures v.JInt? ==> r == Some(v.n)
    ensures v.JNull? || v.JArr? || v.JObj? ==> r.None?
  {
    match v
    case JInt(n) => Some(n)
    case JBool(b) => Some(if b then 1 else 0)
    case JStr(s) => ParseInt(s)
    case _ => None
  }

  // ---------------------------------------------------------------------
  // ",".join(xs) and s.split(",")
  // ---------------------------------------------------------------------

  /** Python's `sep.join(xs)` for a one-character separator. */
  function Join(xs: seq<string>, sep: char): string
  {
    if |xs| == 0 then ""
    else if |xs| == 1 then xs[0]
    else xs[0] + [sep] + Join(xs[1..], sep)
  }

  /**
   * Python's `s.split(sep)` for a one-character separator: the text between
   * separators, so `n` separators always give `n + 1` pieces and the empty
   * text gives `[""]`.
   */
  function Split(s: string, sep: char): (r: seq<string>)
    ensures |r| >= 1
    decreases |s|
  {
    if |s| == 0 then [""]
    else if s[0] == sep then [""] + Split(s[1..], sep)
    else var rest := Split(s[1..], sep); [[s[0]] + rest[0]] + rest[1..]
  }

  lemma {:induction false} SplitOfSeparatorFree(s: string, sep: char)
    requires sep !in s
    ensures Split(s, sep) == [s]
    decreases |s|
  {
    if |s| > 0 {
      SplitOfSeparatorFree(s[1..], sep);
      assert [s[0]] + s[1..] == s;
    }
  }

  lemma {:induction false} SplitAfterPiece(a: string, b: string, sep: char)
    requires sep !in a
    ensures Split(a + [sep] + b, sep) == [a] + Split(b, sep)
    decreases |a|
  {
    if |a| == 0 {
      assert a + [sep] + b == [sep] + b;
      assert ([sep] + b)[1..] == b;
    } else {
      var s := a + [sep] + b;
      assert s[0] == a[0];
      assert s[1..] == a[1..] + [sep] + b;
      SplitAfterPiece(a[1..], b, sep);
      assert [a[0]] + a[1..] == a;
    }
  }

  /**
   * Splitting on `sep` what was joined with `sep` gives the pieces back,
   * provided there is at least one piece and no piece contains `sep`.
   */
  lemma {:induction false} SplitJoinRoundTrip(xs: seq<string>, sep: char)
    requires |xs| >= 1
    requires forall i :: 0 <= i < |xs| ==> sep !in xs[i]
    ensures Split(Join(xs, sep), sep) == xs
    decreases |xs|
  {
    if |xs| == 1 {
      SplitOfSeparatorFree(xs[0], sep);
    } else {
      SplitJoinRoundTrip(xs[1..], sep);
      SplitAfterPiece(xs[0], Join(xs[1..], sep), sep);
      assert [xs[0]] + xs[1..] == xs;
    }
  }
}

=== FILE: enums.dfy ===
/**
 * The tracking service's string enumerations (tracking_service/enums.py):
 * each value set as a datatype, with the text the enumeration stores and
 * the parser that accepts exactly those texts.
 */
module Enums {
  import opened Basics

  datatype TrackingType = SleepType | DayType

  datatype SleepQuality = Bad | Moderate | Good

  datatype TriggerCategory = Food | Environment | Lifestyle | Emotion | OtherCategory

  function TrackingTypeValue(t: TrackingType): string
  {
    match t
    case SleepType => "sleep"
    case DayType => "day"
  }

  function ParseTrackingType(s: string): (r: Option<TrackingType>)
    ensures r.Some? ==> TrackingTypeValue(r.value) == s
  {
    if s == "sleep" then Some(SleepType)
    else if s == "day" then Some(DayType)
    else None
  }

  function SleepQualityValue(q: SleepQuality): string
  {
    match q
    case Bad => "bad"
    case Moderate => "moderate"
    case Good => "good"
  }

  function ParseSleepQuality(s: string): (r: Option<SleepQuality>)
    ensures r.Some? ==> SleepQualityValue(r.value) == s
  {
    if s == "bad" then Some(Bad)
    else if s == "moderate" then Some(Moderate)
    else if s == "good" then Some(Good)
    else None
  }

  function TriggerCategoryValue(c: TriggerCategory): string
  {
    match c
    case Food => "food"
    case Environment => "environment"
    case Lifestyle => "lifestyle"
    case Emotion => "emotion"
    case OtherCategory => "other"
  }

  function ParseTriggerCategory(s: string): (r: Option<TriggerCategory>)
    ensures r.Some? ==> TriggerCategoryValue(r.value) == s
  {
    if s == "food" then Some(Food)
    else if s == "environment" then Some(Environment)
    else if s == "lifestyle" then Some(Lifestyle)
    else if s == "emotion" then Some(Emotion)
    else if s == "other" then Some(OtherCategory)
    else None
  }

  /** TrackingType has exactly the values "sleep" and "day", each read back by the parser. */
  lemma TrackingTypeValues(s: string)
    ensures ParseTrackingType(s).Some? <==> s in {"sleep", "day"}
    ensures forall t: TrackingType :: ParseTrackingType(TrackingTypeValue(t)) == Some(t)
  {
    assert TrackingTypeValue(DayType) != TrackingTypeValue(SleepType);
  }

  /** SleepQuality has exactly the values "bad", "moderate" and "good". */
  lemma SleepQualityValues(s: string)
    ensures ParseSleepQuality(s).Some? <==> s in {"bad", "moderate", "good"}
    ensures forall q: SleepQuality :: ParseSleepQuality(SleepQualityValue(q)) == Some(q)
  {
    assert "moderate" != "bad" && "good" != "bad" && "good" != "moderate";
  }

  /** TriggerCategory has exactly "food", "environment", "lifestyle", "emotion" and "other". */
  lemma TriggerCategoryValues(s: string)
    ensures ParseTriggerCategory(s).Some? <==> s in {"food", "environment", "lifestyle", "emotion", "other"}
    ensures forall c: TriggerCategory :: ParseTriggerCategory(TriggerCategoryValue(c)) == Some(c)
  {
    assert "food"[0] != "environment"[0] && "food"[0] != "lifestyle"[0];
    assert "food"[0] != "emotion"[0] && "food"[0] != "other"[0];
    assert "environment"[1] != "emotion"[1] && "environment"[0] != "lifestyle"[0];
    assert "environment"[0] != "other"[0] && "lifestyle"[0] != "emotion"[0];
    assert "lifestyle"[0] != "other"[0] && "emotion"[0] != "other"[0];
  }
}

=== FILE: gateway.dfy ===
/**
 * The API gateway (api_gateway/main.py): the path-prefix routing decision,
 * the 422-to-400 status remap and the decision skeleton of the catch-all
 * proxy. The upstream HTTP call itself is not modelled: its outcome is a
 * parameter, `None` standing for any exception the client raises.
 */
module Gateway {
  import opened Basics

  /** The two backend base URLs, read from the environment with defaults. */
  datatype Config = Config(userServiceUrl: string, trackingServiceUrl: string)

  const DefaultConfig := Config("http://user-service:8001", "http://tracking-service:8002")

  /** `determine_service_url`: the backend whose prefix the path starts with, if any. */
  function DetermineServiceUrl(path: string, cfg: Config): Option<string>
  {
    if StartsWith(path, "users") || StartsWith(path, "token") then Some(cfg.userServiceUrl)
    else if StartsWith(path, "trackings") || StartsWith(path, "details") then Some(cfg.trackingServiceUrl)
    else None
  }

  predicate UserPrefixed(path: string)
  {
    StartsWith(path, "users") || StartsWith(path, "token")
  }

  predicate TrackingPrefixed(path: string)
  {
    StartsWith(path, "trackings") || StartsWith(path, "details")
  }

  lemma PrefixChar(s: string, prefix: string, i: nat)
    requires StartsWith(s, prefix) && i < |prefix|
    ensures s[i] == prefix[i]
  {
    assert s[..|prefix|][i] == s[i];
  }

  lemma NotPrefix(s: string, prefix: string, i: nat)
    requires i < |prefix| && (i >= |s| || s[i] != prefix[i])
    ensures !StartsWith(s, prefix)
  {
    if StartsWith(s, prefix) { PrefixChar(s, prefix, i); }
  }

  /** No path starts with both a user-service prefix and a tracking-service prefix. */
  lemma PrefixesExclusive(path: string)
    ensures !(UserPrefixed(path) && TrackingPrefixed(path))
  {
    if StartsWith(path, "users") {
      PrefixChar(path, "users", 0);
      NotPrefix(path, "trackings", 0);
      NotPrefix(path, "details", 0);
    } else if StartsWith(path, "token") {
      PrefixChar(path, "token", 1);
      PrefixChar(path, "token", 0);
      NotPrefix(path, "trackings", 1);
      NotPrefix(path, "details", 0);
    }
  }

  /** The routing decision, stated against the two prefix families. */
  lemma {:induction false} RoutingByPrefix(path: string, cfg: Config)
    ensures UserPrefixed(path) ==> DetermineServiceUrl(path, cfg) == Some(cfg.userServiceUrl)
    ensures TrackingPrefixed(path) ==> DetermineServiceUrl(path, cfg) == Some(cfg.trackingServiceUrl)
    ensures !UserPrefixed(path) && !TrackingPrefixed(path) ==> DetermineServiceUrl(path, cfg) == None
  {
    PrefixesExclusive(path);
  }

  /**
   * Routing depends only on the leading prefix: a path that resolves keeps
   * its target whatever is appended to it.
   */
  lemma {:induction false} RoutingStableUnderExtension(path: string, suffix: string, cfg: Config)
    requires DetermineServiceUrl(path, cfg).Some?
    ensures DetermineServiceUrl(path + suffix, cfg) == DetermineServiceUrl(path, cfg)
  {
    if UserPrefixed(path) {
      if StartsWith(path, "users") { StartsWithExtended(path, suffix, "users"); }
      else { StartsWithExtended(path, suffix, "token"); }
    } else {
      if StartsWith(path, "trackings") { StartsWithExtended(path, suffix, "trackings"); }
      else { StartsWithExtended(path, suffix, "details"); }
      PrefixesExclusive(path + suffix);
    }
  }

  /** The gateway's own unit-test cases for the routing decision. */
  lemma RoutingExamples(cfg: Config)
    ensures DetermineServiceUrl("users/profile", cfg) == Some(cfg.userServiceUrl)
    ensures DetermineServiceUrl("token/generate", cfg) == Some(cfg.userServiceUrl)
    ensures DetermineServiceUrl("trackings/12345", cfg) == Some(cfg.trackingServiceUrl)
    ensures DetermineServiceUrl("details/shipment", cfg) == Some(cfg.trackingServiceUrl)
    ensures DetermineServiceUrl("orders/123", cfg) == None
    ensures DetermineServiceUrl("", cfg) == None
    ensures DetermineServiceUrl("userdetails", cfg) == None
  {
    assert "users/profile"[..5] == "users";
    assert "token/generate"[..5] == "token";
    NotPrefix("token/generate", "users", 0);
    NotPrefix("trackings/12345", "users", 0);
    NotPrefix("trackings/12345", "token", 1);
    assert "trackings/12345"[..9] == "trackings";
    NotPrefix("details/shipment", "users", 0);
    NotPrefix("details/shipment", "token", 0);
    NotPrefix("details/shipment", "trackings", 0);
    assert "details/shipment"[..7] == "details";
    NotPrefix("orders/123", "users", 0);
    NotPrefix("orders/123", "token", 0);
    NotPrefix("orders/123", "trackings", 0);
    NotPrefix("orders/123", "details", 0);
    NotPrefix("", "users", 0);
    NotPrefix("", "token", 0);
    NotPrefix("", "trackings", 0);
    NotPrefix("", "details", 0);
    NotPrefix("userdetails", "users", 4);
    NotPrefix("userdetails", "token", 0);
    NotPrefix("userdetails", "trackings", 0);
    NotPrefix("userdetails", "details", 0);
  }

  /** `map_status_code`: 422 Unprocessable Entity becomes 400, every other code passes. */
  function MapStatusCode(statusCode: int): (r: int)
    ensures r != 422
    ensures statusCode != 422 ==> r == statusCode
    ensures statusCode == 422 ==> r == 400
  {
    var d := map[422 := 400];
    if statusCode in d then d[statusCode] else statusCode
  }

  lemma MapStatusCodeIdempotent(statusCode: int)
    ensures MapStatusCode(MapStatusCode(statusCode)) == MapStatusCode(statusCode)
  {
  }

  /** An inbound request as the proxy sees it. */
  datatype Request = Request(
    verb: string,
    fullPath: string,
    headers: map<string, string>,
    params: map<string, string>,
    body: seq<byte>)

  /** The request the gateway sends upstream. */
  datatype Upstream = Upstream(
    verb: string,
    url: string,
    headers: map<string, string>,
    params: map<string, string>,
    body: seq<byte>)

  /** What the upstream service answered. */
  datatype Reply = Reply(statusCode: int, headers: map<string, string>, content: seq<byte>)

  datatype Response =
    | Relayed(statusCode: int, headers: map<string, string>, content: seq<byte>, mediaType: Option<string>)
    | HttpError(statusCode: int, detail: string)

  /**
   * The upstream request the proxy would make, or `None` when no service is
   * resolved (an unset or empty base URL counts as none: `if not service_url`).
   */
  function Forward(req: Request, cfg: Config): (r: Option<Upstream>)
    ensures r.None? <==> DetermineServiceUrl(req.fullPath, cfg) in {None, Some("")}
    ensures r.Some? ==>
      && r.value.url == DetermineServiceUrl(req.fullPath, cfg).value + "/" + req.fullPath
      && r.value.verb == req.verb
      && r.value.headers == req.headers
      && r.value.params == req.params
      && r.value.body == req.body
  {
    match DetermineServiceUrl(req.fullPath, cfg)
    case None => None
    case Some(serviceUrl) =>
      if serviceUrl == "" then None
      else Some(Upstream(req.verb, serviceUrl + "/" + req.fullPath, req.headers, req.params, req.body))
  }

  /**
   * `proxy`: 404 when no service is resolved, 502 when the upstream call
   * raised (`reply == None`), and otherwise the upstream content and headers
   * with the remapped status.
   */
  function Proxy(req: Request, cfg: Config, reply: Option<Reply>): (r: Response)
    ensures Forward(req, cfg).None? ==> r == HttpError(404, "Service not found")
    ensures Forward(req, cfg).Some? && reply.None? ==> r.HttpError? && r.statusCode == 502
    ensures Forward(req, cfg).Some? && reply.Some? ==>
      && r.Relayed?
      && r.statusCode == MapStatusCode(reply.value.statusCode)
      && r.content == reply.value.content
      && r.headers == reply.value.headers
      && r.mediaType == (if "content-type" in reply.value.headers then Some(reply.value.headers["content-type"]) else None)
  {
    match Forward(req, cfg)
    case None => HttpError(404, "Service not found")
    case Some(_) =>
      match reply
      case None => HttpError(502, "Error in proxy request")
      case Some(rep) =>
        var mediaType := if "content-type" in rep.headers then Some(rep.headers["content-type"]) else None;
        Relayed(MapStatusCode(rep.statusCode), rep.headers, rep.content, mediaType)
  }

  /**
   * With no resolved service the answer does not depend on any upstream
   * outcome: no upstream call is made.
   */
  lemma UnroutedIgnoresUpstream(req: Request, cfg: Config, a: Option<Reply>, b: Option<Reply>)
    requires DetermineServiceUrl(req.fullPath, cfg).None?
    ensures Proxy(req, cfg, a) == Proxy(req, cfg, b) == HttpError(404, "Service not found")
  {
  }

  /** The proxy never answers 422: upstream validation failures reach clients as 400. */
  lemma ProxyNeverAnswers422(req: Request, cfg: Config, reply: Option<Reply>)
    ensures Proxy(req, cfg, reply).statusCode != 422
  {
  }

  /** With the default configuration every routed path is forwarded. */
  lemma DefaultConfigForwardsRoutedPaths(req: Request)
    requires DetermineServiceUrl(req.fullPath, DefaultConfig).Some?
    ensures Forward(req, DefaultConfig).Some?
  {
  }
}

=== FILE: system.dfy ===
/**
 * The services together: the user service publishes USER_DELETED bodies
 * to the exchange and the tracking service's consumer applies them in
 * order; the tracking service asks the user service's /token-validate
 * for the caller; and the gateway relays every answer.
 */
module System {
  import opened Basics
  import TrackingModels
  import TrackingSchemas
  import TrackingCrud
  import TrackingEvents
  import TrackingAuth
  import TrackingRouter
  import UserCrud
  import UserAuthentication
  import UserRouter
  import Gateway

  // ---------------------------------------------------------------------
  // Cascading delete
  // ---------------------------------------------------------------------

  /** What the publisher sends is what the consumer expects: a bulk delete of exactly that user. */
  lemma PublishedEventIsConsumed(userId: int)
    ensures UserRouter.DeletedEvent(userId) == TrackingEvents.UserDeletedEvent(userId)
    ensures TrackingEvents.CallbackDecision(Some(UserRouter.DeletedEvent(userId))) ==
      TrackingEvents.DeleteUserTrackings(userId)
  {
    TrackingEvents.UserDeletedEventRoundTrip(userId);
  }

  /** The consumer applying the published bodies in order, every bulk delete committing. */
  function Deliver(db: TrackingModels.Tables, published: seq<Json>): TrackingModels.Tables
    decreases |published|
  {
    if |published| == 0 then db
    else Deliver(TrackingEvents.ApplyEvent(db, Some(published[0]), false).1, published[1..])
  }

  /** The bodies published for deleting the users `ids`, in that order. */
  function DeletionEvents(ids: seq<int>): (q: seq<Json>)
    ensures |q| == |ids| && forall i :: 0 <= i < |ids| ==> q[i] == UserRouter.DeletedEvent(ids[i])
  {
    if |ids| == 0 then [] else [UserRouter.DeletedEvent(ids[0])] + DeletionEvents(ids[1..])
  }

  /** The tables without any Sleep or Day of the users in `gone`: the reference for a run of deletions. */
  function PurgeAll(db: TrackingModels.Tables, gone: set<int>): (r: TrackingModels.Tables)
    ensures r.symptoms == db.symptoms && r.triggers == db.triggers
  {
    db.(sleeps := map id | id in db.sleeps && db.sleeps[id].userId !in gone :: db.sleeps[id],
        days := map id | id in db.days && db.days[id].userId !in gone :: db.days[id])
  }

  lemma PurgeThenPurgeAll(db: TrackingModels.Tables, userId: int, gone: set<int>)
    ensures PurgeAll(TrackingCrud.PurgeUser(db, userId), gone) == PurgeAll(db, gone + {userId})
  {
    var lhs := PurgeAll(TrackingCrud.PurgeUser(db, userId), gone);
    var rhs := PurgeAll(db, gone + {userId});
    assert lhs.sleeps == rhs.sleeps;
    assert lhs.days == rhs.days;
  }

  /** Delivering a run of deletions removes exactly the rows of the users named, in any order and with repeats. */
  lemma {:induction false} DeliverDeletions(db: TrackingModels.Tables, ids: seq<int>)
    ensures Deliver(db, DeletionEvents(ids)) == PurgeAll(db, set u | u in ids)
    decreases |ids|
  {
    if |ids| == 0 {
      assert PurgeAll(db, {}).sleeps == db.sleeps;
      assert PurgeAll(db, {}).days == db.days;
    } else {
      var q := DeletionEvents(ids);
      PublishedEventIsConsumed(ids[0]);
      var next := TrackingEvents.ApplyEvent(db, Some(q[0]), false).1;
      assert next == TrackingCrud.PurgeUser(db, ids[0]);
      assert q[1..] == DeletionEvents(ids[1..]);
      DeliverDeletions(next, ids[1..]);
      PurgeThenPurgeAll(db, ids[0], set u | u in ids[1..]);
      assert (set u | u in ids[1..]) + {ids[0]} == set u | u in ids;
    }
  }

  /**
   * Convergence: once the published deletions are delivered, no Sleep or
   * Day belongs to a deleted user, and every row of every other user is
   * still there, unchanged.
   */
  lemma DeliveredDeletionsConverge(db: TrackingModels.Tables, ids: seq<int>)
    ensures var after := Deliver(db, DeletionEvents(ids));
      && (forall u :: u in ids ==> TrackingCrud.NoRowsOf(after, u))
      && (forall id :: id in db.sleeps && db.sleeps[id].userId !in ids ==> id in after.sleeps && after.sleeps[id] == db.sleeps[id])
      && (forall id :: id in db.days && db.days[id].userId !in ids ==> id in after.days && after.days[id] == db.days[id])
  {
    DeliverDeletions(db, ids);
  }

  /** Duplicate delivery is a no-op: delivering the run twice over gives the tables delivering it once gives. */
  lemma DuplicateDeliveryIsNoOp(db: TrackingModels.Tables, ids: seq<int>)
    ensures Deliver(db, DeletionEvents(ids + ids)) == Deliver(db, DeletionEvents(ids))
  {
    DeliverDeletions(db, ids + ids);
    DeliverDeletions(db, ids);
    assert (set u | u in ids + ids) == set u | u in ids;
  }

  /**
   * End to end: a DELETE /users/me answered 204 puts the caller's
   * deletion on the exchange, and once the exchange is delivered the
   * caller has no tracking left.
   */
  lemma DeletedUserLeavesNoTrackings(users: map<int, UserCrud.User>, ids: seq<int>,
                                     decoded: Option<UserAuthentication.Claims>, db: TrackingModels.Tables)
    requires UserRouter.DeleteMeSpec(users, DeletionEvents(ids), decoded, false, true).0 == 204
    ensures var r := UserRouter.DeleteMeSpec(users, DeletionEvents(ids), decoded, false, true);
      var userId := UserAuthentication.VerifyTokenSpec(UserRouter.EndpointScopes, decoded, users).value;
      && userId !in r.1
      && r.2 == DeletionEvents(ids + [userId])
      && TrackingCrud.NoRowsOf(Deliver(db, r.2), userId)
  {
    var r := UserRouter.DeleteMeSpec(users, DeletionEvents(ids), decoded, false, true);
    var userId := UserAuthentication.VerifyTokenSpec(UserRouter.EndpointScopes, decoded, users).value;
    assert r.2 == DeletionEvents(ids + [userId]);
    DeliveredDeletionsConverge(db, ids + [userId]);
  }

  // ---------------------------------------------------------------------
  // Token delegation
  // ---------------------------------------------------------------------

  /** The user service's /token-validate, as the tracking service receives its answer. */
  function UserServiceValidate(decoded: Option<UserAuthentication.Claims>, users: map<int, UserCrud.User>)
    : string -> Option<TrackingAuth.ValidateReply>
  {
    scopes =>
      var reply := UserRouter.ValidateToken(Some(scopes), decoded, users);
      Some(TrackingAuth.ValidateReply(reply.statusCode, Some(reply.body)))
  }

  /**
   * Every tracking endpoint acts for exactly the user `verify_token` finds
   * in the token with scope "me"; every refusal of the user service,
   * whether 401, 404 or 500, reaches the tracking client as a 401.
   */
  lemma TrackingCallerIsTokenSubject(decoded: Option<UserAuthentication.Claims>, users: map<int, UserCrud.User>)
    ensures TrackingRouter.CurrentUser(UserServiceValidate(decoded, users)) ==
      match UserAuthentication.VerifyTokenSpec(["me"], decoded, users)
      case Granted(userId) => TrackingAuth.Authorized(userId)
      case Refused(_, _) => TrackingAuth.Denied(401, "Unauthorized")
  {
    TrackingAuth.ScopesSurviveTheQuery(["me"]);
    assert TrackingAuth.ScopesParam(TrackingRouter.EndpointScopes) == "me";
    assert Split("me", ',') == ["me"];
  }

  // ---------------------------------------------------------------------
  // The gateway in front
  // ---------------------------------------------------------------------

  /**
   * An authorized PUT whose body neither update schema accepts: the tracking
   * service's validation handler answers 400, and the gateway relays it as 400.
   */
  lemma InvalidTrackingBodyReachesClientAs400(req: Gateway.Request, db: TrackingModels.Tables,
                                              validate: string -> Option<TrackingAuth.ValidateReply>,
                                              trackingType: string, trackingId: int, body: map<string, Json>,
                                              headers: map<string, string>, content: seq<byte>, commitFails: bool)
    requires TrackingModels.Consistent(db)
    requires Gateway.Forward(req, Gateway.DefaultConfig).Some?
    requires TrackingRouter.CurrentUser(validate).Authorized? && TrackingSchemas.ParseTrackingUpdate(body).None?
    ensures var answer := TrackingRouter.Update(db, validate, trackingType, trackingId, body, commitFails).0;
      && answer == TrackingRouter.InvalidBody(400, body)
      && Gateway.Proxy(req, Gateway.DefaultConfig, Some(Gateway.Reply(answer.statusCode, headers, content))).statusCode == 400
  {
  }
}

=== FILE: tracking_auth.dfy ===
/**
 * The tracking service's token delegate (tracking_service/auth.py,
 * `get_user_id_from_token`): the required scopes are sent, comma-joined,
 * to the user service's token-validate endpoint, and the user id is read
 * from its answer. The HTTP call is a parameter: `None` stands for a
 * transport error, which the delegate does not catch.
 */
module TrackingAuth {
  import opened Basics

  /** The answer of the user service: a status and the body `response.json()` decodes (`None`: not JSON). */
  datatype ValidateReply = ValidateReply(statusCode: int, body: Option<Json>)

  /** The user id, or the HTTP error the request ends with. */
  datatype AuthOutcome = Authorized(userId: int) | Denied(statusCode: int, detail: string)

  /** The `scopes` query parameter: `",".join(security_scopes.scopes)`. */
  function ScopesParam(scopes: seq<string>): string
  {
    Join(scopes, ',')
  }

  /** The URL the delegate requests, and the header carrying the caller's token. */
  function ValidateUrl(userServiceUrl: string, scopes: seq<string>): string
  {
    userServiceUrl + "/token-validate?scopes=" + ScopesParam(scopes)
  }

  function AuthorizationHeader(token: string): map<string, string>
  {
    map["Authorization" := "Bearer " + token]
  }

  /**
   * The decision on the answer: a 200 whose `user_id` converts to an
   * integer gives that integer; a 200 without one is a 500 (a missing key
   * gives `int(None)`, a body that is not JSON a decode error, a body that
   * is not an object has no `.get`); any other status is a 401; a
   * transport error escapes as a 500.
   */
  function GetUserIdFromToken(reply: Option<ValidateReply>): (r: AuthOutcome)
    ensures r.Authorized? <==>
      && reply.Some? && reply.value.statusCode == 200
      && reply.value.body.Some? && reply.value.body.value.JObj?
      && Get(reply.value.body.value.fields, "user_id").Some?
      && PyInt(Get(reply.value.body.value.fields, "user_id").value).Some?
    ensures r.Authorized? ==> Some(r.userId) == PyInt(reply.value.body.value.fields["user_id"])
    ensures r.Denied? ==> r.statusCode in {401, 500}
    ensures reply.Some? && reply.value.statusCode != 200 ==> r == Denied(401, "Unauthorized")
  {
    match reply
    case None => Denied(500, "Internal Server Error")
    case Some(ValidateReply(statusCode, body)) =>
      if statusCode != 200 then Denied(401, "Unauthorized")
      else match body
        case Some(JObj(fields)) =>
          (match Get(fields, "user_id")
           case Some(v) =>
             (match PyInt(v)
              case Some(userId) => Authorized(userId)
              case None => Denied(500, "User ID not found in token!"))
           case None => Denied(500, "User ID not found in token!"))
        case Some(_) => Denied(500, "Internal Server Error")
        case None => Denied(500, "User ID not found in token!")
  }

  /** A 200 answer carrying an integer `user_id` yields exactly that id. */
  lemma OkReplyYieldsUserId(userId: int)
    ensures GetUserIdFromToken(Some(ValidateReply(200, Some(JObj(map["user_id" := JInt(userId)]))))) == Authorized(userId)
  {
  }

  /** A 200 answer without a usable `user_id` is a server error, never an id. */
  lemma OkReplyWithoutUserIdIs500(fields: map<string, Json>)
    requires "user_id" !in fields || PyInt(fields["user_id"]).None?
    ensures GetUserIdFromToken(Some(ValidateReply(200, Some(JObj(fields))))).statusCode == 500
  {
  }

  /** A transport error never yields a user id. */
  lemma TransportErrorNeverAuthorizes()
    ensures GetUserIdFromToken(None).Denied?
  {
  }

  /** A non-empty list of comma-free scopes arrives at the user service as it was sent. */
  lemma ScopesSurviveTheQuery(scopes: seq<string>)
    requires |scopes| >= 1
    requires forall i :: 0 <= i < |scopes| ==> ',' !in scopes[i]
    ensures Split(ScopesParam(scopes), ',') == scopes
  {
    SplitJoinRoundTrip(scopes, ',');
  }
}

=== FILE: tracking_crud.dfy ===
/**
 * The tracking service's data-access layer (tracking_service/crud.py).
 *
 * Each operation is specified by a function on the database value
 * `Tables` that returns the outcome together with the database after the
 * call (a failed call leaves it as it was: nothing is committed). The
 * class `TrackingStore` holds the tables as mutable maps; its methods
 * perform the operations step by step and are proved to agree with those
 * functions and to keep the table constraints.
 */
module TrackingCrud {
  import opened Basics
  import opened Enums
  import opened TrackingModels
  import opened TrackingSchemas

  /** The outcome of an operation and the database it leaves behind. */
  datatype Outcome<T> = Outcome(result: Result<T>, db: Tables)

  // ---------------------------------------------------------------------
  // add_values_to_model
  // ---------------------------------------------------------------------

  /** The relationship attributes `add_values_to_model` is asked to fill, in order. */
  const Associations: seq<string> := ["symptoms", "triggers", "late_morning_symptoms", "afternoon_symptoms"]

  /** The column keys a payload dump can carry besides the relationships. */
  const Columns: seq<string> := ["duration", "date", "quality", "comment"]

  datatype RelatedModel = SymptomModel | TriggerModel

  /** `get_model_by_attribute`: the table a relationship attribute's ids refer to. */
  function GetModelByAttribute(attribute: string): (r: Option<RelatedModel>)
    ensures r.Some? <==> attribute in Associations
    ensures r == Some(TriggerModel) <==> attribute == "triggers"
  {
    if attribute == "triggers" then Some(TriggerModel)
    else if attribute in {"symptoms", "late_morning_symptoms", "afternoon_symptoms"} then Some(SymptomModel)
    else None
  }

  /** Every id names a stored row of the model (`db.get` finds it). */
  predicate AllKnown(db: Tables, model: RelatedModel, ids: seq<int>)
  {
    forall v :: v in ids ==> if model == TriggerModel then v in db.triggers else v in db.symptoms
  }

  /** Whether the attribute is a mapped relationship of the tracking's table. */
  predicate HasRelationship(t: Tracking, attribute: string)
  {
    if t.Sleep? then attribute == "symptoms"
    else attribute in {"triggers", "late_morning_symptoms", "afternoon_symptoms"}
  }

  /**
   * `setattr(db_tracking, attr, [db.get(Model, v) for v in values])`. On a
   * mapped relationship an unknown id puts `None` into the collection and
   * the call fails; on any other attribute the list becomes a plain Python
   * attribute of the instance and nothing is stored.
   */
  function SetAssociation(db: Tables, t: Tracking, attribute: string, ids: seq<int>): (r: Option<Tracking>)
    requires attribute in Associations
    ensures r.None? <==> HasRelationship(t, attribute) && !AllKnown(db, GetModelByAttribute(attribute).value, ids)
  {
    if !HasRelationship(t, attribute) then Some(t)
    else if !AllKnown(db, GetModelByAttribute(attribute).value, ids) then None
    else if attribute == "symptoms" then Some(t.(symptoms := ids))
    else if attribute == "triggers" then Some(t.(triggers := ids))
    else if attribute == "late_morning_symptoms" then Some(t.(lateMorningSymptoms := ids))
    else Some(t.(afternoonSymptoms := ids))
  }

  /** The ids given for an attribute: present in the dump and not null. */
  predicate Given(data: map<string, FieldValue>, attribute: string)
  {
    attribute in data && data[attribute].IdsField? && data[attribute].ids.Some?
  }

  /** One iteration of the first loop: pop the attribute and, when given, set it. */
  function StepAssociation(db: Tables, t: Tracking, data: map<string, FieldValue>, attribute: string): Option<Tracking>
    requires attribute in Associations
  {
    if Given(data, attribute) then SetAssociation(db, t, attribute, data[attribute].ids.value) else Some(t)
  }

  /** The first loop over one more attribute is one more step after the loop so far. */
  lemma FoldStep(db: Tables, t: Tracking, data: map<string, FieldValue>, i: nat)
    requires i < |Associations|
    ensures FoldAssociations(db, t, data, Associations[..i + 1]) ==
      match FoldAssociations(db, t, data, Associations[..i])
      case None => None
      case Some(u) => StepAssociation(db, u, data, Associations[i])
  {
    assert Associations[..i + 1][..i] == Associations[..i];
  }

  /** The attributes the first loop has popped after `i` steps. */
  function KeysBefore(i: nat): (keys: set<string>)
    requires i <= |Associations|
    ensures i == |Associations| ==> keys == AssociationKeys()
  {
    set a | a in Associations[..i]
  }

  /** Each step pops one attribute not popped before. */
  lemma KeysBeforeStep(i: nat)
    requires i < |Associations|
    ensures Associations[i] !in KeysBefore(i)
    ensures KeysBefore(i + 1) == KeysBefore(i) + {Associations[i]}
  {
    AssociationKeysDistinct();
    assert Associations[..i + 1] == Associations[..i] + [Associations[i]];
  }

  /** Popping one more key from what is left of a dump. */
  lemma PopStep(data: map<string, FieldValue>, popped: set<string>, key: string)
    requires key !in popped
    ensures key in data - popped <==> key in data
    ensures key in data ==> (data - popped)[key] == data[key]
    ensures data - (popped + {key}) == (data - popped) - {key}
  {
  }

  /** Once the first loop has failed, the whole loop fails. */
  lemma FoldFailureStays(db: Tables, t: Tracking, data: map<string, FieldValue>, i: nat)
    requires i <= |Associations|
    requires FoldAssociations(db, t, data, Associations[..i]).None?
    ensures FoldAssociations(db, t, data, Associations).None?
  {
    var j :| 0 <= j < i && Rejects(db, t, data, Associations[..i][j]);
    assert Associations[..i][j] == Associations[j];
  }

  /** The tracking with its association lists emptied: everything the first loop cannot touch. */
  function Unlinked(t: Tracking): Tracking
  {
    match t
    case Sleep(_, _, _, _, _, _, _) => t.(symptoms := [])
    case Day(_, _, _, _, _, _, _) => t.(triggers := [], lateMorningSymptoms := [], afternoonSymptoms := [])
  }

  /** The attribute is given, is a relationship of the tracking, and names an unknown row. */
  predicate Rejects(db: Tables, t: Tracking, data: map<string, FieldValue>, attribute: string)
    requires attribute in Associations
  {
    Given(data, attribute) && HasRelationship(t, attribute)
    && !AllKnown(db, GetModelByAttribute(attribute).value, data[attribute].ids.value)
  }

  /**
   * The first loop of `add_values_to_model` over `attributes`, `None`
   * once a `setattr` fails. It only replaces association lists, each with
   * given ids that all resolve.
   */
  function FoldAssociations(db: Tables, t: Tracking, data: map<string, FieldValue>, attributes: seq<string>): (r: Option<Tracking>)
    requires forall a :: a in attributes ==> a in Associations
    ensures r.Some? ==> Unlinked(r.value) == Unlinked(t)
    ensures r.Some? && ReferencesResolve(db, t) ==> ReferencesResolve(db, r.value)
    ensures r.None? <==> exists i :: 0 <= i < |attributes| && Rejects(db, t, data, attributes[i])
    decreases |attributes|
  {
    if |attributes| == 0 then Some(t)
    else
      var last := attributes[|attributes| - 1];
      assert last in attributes;
      match FoldAssociations(db, t, data, attributes[..|attributes| - 1])
      case None => None
      case Some(u) => StepAssociation(db, u, data, last)
  }

  /** `setattr(db_tracking, key, value)` for a column; a key the table lacks changes nothing stored. */
  function SetColumn(t: Tracking, key: string, v: FieldValue): (r: Tracking)
    ensures KindOf(r) == KindOf(t) && r.id == t.id && r.userId == t.userId
    ensures key != "date" ==> r.date == t.date
  {
    if key == "duration" && t.Sleep? && v.IntField? then t.(duration := v.n)
    else if key == "date" && v.IntField? then t.(date := v.n)
    else if key == "quality" && t.Sleep? && v.QualityField? then t.(quality := v.q)
    else if key == "comment" && v.TextField? then t.(comment := v.text)
    else t
  }

  /** The second loop: every remaining key of the dump is set on the tracking. */
  function SetColumns(t: Tracking, rest: map<string, FieldValue>, keys: seq<string>): (r: Tracking)
    ensures KindOf(r) == KindOf(t) && r.id == t.id && r.userId == t.userId
    ensures "date" !in rest ==> r.date == t.date
    decreases |keys|
  {
    if |keys| == 0 then t
    else
      var u := SetColumns(t, rest, keys[..|keys| - 1]);
      var key := keys[|keys| - 1];
      if key in rest then SetColumn(u, key, rest[key]) else u
  }

  function AssociationKeys(): set<string>
  {
    set a | a in Associations
  }

  /**
   * `add_values_to_model(db, t, data, Associations, update)`: the
   * relationship attributes are popped from the dump and set when given;
   * with `update` every remaining entry is then set as a column.
   */
  function AddValues(db: Tables, t: Tracking, data: map<string, FieldValue>, update: bool): (r: Option<Tracking>)
    ensures r.Some? ==> KindOf(r.value) == KindOf(t) && r.value.id == t.id && r.value.userId == t.userId
    ensures r.Some? && "date" !in data ==> r.value.date == t.date
    ensures r.Some? && !update ==> Unlinked(r.value) == Unlinked(t)
    ensures r.None? <==> exists i :: 0 <= i < |Associations| && Rejects(db, t, data, Associations[i])
  {
    match FoldAssociations(db, t, data, Associations)
    case None => None
    case Some(u) =>
      assert KindOf(Unlinked(u)) == KindOf(u) && Unlinked(u).id == u.id && Unlinked(u).userId == u.userId;
      assert Unlinked(u).date == u.date;
      if update then Some(SetColumns(u, data - AssociationKeys(), Columns)) else Some(u)
  }

  // ---------------------------------------------------------------------
  // Reference definitions of what create and update store
  // ---------------------------------------------------------------------

  function IdsOr(given: Option<seq<int>>, current: seq<int>): seq<int>
  {
    if given.Some? then given.value else current
  }

  predicate GivenUnknown(db: Tables, model: RelatedModel, given: Option<seq<int>>)
  {
    given.Some? && !AllKnown(db, model, given.value)
  }

  /** The tracking with another comment (both tables have the column). */
  function WithComment(t: Tracking, comment: Option<string>): (r: Tracking)
    ensures Unlinked(r) == Unlinked(t).(comment := comment) && r.comment == comment
  {
    match t
    case Sleep(id, userId, date, duration, quality, _, symptoms) => Sleep(id, userId, date, duration, quality, comment, symptoms)
    case Day(id, userId, date, _, triggers, late, afternoon) => Day(id, userId, date, comment, triggers, late, afternoon)
  }

  /**
   * The stored tracking after an update, written field by field: exactly
   * the payload's columns are overwritten, an association list only when
   * given non-null, and only the comment when the payload is for the other
   * kind of tracking (its other fields are not columns of this table).
   */
  function Updated(t: Tracking, p: Payload): (r: Tracking)
    requires p.SleepUpdate? || p.DayUpdate?
  {
    match p
    case SleepUpdate(duration, quality, symptoms, text) =>
      if t.Sleep? then t.(duration := duration, quality := quality, comment := Some(text), symptoms := IdsOr(symptoms, t.symptoms))
      else WithComment(t, Some(text))
    case DayUpdate(comment, triggers, late, afternoon) =>
      if t.Day? then
        t.(comment := comment, triggers := IdsOr(triggers, t.triggers),
           lateMorningSymptoms := IdsOr(late, t.lateMorningSymptoms),
           afternoonSymptoms := IdsOr(afternoon, t.afternoonSymptoms))
      else WithComment(t, comment)
  }

  /** An id list of the payload that the tracking's table maps names an unknown row. */
  predicate PayloadRejected(db: Tables, t: Tracking, p: Payload)
  {
    match p
    case SleepCreate(_, _, _, _, symptoms) => t.Sleep? && GivenUnknown(db, SymptomModel, symptoms)
    case SleepUpdate(_, _, symptoms, _) => t.Sleep? && GivenUnknown(db, SymptomModel, symptoms)
    case DayCreate(_, _, triggers, late, afternoon) =>
      t.Day? && (GivenUnknown(db, TriggerModel, triggers) || GivenUnknown(db, SymptomModel, late) || GivenUnknown(db, SymptomModel, afternoon))
    case DayUpdate(_, triggers, late, afternoon) =>
      t.Day? && (GivenUnknown(db, TriggerModel, triggers) || GivenUnknown(db, SymptomModel, late) || GivenUnknown(db, SymptomModel, afternoon))
  }

  /** The payload's id lists set on the tracking, where its table maps them. */
  function Linked(t: Tracking, p: Payload): Tracking
  {
    match p
    case SleepCreate(_, _, _, _, symptoms) => if t.Sleep? then t.(symptoms := IdsOr(symptoms, t.symptoms)) else t
    case SleepUpdate(_, _, symptoms, _) => if t.Sleep? then t.(symptoms := IdsOr(symptoms, t.symptoms)) else t
    case DayCreate(_, _, triggers, late, afternoon) =>
      if t.Day? then t.(triggers := IdsOr(triggers, t.triggers), lateMorningSymptoms := IdsOr(late, t.lateMorningSymptoms),
                        afternoonSymptoms := IdsOr(afternoon, t.afternoonSymptoms)) else t
    case DayUpdate(_, triggers, late, afternoon) =>
      if t.Day? then t.(triggers := IdsOr(triggers, t.triggers), lateMorningSymptoms := IdsOr(late, t.lateMorningSymptoms),
                        afternoonSymptoms := IdsOr(afternoon, t.afternoonSymptoms)) else t
  }

  lemma AssociationKeysDistinct()
    ensures "symptoms" != "triggers" && "symptoms" != "late_morning_symptoms" && "symptoms" != "afternoon_symptoms"
    ensures "triggers" != "late_morning_symptoms" && "triggers" != "afternoon_symptoms"
    ensures "late_morning_symptoms" != "afternoon_symptoms"
    ensures "duration" != "triggers" && "duration" != "symptoms" && "quality" != "symptoms" && "comment" != "symptoms"
    ensures "date" != "duration" && "date" != "quality" && "date" != "comment"
    ensures "duration" != "quality" && "duration" != "comment" && "quality" != "comment"
  {
    assert "late_morning_symptoms"[0] != "afternoon_symptoms"[0];
    assert "duration"[0] != "triggers"[0];
  }

  /** One more step of the first loop after an earlier outcome. */
  function Then(db: Tables, r: Option<Tracking>, data: map<string, FieldValue>, attribute: string): Option<Tracking>
    requires attribute in Associations
  {
    match r
    case None => None
    case Some(u) => StepAssociation(db, u, data, attribute)
  }

  /** The first loop over the four attributes, step by step. */
  lemma FoldUnroll(db: Tables, t: Tracking, data: map<string, FieldValue>)
    ensures FoldAssociations(db, t, data, Associations) ==
      Then(db, Then(db, Then(db, StepAssociation(db, t, data, "symptoms"), data, "triggers"),
                    data, "late_morning_symptoms"), data, "afternoon_symptoms")
  {
    var a1, a2, a3 := ["symptoms"], ["symptoms", "triggers"], ["symptoms", "triggers", "late_morning_symptoms"];
    assert Associations[..3] == a3 && a3[..2] == a2 && a2[..1] == a1 && a1[..0] == [];
    assert FoldAssociations(db, t, data, a1) == StepAssociation(db, t, data, "symptoms");
    assert FoldAssociations(db, t, data, a2) == Then(db, FoldAssociations(db, t, data, a1), data, "triggers");
    assert FoldAssociations(db, t, data, a3) == Then(db, FoldAssociations(db, t, data, a2), data, "late_morning_symptoms");
    assert FoldAssociations(db, t, data, Associations) == Then(db, FoldAssociations(db, t, data, a3), data, "afternoon_symptoms");
  }

  /** The first loop on a dump holding only a `symptoms` list among the attributes. */
  lemma {:induction false} FoldSymptomsList(db: Tables, t: Tracking, d: map<string, FieldValue>, symptoms: Option<seq<int>>)
    requires "symptoms" in d && d["symptoms"] == IdsField(symptoms)
    requires "triggers" !in d && "late_morning_symptoms" !in d && "afternoon_symptoms" !in d
    ensures FoldAssociations(db, t, d, Associations) ==
      if t.Sleep? && GivenUnknown(db, SymptomModel, symptoms) then None
      else if t.Sleep? then Some(t.(symptoms := IdsOr(symptoms, t.symptoms)))
      else Some(t)
  {
    FoldUnroll(db, t, d);
    var s1 := StepAssociation(db, t, d, "symptoms");
    assert s1 == if t.Sleep? && GivenUnknown(db, SymptomModel, symptoms) then None
                 else if t.Sleep? then Some(t.(symptoms := IdsOr(symptoms, t.symptoms)))
                 else Some(t);
    if s1.Some? {
      assert !HasRelationship(s1.value, "triggers") || !Given(d, "triggers");
    }
  }

  lemma {:induction false} FoldOnSleepDump(db: Tables, t: Tracking, p: Payload)
    requires p.SleepCreate? || p.SleepUpdate?
    ensures FoldAssociations(db, t, Dump(p), Associations) ==
      if PayloadRejected(db, t, p) then None else Some(Linked(t, p))
  {
    AssociationKeysDistinct();
    var d := Dump(p);
    assert "symptoms" in d && d["symptoms"] == IdsField(p.symptoms);
    assert "triggers" !in d && "late_morning_symptoms" !in d && "afternoon_symptoms" !in d;
    FoldSymptomsList(db, t, d, p.symptoms);
  }

  /** The three id lists of a Day, set one after the other, failing on the first unknown id. */
  function SetDayLists(db: Tables, t: Tracking, triggers: Option<seq<int>>, late: Option<seq<int>>,
                       afternoon: Option<seq<int>>): Option<Tracking>
    requires t.Day?
  {
    if GivenUnknown(db, TriggerModel, triggers) || GivenUnknown(db, SymptomModel, late)
       || GivenUnknown(db, SymptomModel, afternoon) then None
    else Some(t.(triggers := IdsOr(triggers, t.triggers), lateMorningSymptoms := IdsOr(late, t.lateMorningSymptoms),
                 afternoonSymptoms := IdsOr(afternoon, t.afternoonSymptoms)))
  }

  /** The first loop on a dump holding the three Day lists and no `symptoms` list. */
  lemma {:induction false} FoldDayLists(db: Tables, t: Tracking, d: map<string, FieldValue>,
                                        triggers: Option<seq<int>>, late: Option<seq<int>>, afternoon: Option<seq<int>>)
    requires "symptoms" !in d
    requires "triggers" in d && d["triggers"] == IdsField(triggers)
    requires "late_morning_symptoms" in d && d["late_morning_symptoms"] == IdsField(late)
    requires "afternoon_symptoms" in d && d["afternoon_symptoms"] == IdsField(afternoon)
    ensures FoldAssociations(db, t, d, Associations) ==
      if t.Day? then SetDayLists(db, t, triggers, late, afternoon) else Some(t)
  {
    FoldUnroll(db, t, d);
    assert StepAssociation(db, t, d, "symptoms") == Some(t);
    if t.Day? {
      var s2 := Then(db, Some(t), d, "triggers");
      assert s2 == if GivenUnknown(db, TriggerModel, triggers) then None
                   else Some(t.(triggers := IdsOr(triggers, t.triggers)));
      var s3 := Then(db, s2, d, "late_morning_symptoms");
      assert s3 == if GivenUnknown(db, TriggerModel, triggers) || GivenUnknown(db, SymptomModel, late) then None
                   else Some(t.(triggers := IdsOr(triggers, t.triggers), lateMorningSymptoms := IdsOr(late, t.lateMorningSymptoms)));
    } else {
      assert !HasRelationship(t, "triggers") && !HasRelationship(t, "late_morning_symptoms");
      assert !HasRelationship(t, "afternoon_symptoms");
    }
  }

  lemma {:induction false} FoldOnDayDump(db: Tables, t: Tracking, p: Payload)
    requires p.DayCreate? || p.DayUpdate?
    ensures FoldAssociations(db, t, Dump(p), Associations) ==
      if PayloadRejected(db, t, p) then None else Some(Linked(t, p))
  {
    AssociationKeysDistinct();
    var d := Dump(p);
    assert "symptoms" !in d;
    assert d["triggers"] == IdsField(p.triggers);
    assert d["late_morning_symptoms"] == IdsField(p.lateMorningSymptoms);
    assert d["afternoon_symptoms"] == IdsField(p.afternoonSymptoms);
    FoldDayLists(db, t, d, p.triggers, p.lateMorningSymptoms, p.afternoonSymptoms);
  }

  /** The first loop on a payload dump: the payload's id lists, or failure on an unknown id. */
  lemma FoldOnDump(db: Tables, t: Tracking, p: Payload)
    ensures FoldAssociations(db, t, Dump(p), Associations) ==
      if PayloadRejected(db, t, p) then None else Some(Linked(t, p))
  {
    if p.SleepCreate? || p.SleepUpdate? { FoldOnSleepDump(db, t, p); } else { FoldOnDayDump(db, t, p); }
  }

  /** Setting one remaining entry of the dump, if present. */
  function Put(t: Tracking, rest: map<string, FieldValue>, key: string): Tracking
  {
    if key in rest then SetColumn(t, key, rest[key]) else t
  }

  /** The second loop over the four column keys, step by step. */
  lemma ColumnsUnroll(t: Tracking, rest: map<string, FieldValue>)
    ensures SetColumns(t, rest, Columns) == Put(Put(Put(Put(t, rest, "duration"), rest, "date"), rest, "quality"), rest, "comment")
  {
    var c1, c2, c3 := ["duration"], ["duration", "date"], ["duration", "date", "quality"];
    assert Columns[..3] == c3 && c3[..2] == c2 && c2[..1] == c1 && c1[..0] == [];
    assert SetColumns(t, rest, c1) == Put(t, rest, "duration");
    assert SetColumns(t, rest, c2) == Put(SetColumns(t, rest, c1), rest, "date");
    assert SetColumns(t, rest, c3) == Put(SetColumns(t, rest, c2), rest, "quality");
    assert SetColumns(t, rest, Columns) == Put(SetColumns(t, rest, c3), rest, "comment");
  }

  /**
   * What an update stores: exactly `Updated(t, p)`, unless an id list the
   * tracking's table maps names an unknown row.
   */
  lemma {:induction false} UpdateStoresPayload(db: Tables, t: Tracking, p: Payload)
    requires p.SleepUpdate? || p.DayUpdate?
    ensures AddValues(db, t, Dump(p), true) == if PayloadRejected(db, t, p) then None else Some(Updated(t, p))
  {
    FoldOnDump(db, t, p);
    AssociationKeysDistinct();
    if !PayloadRejected(db, t, p) {
      var u := Linked(t, p);
      var rest := Dump(p) - AssociationKeys();
      ColumnsUnroll(u, rest);
      assert "date" !in rest && "comment" in rest;
      if p.SleepUpdate? {
        assert "duration" in rest && "quality" in rest;
      } else {
        assert "duration" !in rest && "quality" !in rest;
      }
    }
  }

  // ---------------------------------------------------------------------
  // Queries
  // ---------------------------------------------------------------------

  /** `get_tracking_by_id`: the row of that type with that id. */
  function GetTrackingById(db: Tables, trackingType: string, trackingId: int): (r: Result<Tracking>)
    ensures AlchemyModelFactory(trackingType).Fail? ==> r == Fail(InvalidType)
    ensures AlchemyModelFactory(trackingType).Ok? ==>
      var table := Table(db, AlchemyModelFactory(trackingType).value);
      (r.Ok? <==> trackingId in table) && (r.Ok? ==> r.value == table[trackingId]) && (r.Fail? ==> r.error == NotFound)
  {
    match AlchemyModelFactory(trackingType)
    case Fail(e) => Fail(e)
    case Ok(kind) =>
      if trackingId in Table(db, kind) then Ok(Table(db, kind)[trackingId]) else Fail(NotFound)
  }

  /** `get_tracking_by_id_and_user`: as above, and the row must belong to the caller. */
  function GetTrackingByIdAndUser(db: Tables, trackingType: string, trackingId: int, userId: int): (r: Result<Tracking>)
    ensures r.Ok? ==> r == GetTrackingById(db, trackingType, trackingId) && r.value.userId == userId
    ensures GetTrackingById(db, trackingType, trackingId).Fail? ==> r == GetTrackingById(db, trackingType, trackingId)
    ensures r == Fail(NotAllowed) <==>
      GetTrackingById(db, trackingType, trackingId).Ok? && GetTrackingById(db, trackingType, trackingId).value.userId != userId
  {
    match GetTrackingById(db, trackingType, trackingId)
    case Fail(e) => Fail(e)
    case Ok(t) => if t.userId != userId then Fail(NotAllowed) else Ok(t)
  }

  /** The date filter of `get_trackings_by_user`: only applied when both bounds are given. */
  predicate InWindow(date: int, startDate: Option<int>, endDate: Option<int>)
  {
    startDate.Some? && endDate.Some? ==> startDate.value <= date <= endDate.value
  }

  /**
   * `get_trackings_by_user`: the caller's rows of that type within the
   * window. (The `timestamp` branch of the source is unreachable: the
   * factory has already rejected every type but "sleep" and "day".)
   */
  function GetTrackingsByUser(db: Tables, trackingType: string, userId: int, startDate: Option<int>, endDate: Option<int>)
    : (r: Result<map<int, Tracking>>)
    ensures r.Fail? <==> AlchemyModelFactory(trackingType).Fail?
    ensures r.Fail? ==> r.error == InvalidType
    ensures r.Ok? ==> var table := Table(db, AlchemyModelFactory(trackingType).value);
      forall id :: id in r.value <==>
        id in table && table[id].userId == userId && InWindow(table[id].date, startDate, endDate)
    ensures r.Ok? ==> var table := Table(db, AlchemyModelFactory(trackingType).value);
      forall id :: id in r.value ==> r.value[id] == table[id]
  {
    match AlchemyModelFactory(trackingType)
    case Fail(e) => Fail(e)
    case Ok(kind) =>
      var table := Table(db, kind);
      Ok(map id | id in table && table[id].userId == userId && InWindow(table[id].date, startDate, endDate) :: table[id])
  }

  /** With either date missing the query returns every row of the user, whatever the other bound. */
  lemma NoWindowWithoutBothDates(db: Tables, trackingType: string, userId: int, startDate: Option<int>, endDate: Option<int>)
    requires startDate.None? || endDate.None?
    requires AlchemyModelFactory(trackingType).Ok?
    ensures GetTrackingsByUser(db, trackingType, userId, startDate, endDate) == GetTrackingsByUser(db, trackingType, userId, None, None)
  {
    var a := GetTrackingsByUser(db, trackingType, userId, startDate, endDate).value;
    var b := GetTrackingsByUser(db, trackingType, userId, None, None).value;
    assert a.Keys == b.Keys;
  }

  /** A narrower window returns a subset of a wider one. */
  lemma WindowMonotone(db: Tables, trackingType: string, userId: int, s1: int, e1: int, s2: int, e2: int)
    requires AlchemyModelFactory(trackingType).Ok?
    requires s2 <= s1 && e1 <= e2
    ensures GetTrackingsByUser(db, trackingType, userId, Some(s1), Some(e1)).value.Keys
         <= GetTrackingsByUser(db, trackingType, userId, Some(s2), Some(e2)).value.Keys
  {
  }

  /** `get_symptoms`: the rows with the given ids, or every row when the list is null or empty. */
  function GetSymptoms(db: Tables, symptomIds: Option<seq<int>>): (r: map<int, Symptom>)
    ensures symptomIds.None? || symptomIds.value == [] ==> r == db.symptoms
    ensures symptomIds.Some? && symptomIds.value != [] ==>
      forall id :: id in r <==> id in db.symptoms && id in symptomIds.value
    ensures forall id :: id in r ==> id in db.symptoms && r[id] == db.symptoms[id]
  {
    if symptomIds.Some? && |symptomIds.value| > 0 then
      map id | id in db.symptoms && id in symptomIds.value :: db.symptoms[id]
    else db.symptoms
  }

  /** `get_triggers`: the rows with the given ids, or every row when the list is null or empty. */
  function GetTriggers(db: Tables, triggerIds: Option<seq<int>>): (r: map<int, Trigger>)
    ensures triggerIds.None? || triggerIds.value == [] ==> r == db.triggers
    ensures triggerIds.Some? && triggerIds.value != [] ==>
      forall id :: id in r <==> id in db.triggers && id in triggerIds.value
    ensures forall id :: id in r ==> id in db.triggers && r[id] == db.triggers[id]
  {
    if triggerIds.Some? && |triggerIds.value| > 0 then
      map id | id in db.triggers && id in triggerIds.value :: db.triggers[id]
    else db.triggers
  }

  // ---------------------------------------------------------------------
  // Updates of the database, as functions
  // ---------------------------------------------------------------------

  /** Some other row of the table already has this `(user_id, date)`. */
  predicate DateTaken(table: map<int, Tracking>, userId: int, date: int)
  {
    exists id :: id in table && table[id].userId == userId && table[id].date == date
  }

  /**
   * `model(**tracking_data)` with `user_id` added and the relationships
   * excluded: `None` when the payload's fields are not the table's columns
   * (a DayCreate has no quality, which `sleeps` requires; a SleepCreate
   * has columns `days` lacks).
   */
  function NewRecord(kind: TrackingType, id: int, userId: int, p: Payload): (r: Option<Tracking>)
    requires p.SleepCreate? || p.DayCreate?
    ensures r.Some? <==> (kind == SleepType && p.SleepCreate?) || (kind == DayType && p.DayCreate?)
    ensures r.Some? ==> KindOf(r.value) == kind && r.value.id == id && r.value.userId == userId && r.value.date == p.date
    ensures r.Some? ==> r.value == Unlinked(r.value)
  {
    match p
    case SleepCreate(duration, date, quality, comment, _) =>
      if kind == SleepType then Some(Sleep(id, userId, date, duration, quality, comment, [])) else None
    case DayCreate(date, comment, _, _, _) =>
      if kind == DayType then Some(Day(id, userId, date, comment, [], [], [])) else None
  }

  /**
   * `create_tracking`, with `newId` the id the table's sequence hands out:
   * the row is built, linked and committed; any failure on the way, the
   * unique `(user_id, date)` constraint and a failing commit included, is
   * TrackingNotValidError.
   */
  function CreateTrackingSpec(db: Tables, newId: int, trackingType: string, p: Payload, userId: int,
                              commitFails: bool): (o: Outcome<Tracking>)
    requires p.SleepCreate? || p.DayCreate?
    ensures o.result.Fail? ==> o.db == db
    ensures AlchemyModelFactory(trackingType).Fail? ==> o.result == Fail(InvalidType)
    ensures o.result.Fail? && AlchemyModelFactory(trackingType).Ok? ==> o.result.error == NotValid
    ensures AlchemyModelFactory(trackingType).Ok? ==>
      var kind := AlchemyModelFactory(trackingType).value;
      (o.result.Ok? <==>
        && NewRecord(kind, newId, userId, p).Some?
        && !PayloadRejected(db, NewRecord(kind, newId, userId, p).value, p)
        && !DateTaken(Table(db, kind), userId, p.date)
        && !commitFails)
    ensures o.result.Ok? ==>
      var kind := AlchemyModelFactory(trackingType).value;
      && KindOf(o.result.value) == kind
      && o.result.value.id == newId && o.result.value.userId == userId && o.result.value.date == p.date
      && ReferencesResolve(db, o.result.value)
      && !DateTaken(Table(db, kind), userId, p.date)
      && o.db == WithTable(db, kind, Table(db, kind)[newId := o.result.value])
  {
    match AlchemyModelFactory(trackingType)
    case Fail(e) => Outcome(Fail(e), db)
    case Ok(kind) =>
      match NewRecord(kind, newId, userId, p)
      case None => Outcome(Fail(NotValid), db)
      case Some(created) =>
        FoldOnDump(db, created, p);
        match AddValues(db, created, Dump(p), false)
        case None => Outcome(Fail(NotValid), db)
        case Some(t) =>
          assert ReferencesResolve(db, created);
          FoldResolves(db, created, Dump(p));
          if DateTaken(Table(db, kind), userId, t.date) || commitFails then Outcome(Fail(NotValid), db)
          else Outcome(Ok(t), WithTable(db, kind, Table(db, kind)[newId := t]))
  }

  lemma FoldResolves(db: Tables, t: Tracking, data: map<string, FieldValue>)
    requires ReferencesResolve(db, t)
    requires AddValues(db, t, data, false).Some?
    ensures ReferencesResolve(db, AddValues(db, t, data, false).value)
  {
  }

  /**
   * `update_tracking`: existence, then ownership, then the update itself;
   * an unknown id in a list and a failing commit are both
   * TrackingNotUpdatedError.
   */
  function UpdateTrackingSpec(db: Tables, p: Payload, trackingType: string, trackingId: int, userId: int,
                              commitFails: bool): (o: Outcome<Tracking>)
    requires p.SleepUpdate? || p.DayUpdate?
    ensures o.result.Fail? ==> o.db == db
    ensures AlchemyModelFactory(trackingType).Fail? ==> o.result == Fail(InvalidType)
    ensures AlchemyModelFactory(trackingType).Ok? ==>
      var table := Table(db, AlchemyModelFactory(trackingType).value);
      && (o.result == Fail(NotFound) <==> trackingId !in table)
      && (o.result == Fail(NotAllowed) <==> trackingId in table && table[trackingId].userId != userId)
      && (o.result == Fail(NotUpdated) <==> trackingId in table && table[trackingId].userId == userId
                                            && (PayloadRejected(db, table[trackingId], p) || commitFails))
      && (o.result.Ok? ==>
            && o.result.value == Updated(table[trackingId], p)
            && o.db == WithTable(db, AlchemyModelFactory(trackingType).value, table[trackingId := o.result.value]))
  {
    match AlchemyModelFactory(trackingType)
    case Fail(e) => Outcome(Fail(e), db)
    case Ok(kind) =>
      var table := Table(db, kind);
      if trackingId !in table then Outcome(Fail(NotFound), db)
      else if table[trackingId].userId != userId then Outcome(Fail(NotAllowed), db)
      else
        UpdateStoresPayload(db, table[trackingId], p);
        match AddValues(db, table[trackingId], Dump(p), true)
        case None => Outcome(Fail(NotUpdated), db)
        case Some(t) =>
          if commitFails then Outcome(Fail(NotUpdated), db)
          else Outcome(Ok(t), WithTable(db, kind, table[trackingId := t]))
  }

  /** `delete_tracking`: existence, then ownership, then the delete, which may fail to commit. */
  function DeleteTrackingSpec(db: Tables, trackingType: string, trackingId: int, userId: int, commitFails: bool): (o: Outcome<Tracking>)
    ensures o.result.Fail? ==> o.db == db
    ensures AlchemyModelFactory(trackingType).Fail? ==> o.result == Fail(InvalidType)
    ensures AlchemyModelFactory(trackingType).Ok? ==>
      var kind := AlchemyModelFactory(trackingType).value;
      var table := Table(db, kind);
      && (o.result == Fail(NotFound) <==> trackingId !in table)
      && (o.result == Fail(NotAllowed) <==> trackingId in table && table[trackingId].userId != userId)
      && (o.result == Fail(NotDeleted) <==> trackingId in table && table[trackingId].userId == userId && commitFails)
      && (o.result.Ok? ==> o.result.value == table[trackingId] && o.db == WithTable(db, kind, table - {trackingId}))
  {
    match AlchemyModelFactory(trackingType)
    case Fail(e) => Outcome(Fail(e), db)
    case Ok(kind) =>
      var table := Table(db, kind);
      if trackingId !in table then Outcome(Fail(NotFound), db)
      else if table[trackingId].userId != userId then Outcome(Fail(NotAllowed), db)
      else if commitFails then Outcome(Fail(NotDeleted), db)
      else Outcome(Ok(table[trackingId]), WithTable(db, kind, table - {trackingId}))
  }

  /** The rows of a table that do not belong to the user. */
  function Purge(m: map<int, Tracking>, userId: int): (r: map<int, Tracking>)
    ensures forall id :: id in r <==> id in m && m[id].userId != userId
    ensures forall id :: id in r ==> r[id] == m[id]
  {
    map id | id in m && m[id].userId != userId :: m[id]
  }

  /** The two bulk deletes of `delete_trackings_by_user`, committed together. */
  function PurgeUser(db: Tables, userId: int): (r: Tables)
    ensures r.symptoms == db.symptoms && r.triggers == db.triggers
    ensures r.sleeps.Keys <= db.sleeps.Keys && r.days.Keys <= db.days.Keys
  {
    db.(sleeps := Purge(db.sleeps, userId), days := Purge(db.days, userId))
  }

  /** No Sleep and no Day of the user is left. */
  predicate NoRowsOf(db: Tables, userId: int)
  {
    && (forall id :: id in db.sleeps ==> db.sleeps[id].userId != userId)
    && (forall id :: id in db.days ==> db.days[id].userId != userId)
  }

  /** The rows of every other user are kept, unchanged. */
  predicate KeepsOthers(before: Tables, after: Tables, userId: int)
  {
    && (forall id :: id in before.sleeps && before.sleeps[id].userId != userId ==>
          id in after.sleeps && after.sleeps[id] == before.sleeps[id])
    && (forall id :: id in before.days && before.days[id].userId != userId ==>
          id in after.days && after.days[id] == before.days[id])
  }

  /** After the bulk delete the user has no rows, and everyone else keeps theirs. */
  lemma PurgeUserRemovesExactlyTheUser(db: Tables, userId: int)
    ensures NoRowsOf(PurgeUser(db, userId), userId)
    ensures KeepsOthers(db, PurgeUser(db, userId), userId)
  {
  }

  /** With no rows of the user the bulk delete changes nothing. */
  lemma PurgeUserNoOp(db: Tables, userId: int)
    requires NoRowsOf(db, userId)
    ensures PurgeUser(db, userId) == db
  {
    forall id | id in db.sleeps ensures id in Purge(db.sleeps, userId) { assert db.sleeps[id].userId != userId; }
    forall id | id in db.days ensures id in Purge(db.days, userId) { assert db.days[id].userId != userId; }
    assert Purge(db.sleeps, userId) == db.sleeps;
    assert Purge(db.days, userId) == db.days;
  }

  /** Deleting a user's rows twice is deleting them once. */
  lemma PurgeUserIdempotent(db: Tables, userId: int)
    ensures PurgeUser(PurgeUser(db, userId), userId) == PurgeUser(db, userId)
  {
    PurgeUserRemovesExactlyTheUser(db, userId);
    PurgeUserNoOp(PurgeUser(db, userId), userId);
  }

  /** Bulk deletes of two users commute. */
  lemma PurgeUserCommutes(db: Tables, a: int, b: int)
    ensures PurgeUser(PurgeUser(db, a), b) == PurgeUser(PurgeUser(db, b), a)
  {
    assert Purge(Purge(db.sleeps, a), b) == Purge(Purge(db.sleeps, b), a);
    assert Purge(Purge(db.days, a), b) == Purge(Purge(db.days, b), a);
  }

  /** `delete_trackings_by_user`: both bulk deletes, or nothing if the commit fails. */
  function DeleteTrackingsByUserSpec(db: Tables, userId: int, commitFails: bool): (o: (bool, Tables))
    ensures o.0 <==> !commitFails
    ensures o.0 ==> NoRowsOf(o.1, userId) && KeepsOthers(db, o.1, userId)
    ensures !o.0 ==> o.1 == db
  {
    PurgeUserRemovesExactlyTheUser(db, userId);
    if commitFails then (false, db) else (true, PurgeUser(db, userId))
  }

  /** The symptom with this name, if one is stored. */
  predicate SymptomNameTaken(db: Tables, name: string)
  {
    exists id :: id in db.symptoms && db.symptoms[id].name == name
  }

  predicate TriggerNameTaken(db: Tables, name: string)
  {
    exists id :: id in db.triggers && db.triggers[id].name == name
  }

  /** `create_symptom`: a new row, or `None` when the name is taken (the unique constraint fails). */
  function CreateSymptomSpec(db: Tables, newId: int, name: string): (o: (Option<Symptom>, Tables))
    ensures o.0.None? <==> SymptomNameTaken(db, name)
    ensures o.0.None? ==> o.1 == db
    ensures o.0.Some? ==> o.0.value == Symptom(newId, name) && o.1 == db.(symptoms := db.symptoms[newId := o.0.value])
  {
    if SymptomNameTaken(db, name) then (None, db)
    else (Some(Symptom(newId, name)), db.(symptoms := db.symptoms[newId := Symptom(newId, name)]))
  }

  /** `create_trigger`: a new row, or `None` when the name is taken. */
  function CreateTriggerSpec(db: Tables, newId: int, name: string, category: TriggerCategory): (o: (Option<Trigger>, Tables))
    ensures o.0.None? <==> TriggerNameTaken(db, name)
    ensures o.0.None? ==> o.1 == db
    ensures o.0.Some? ==> o.0.value == Trigger(newId, name, category) && o.1 == db.(triggers := db.triggers[newId := o.0.value])
  {
    if TriggerNameTaken(db, name) then (None, db)
    else (Some(Trigger(newId, name, category)), db.(triggers := db.triggers[newId := Trigger(newId, name, category)]))
  }

  // ---------------------------------------------------------------------
  // Properties of the operations
  // ---------------------------------------------------------------------

  /** After a successful delete the row is gone: looking it up again is NotFound. */
  lemma DeleteThenGetNotFound(db: Tables, trackingType: string, trackingId: int, userId: int)
    requires DeleteTrackingSpec(db, trackingType, trackingId, userId, false).result.Ok?
    ensures GetTrackingById(DeleteTrackingSpec(db, trackingType, trackingId, userId, false).db, trackingType, trackingId) == Fail(NotFound)
  {
  }

  /**
   * Deleting a tracking removes its association rows with it but leaves
   * every Symptom, every Trigger and every other tracking in place.
   */
  lemma DeleteKeepsReferencedRows(db: Tables, trackingType: string, trackingId: int, userId: int)
    requires DeleteTrackingSpec(db, trackingType, trackingId, userId, false).result.Ok?
    ensures var after := DeleteTrackingSpec(db, trackingType, trackingId, userId, false).db;
      && after.symptoms == db.symptoms && after.triggers == db.triggers
      && (forall id :: id in after.sleeps ==> id in db.sleeps && after.sleeps[id] == db.sleeps[id])
      && (forall id :: id in after.days ==> id in db.days && after.days[id] == db.days[id])
  {
  }

  /** An update never moves a tracking to another user, date, id or table. */
  lemma UpdateKeepsIdentity(db: Tables, p: Payload, trackingType: string, trackingId: int, userId: int, commitFails: bool)
    requires p.SleepUpdate? || p.DayUpdate?
    requires UpdateTrackingSpec(db, p, trackingType, trackingId, userId, commitFails).result.Ok?
    ensures var kind := AlchemyModelFactory(trackingType).value;
      var before := Table(db, kind)[trackingId];
      var after := UpdateTrackingSpec(db, p, trackingType, trackingId, userId, commitFails).result.value;
      after.id == before.id && after.userId == before.userId == userId && after.date == before.date
      && KindOf(after) == KindOf(before)
  {
  }

  /** A create that names an unknown symptom or trigger stores nothing and is NotValid. */
  lemma CreateRejectsUnknownIds(db: Tables, newId: int, trackingType: string, p: Payload, userId: int, commitFails: bool)
    requires p.SleepCreate? || p.DayCreate?
    requires AlchemyModelFactory(trackingType).Ok?
    requires NewRecord(AlchemyModelFactory(trackingType).value, newId, userId, p).Some?
    requires PayloadRejected(db, NewRecord(AlchemyModelFactory(trackingType).value, newId, userId, p).value, p)
    ensures CreateTrackingSpec(db, newId, trackingType, p, userId, commitFails) == Outcome(Fail(NotValid), db)
  {
    FoldOnDump(db, NewRecord(AlchemyModelFactory(trackingType).value, newId, userId, p).value, p);
  }

  /** A successful create stores the payload's fields and given id lists under the caller's id. */
  lemma CreateStoresPayload(db: Tables, newId: int, trackingType: string, p: Payload, userId: int, commitFails: bool)
    requires p.SleepCreate? || p.DayCreate?
    requires CreateTrackingSpec(db, newId, trackingType, p, userId, commitFails).result.Ok?
    ensures CreateTrackingSpec(db, newId, trackingType, p, userId, commitFails).result.value ==
      match p
      case SleepCreate(duration, date, quality, comment, symptoms) =>
        Sleep(newId, userId, date, duration, quality, comment, IdsOr(symptoms, []))
      case DayCreate(date, comment, triggers, late, afternoon) =>
        Day(newId, userId, date, comment, IdsOr(triggers, []), IdsOr(late, []), IdsOr(afternoon, []))
  {
    FoldOnDump(db, NewRecord(AlchemyModelFactory(trackingType).value, newId, userId, p).value, p);
  }

  /** A second symptom (or trigger) with a stored name fails and stores nothing. */
  lemma DuplicateNameRejected(db: Tables, id1: int, id2: int, name: string, category: TriggerCategory)
    ensures var after := CreateSymptomSpec(db, id1, name).1;
      CreateSymptomSpec(after, id2, name) == (None, after)
    ensures var after := CreateTriggerSpec(db, id1, name, category).1;
      CreateTriggerSpec(after, id2, name, category) == (None, after)
  {
    var s := CreateSymptomSpec(db, id1, name);
    if s.0.Some? { assert s.1.symptoms[id1].name == name; }
    var t := CreateTriggerSpec(db, id1, name, category);
    if t.0.Some? { assert t.1.triggers[id1].name == name; }
  }

  // ---------------------------------------------------------------------
  // The table constraints are kept
  // ---------------------------------------------------------------------

  /** Storing a row whose `(user_id, date)` no other row has keeps the unique constraint. */
  lemma {:induction false} StoreRowKeepsUnique(m: map<int, Tracking>, t: Tracking)
    requires UniqueUserDate(m)
    requires forall id :: id in m && id != t.id ==> (m[id].userId, m[id].date) != (t.userId, t.date)
    ensures UniqueUserDate(m[t.id := t])
  {
    var n := m[t.id := t];
    forall i, j | i in n && j in n && i != j
      ensures (n[i].userId, n[i].date) != (n[j].userId, n[j].date)
    {
      if i != t.id && j != t.id {
        assert i in m && j in m;
      }
    }
  }

  /** Storing a row of the table's kind under its own id keeps the constraints when its `(user_id, date)` is free. */
  lemma {:induction false} StoreRowPreservesConsistent(db: Tables, kind: TrackingType, t: Tracking)
    requires Consistent(db)
    requires KindOf(t) == kind && ReferencesResolve(db, t)
    requires forall id :: id in Table(db, kind) && id != t.id ==> (Table(db, kind)[id].userId, Table(db, kind)[id].date) != (t.userId, t.date)
    ensures Consistent(WithTable(db, kind, Table(db, kind)[t.id := t]))
  {
    var m := Table(db, kind)[t.id := t];
    var after := WithTable(db, kind, m);
    StoreRowKeepsUnique(Table(db, kind), t);
    assert forall id :: id in m ==> ReferencesResolve(after, m[id]);
  }

  lemma CreatePreservesConsistent(db: Tables, newId: int, trackingType: string, p: Payload, userId: int, commitFails: bool)
    requires Consistent(db)
    requires p.SleepCreate? || p.DayCreate?
    requires AlchemyModelFactory(trackingType).Ok? ==> newId !in Table(db, AlchemyModelFactory(trackingType).value)
    ensures Consistent(CreateTrackingSpec(db, newId, trackingType, p, userId, commitFails).db)
  {
    var o := CreateTrackingSpec(db, newId, trackingType, p, userId, commitFails);
    if o.result.Ok? {
      var kind := AlchemyModelFactory(trackingType).value;
      StoreRowPreservesConsistent(db, kind, o.result.value);
    }
  }

  lemma UpdatePreservesConsistent(db: Tables, p: Payload, trackingType: string, trackingId: int, userId: int, commitFails: bool)
    requires Consistent(db)
    requires p.SleepUpdate? || p.DayUpdate?
    ensures Consistent(UpdateTrackingSpec(db, p, trackingType, trackingId, userId, commitFails).db)
  {
    var o := UpdateTrackingSpec(db, p, trackingType, trackingId, userId, commitFails);
    if o.result.Ok? {
      var kind := AlchemyModelFactory(trackingType).value;
      var before := Table(db, kind)[trackingId];
      assert ReferencesResolve(db, before);
      UpdateStoresPayload(db, before, p);
      UpdatesCarryNoDate(p);
      FoldResolvesOnUpdate(db, before, p);
      var after := o.result.value;
      assert after.id == trackingId && after.userId == before.userId && after.date == before.date;
      StoreRowPreservesConsistent(db, kind, after);
    }
  }

  /** An accepted update keeps every reference resolvable. */
  lemma FoldResolvesOnUpdate(db: Tables, t: Tracking, p: Payload)
    requires p.SleepUpdate? || p.DayUpdate?
    requires ReferencesResolve(db, t)
    requires !PayloadRejected(db, t, p)
    ensures ReferencesResolve(db, Updated(t, p))
  {
  }

  lemma DeletePreservesConsistent(db: Tables, trackingType: string, trackingId: int, userId: int, commitFails: bool)
    requires Consistent(db)
    ensures Consistent(DeleteTrackingSpec(db, trackingType, trackingId, userId, commitFails).db)
  {
  }

  lemma PurgeUserPreservesConsistent(db: Tables, userId: int)
    requires Consistent(db)
    ensures Consistent(PurgeUser(db, userId))
  {
  }

  lemma CreateSymptomPreservesConsistent(db: Tables, newId: int, name: string)
    requires Consistent(db) && newId !in db.symptoms
    ensures Consistent(CreateSymptomSpec(db, newId, name).1)
  {
    var after := CreateSymptomSpec(db, newId, name).1;
    forall id | id in db.sleeps ensures ReferencesResolve(after, db.sleeps[id]) { assert ReferencesResolve(db, db.sleeps[id]); }
    forall id | id in db.days ensures ReferencesResolve(after, db.days[id]) { assert ReferencesResolve(db, db.days[id]); }
  }

  lemma CreateTriggerPreservesConsistent(db: Tables, newId: int, name: string, category: TriggerCategory)
    requires Consistent(db) && newId !in db.triggers
    ensures Consistent(CreateTriggerSpec(db, newId, name, category).1)
  {
    var after := CreateTriggerSpec(db, newId, name, category).1;
    forall id | id in db.sleeps ensures ReferencesResolve(after, db.sleeps[id]) { assert ReferencesResolve(db, db.sleeps[id]); }
    forall id | id in db.days ensures ReferencesResolve(after, db.days[id]) { assert ReferencesResolve(db, db.days[id]); }
  }
}

=== FILE: tracking_events.dfy ===
/**
 * The tracking service's consumer of user events
 * (tracking_service/events.py, `callback`): a decoded message either
 * deletes every tracking of a user, is ignored, or makes the callback
 * raise. The broker connection and the consumer thread are not modelled.
 */
module TrackingEvents {
  import opened Basics
  import opened TrackingModels
  import opened TrackingCrud
  import opened TrackingDb

  /** The type string the user service publishes when it deletes a user. */
  const UserDeletedType := "USER_DELETED"

  /** What `callback` decides for a message body (`None`: the body is not JSON). */
  datatype Decision =
    | Malformed          // json.loads, event["user_id"], int(...) or event["type"] raised
    | DeleteUserTrackings(userId: int)
    | Ignore             // a well-formed event of another type: only logged

  /**
   * The checks of `callback` in their order: decode, read and convert
   * `user_id`, and only then read and compare `type`.
   */
  function CallbackDecision(body: Option<Json>): (d: Decision)
    ensures d.DeleteUserTrackings? ==> body.Some? && body.value.JObj? && Get(body.value.fields, "type") == Some(JStr(UserDeletedType))
    ensures d.DeleteUserTrackings? ==> Get(body.value.fields, "user_id").Some? && PyInt(Get(body.value.fields, "user_id").value) == Some(d.userId)
  {
    match body
    case None => Malformed
    case Some(event) =>
      if !event.JObj? || "user_id" !in event.fields then Malformed
      else
        match PyInt(event.fields["user_id"])
        case None => Malformed
        case Some(userId) =>
          if "type" !in event.fields then Malformed
          else if event.fields["type"] == JStr(UserDeletedType) then DeleteUserTrackings(userId)
          else Ignore
  }

  /** Whether `callback` returned normally or let an exception escape. */
  datatype CallbackResult = Handled | Raised

  /** `callback` applied to the tracking database; a failed bulk delete propagates. */
  function ApplyEvent(db: Tables, body: Option<Json>, commitFails: bool): (o: (CallbackResult, Tables))
    ensures CallbackDecision(body).DeleteUserTrackings? && !commitFails ==>
      o == (Handled, PurgeUser(db, CallbackDecision(body).userId))
    ensures !CallbackDecision(body).DeleteUserTrackings? || commitFails ==> o.1 == db
    ensures o.0 == Raised <==> CallbackDecision(body).Malformed? || (CallbackDecision(body).DeleteUserTrackings? && commitFails)
  {
    match CallbackDecision(body)
    case Malformed => (Raised, db)
    case Ignore => (Handled, db)
    case DeleteUserTrackings(userId) =>
      var (ok, after) := DeleteTrackingsByUserSpec(db, userId, commitFails);
      if ok then (Handled, after) else (Raised, after)
  }

  /** `callback(ch, method, properties, body)` on the store. */
  method Callback(store: TrackingStore, body: Option<Json>, commitFails: bool) returns (r: CallbackResult)
    requires store.Valid()
    modifies store
    ensures store.Valid()
    ensures (r, store.Snapshot()) == ApplyEvent(old(store.Snapshot()), body, commitFails)
  {
    if body.None? {
      return Raised;
    }
    var event := body.value;
    if !event.JObj? || "user_id" !in event.fields {
      return Raised;
    }
    var userId := PyInt(event.fields["user_id"]);
    if userId.None? {
      return Raised;
    }
    if "type" !in event.fields {
      return Raised;
    }
    if event.fields["type"] == JStr(UserDeletedType) {
      var ok := store.DeleteTrackingsByUser(userId.value, commitFails);
      return if ok then Handled else Raised;
    } else {
      return Handled;
    }
  }

  /** The event the user service publishes for a deleted user, as `json.loads` reads it back. */
  function UserDeletedEvent(userId: int): Json
  {
    JObj(map["type" := JStr(UserDeletedType), "user_id" := JInt(userId)])
  }

  /** The published event decodes into a bulk delete of exactly that user. */
  lemma UserDeletedEventRoundTrip(userId: int)
    ensures CallbackDecision(Some(UserDeletedEvent(userId))) == DeleteUserTrackings(userId)
  {
  }

  /** A USER_DELETED event leaves no tracking of the user and keeps every other user's. */
  lemma UserDeletedRemovesOnlyThatUser(db: Tables, userId: int)
    ensures var after := ApplyEvent(db, Some(UserDeletedEvent(userId)), false);
      after.0 == Handled && NoRowsOf(after.1, userId) && KeepsOthers(db, after.1, userId)
  {
    PurgeUserRemovesExactlyTheUser(db, userId);
  }

  /** An event of any other type changes no data and does not raise. */
  lemma OtherTypeChangesNothing(db: Tables, fields: map<string, Json>, commitFails: bool)
    requires "user_id" in fields && PyInt(fields["user_id"]).Some?
    requires "type" in fields && fields["type"] != JStr(UserDeletedType)
    ensures ApplyEvent(db, Some(JObj(fields)), commitFails) == (Handled, db)
  {
  }

  /** `user_id` is converted before `type` is read: without a convertible id the callback raises, whatever the type. */
  lemma UserIdCheckedBeforeType(db: Tables, fields: map<string, Json>, commitFails: bool)
    requires "user_id" !in fields || PyInt(fields["user_id"]).None?
    ensures ApplyEvent(db, Some(JObj(fields)), commitFails) == (Raised, db)
  {
  }

  /** Delivering the same event twice leaves the database as delivering it once. */
  lemma RedeliveryIsNoOp(db: Tables, body: Option<Json>)
    ensures var once := ApplyEvent(db, body, false).1;
      ApplyEvent(once, body, false).1 == once
  {
    if CallbackDecision(body).DeleteUserTrackings? {
      PurgeUserIdempotent(db, CallbackDecision(body).userId);
    }
  }

  /** A failing bulk delete escapes `callback`: nothing is deleted and the call raises. */
  lemma FailedDeletePropagates(db: Tables, userId: int)
    ensures ApplyEvent(db, Some(UserDeletedEvent(userId)), true) == (Raised, db)
  {
  }
}

=== FILE: tracking_models.dfy ===
/**
 * The tracking service's tables (tracking_service/models.py): Symptom and
 * Trigger rows, the Sleep and Day tracking rows with their association
 * tables folded in as id lists, the model factory, and the table
 * constraints as an invariant over the whole database.
 */
module TrackingModels {
  import opened Basics
  import opened Enums

  datatype Symptom = Symptom(id: int, name: string)

  datatype Trigger = Trigger(id: int, name: string, category: TriggerCategory)

  /**
   * A row of `sleeps` or `days`. The id lists are the rows of the
   * association tables that point at this tracking, in the order given.
   * Dates are whole numbers (the model does not interpret them further).
   */
  datatype Tracking =
    | Sleep(id: int, userId: int, date: int, duration: int, quality: SleepQuality,
            comment: Option<string>, symptoms: seq<int>)
    | Day(id: int, userId: int, date: int, comment: Option<string>,
          triggers: seq<int>, lateMorningSymptoms: seq<int>, afternoonSymptoms: seq<int>)

  function KindOf(t: Tracking): TrackingType
  {
    if t.Sleep? then SleepType else DayType
  }

  /** The error kinds the data-access layer raises. */
  datatype TrackingError =
    | InvalidType   // HTTPException(400) from the model factory
    | NotValid      // TrackingNotValidError
    | NotFound      // TrackingNotFoundError
    | NotDeleted    // TrackingNotDeletedError
    | NotUpdated    // TrackingNotUpdatedError
    | NotAllowed    // TrackingNotAllowedError

  datatype Result<T> = Ok(value: T) | Fail(error: TrackingError)

  /** `alchemy_model_factory`: "day" and "sleep" name a table, anything else is HTTP 400. */
  function AlchemyModelFactory(modelType: string): (r: Result<TrackingType>)
    ensures r.Ok? <==> modelType in {"sleep", "day"}
    ensures r.Ok? ==> TrackingTypeValue(r.value) == modelType
    ensures r.Fail? ==> r.error == InvalidType
  {
    TrackingTypeValues(modelType);
    match ParseTrackingType(modelType)
    case Some(kind) => Ok(kind)
    case None => Fail(InvalidType)
  }

  /** The factory accepts exactly the TrackingType values. */
  lemma FactoryAcceptsTrackingTypes(kind: TrackingType)
    ensures AlchemyModelFactory(TrackingTypeValue(kind)) == Ok(kind)
  {
    TrackingTypeValues(TrackingTypeValue(kind));
  }

  /** The whole tracking database. */
  datatype Tables = Tables(
    sleeps: map<int, Tracking>,
    days: map<int, Tracking>,
    symptoms: map<int, Symptom>,
    triggers: map<int, Trigger>)

  function Table(db: Tables, kind: TrackingType): map<int, Tracking>
  {
    if kind == SleepType then db.sleeps else db.days
  }

  function WithTable(db: Tables, kind: TrackingType, m: map<int, Tracking>): (r: Tables)
    ensures Table(r, kind) == m
    ensures r.symptoms == db.symptoms && r.triggers == db.triggers
    ensures kind == SleepType ==> r.days == db.days
    ensures kind == DayType ==> r.sleeps == db.sleeps
  {
    if kind == SleepType then db.(sleeps := m) else db.(days := m)
  }

  /** Every row of a tracking table is of that table's kind and stored under its own id. */
  ghost predicate RowsOfKind(m: map<int, Tracking>, kind: TrackingType)
  {
    forall id :: id in m ==> KindOf(m[id]) == kind && m[id].id == id
  }

  /** The `(user_id, date)` unique constraint of `sleeps` and of `days`. */
  ghost predicate UniqueUserDate(m: map<int, Tracking>)
  {
    forall i, j :: i in m && j in m && i != j ==> (m[i].userId, m[i].date) != (m[j].userId, m[j].date)
  }

  /** The `name` unique constraints of `symptoms` and `triggers`, and ids as keys. */
  ghost predicate SymptomsWellKeyed(symptoms: map<int, Symptom>)
  {
    && (forall id :: id in symptoms ==> symptoms[id].id == id)
    && (forall i, j :: i in symptoms && j in symptoms && i != j ==> symptoms[i].name != symptoms[j].name)
  }

  ghost predicate TriggersWellKeyed(triggers: map<int, Trigger>)
  {
    && (forall id :: id in triggers ==> triggers[id].id == id)
    && (forall i, j :: i in triggers && j in triggers && i != j ==> triggers[i].name != triggers[j].name)
  }

  /** The foreign keys of a tracking's association rows point at existing rows. */
  ghost predicate ReferencesResolve(db: Tables, t: Tracking)
  {
    match t
    case Sleep(_, _, _, _, _, _, symptoms) =>
      forall v :: v in symptoms ==> v in db.symptoms
    case Day(_, _, _, _, triggers, late, afternoon) =>
      && (forall v :: v in triggers ==> v in db.triggers)
      && (forall v :: v in late ==> v in db.symptoms)
      && (forall v :: v in afternoon ==> v in db.symptoms)
  }

  /** The table constraints, taken together. */
  ghost predicate Consistent(db: Tables)
  {
    && RowsOfKind(db.sleeps, SleepType)
    && RowsOfKind(db.days, DayType)
    && UniqueUserDate(db.sleeps)
    && UniqueUserDate(db.days)
    && SymptomsWellKeyed(db.symptoms)
    && TriggersWellKeyed(db.triggers)
    && (forall id :: id in db.sleeps ==> ReferencesResolve(db, db.sleeps[id]))
    && (forall id :: id in db.days ==> ReferencesResolve(db, db.days[id]))
  }

  /** At most one Day and at most one Sleep per `(user_id, date)`. */
  lemma AtMostOnePerUserAndDate(db: Tables, kind: TrackingType, i: int, j: int)
    requires Consistent(db)
    requires i in Table(db, kind) && j in Table(db, kind)
    requires Table(db, kind)[i].userId == Table(db, kind)[j].userId
    requires Table(db, kind)[i].date == Table(db, kind)[j].date
    ensures i == j
  {
  }
}

=== FILE: tracking_router.dfy ===
/**
 * The tracking endpoints (tracking_service/routers/trackings.py): each
 * resolves the caller with scope "me", validates its input, calls one
 * data-access operation and maps the outcome to an HTTP status. The
 * user service's answer to the token check is the parameter `validate`,
 * a function of the `scopes` query parameter sent.
 */
module TrackingRouter {
  import opened Basics
  import opened Enums
  import opened TrackingModels
  import opened TrackingSchemas
  import opened TrackingCrud
  import opened TrackingAuth

  /** The scopes every tracking endpoint requires. */
  const EndpointScopes: seq<string> := ["me"]

  /** The caller, as `Security(get_user_id_from_token, scopes=["me"])` resolves it. */
  function CurrentUser(validate: string -> Option<ValidateReply>): AuthOutcome
  {
    GetUserIdFromToken(validate(ScopesParam(EndpointScopes)))
  }

  /** The only question any endpoint asks the user service is the scope "me". */
  lemma EndpointsAskForMe(validate: string -> Option<ValidateReply>)
    ensures CurrentUser(validate) == GetUserIdFromToken(validate("me"))
  {
  }

  /** The status and, for a 200 or 201, the validated response body. */
  /**
   * An answer: a status and, for a success, the tracking in the body; or the
   * service's `RequestValidationError` handler's 400, which echoes the
   * request body as `input_data` (its per-error `detail` texts are not modelled).
   */
  datatype Response =
    | Response(statusCode: int, body: Option<TrackingOut>)
    | InvalidBody(statusCode: int, inputData: map<string, Json>)

  datatype ListResponse = ListResponse(statusCode: int, body: map<int, TrackingOut>)

  // ---------------------------------------------------------------------
  // Error kind to status, per endpoint
  // ---------------------------------------------------------------------

  /** POST /day and /sleep: TrackingNotValidError is a 400; nothing else is caught. */
  function CreateErrorStatus(e: TrackingError): (s: int)
    ensures e == NotValid ==> s == 400
    ensures s >= 400
  {
    match e
    case NotValid => 400
    case InvalidType => 400   // the factory's own HTTPException
    case _ => 500
  }

  /** PUT: NotFound 404, NotAllowed 401, NotUpdated 400. */
  function UpdateErrorStatus(e: TrackingError): (s: int)
    ensures e == NotFound ==> s == 404
    ensures e == NotAllowed ==> s == 401
    ensures e == NotUpdated ==> s == 400
    ensures s >= 400
  {
    match e
    case NotFound => 404
    case NotAllowed => 401
    case NotUpdated => 400
    case InvalidType => 400
    case _ => 500
  }

  /** DELETE: NotFound 404, NotAllowed 401, and every other exception 400. */
  function DeleteErrorStatus(e: TrackingError): (s: int)
    ensures e == NotFound ==> s == 404
    ensures e == NotAllowed ==> s == 401
    ensures e != NotFound && e != NotAllowed ==> s == 400
    ensures s >= 400
  {
    match e
    case NotFound => 404
    case NotAllowed => 401
    case _ => 400
  }

  /** GET: NotFound 404, NotAllowed 401. */
  function GetErrorStatus(e: TrackingError): (s: int)
    ensures e == NotFound ==> s == 404
    ensures e == NotAllowed ==> s == 401
    ensures e == InvalidType ==> s == 400
    ensures s >= 400
  {
    match e
    case NotFound => 404
    case NotAllowed => 401
    case InvalidType => 400
    case _ => 500
  }

  /** A stored row as the response body: 200/201 when it validates, 500 otherwise. */
  function Respond(db: Tables, t: Tracking, okStatus: int): (r: Response)
    requires ReferencesResolve(db, t)
    requires okStatus in {200, 201}
    ensures r.Response?
    ensures r.statusCode == okStatus <==> ToOut(db, t).Some?
    ensures r.statusCode != okStatus ==> r.statusCode == 500
  {
    match ToOut(db, t)
    case Some(out) => Response(okStatus, Some(out))
    case None => Response(500, None)
  }

  /**
   * Whether the row an update leaves would validate as a SleepOut through
   * plain attributes: a SleepUpdate sent to a Day row makes `setattr` put
   * `duration`, `quality` and, when given, the `symptoms` rows on the Day
   * instance as plain Python attributes, which `db.refresh` keeps. They form
   * a valid SleepOut when the symptom list was given, every id names a
   * stored symptom (otherwise the list holds a `None`) and the comment is a text.
   */
  predicate SleepAttributesValidate(db: Tables, t: Tracking, p: Payload)
  {
    && t.Day? && p.SleepUpdate? && p.duration > 0 && t.comment.Some?
    && p.symptoms.Some? && forall v :: v in p.symptoms.value ==> v in db.symptoms
  }

  /**
   * The answer to a committed update under `response_model=SleepOut | DayOut`:
   * SleepOut is tried first, so a Day row carrying valid sleep attributes
   * answers as a SleepOut with the payload's duration, quality and symptoms;
   * every other row answers as itself.
   */
  function UpdateAnswer(db: Tables, t: Tracking, p: Payload): (r: Response)
    requires ReferencesResolve(db, t)
    ensures r.Response?
    ensures !(t.Day? && p.SleepUpdate?) ==> r == Respond(db, t, 200)
    ensures r.statusCode == 200 <==> ToOut(db, t).Some? || SleepAttributesValidate(db, t, p)
    ensures r.statusCode != 200 ==> r == Response(500, None)
    ensures r.statusCode == 200 ==>
      && r.body.Some? && r.body.value.id == t.id && r.body.value.userId == t.userId
      && r.body.value.date == t.date && r.body.value.comment == t.comment.value
    ensures r.statusCode == 200 && t.Day? ==>
      (r.body.value.SleepOut? <==> SleepAttributesValidate(db, t, p))
    ensures r.statusCode == 200 && t.Day? && r.body.value.SleepOut? ==>
      && r.body.value.duration == p.duration && r.body.value.quality == p.quality
      && r.body.value.symptoms == SymptomRows(db, p.symptoms.value)
  {
    if SleepAttributesValidate(db, t, p) then
      Response(200, Some(SleepOut(t.id, t.userId, t.date, p.duration, p.quality, t.comment.value,
                                  SymptomRows(db, p.symptoms.value))))
    else Respond(db, t, 200)
  }

  // ---------------------------------------------------------------------
  // Endpoints
  // ---------------------------------------------------------------------

  /** DELETE /trackings/me: every error of the bulk delete is swallowed; the answer is 204. */
  function DeleteMe(db: Tables, validate: string -> Option<ValidateReply>, commitFails: bool): (r: (int, Tables))
    ensures CurrentUser(validate).Denied? ==> r == (CurrentUser(validate).statusCode, db)
    ensures CurrentUser(validate).Authorized? ==>
      r == (204, DeleteTrackingsByUserSpec(db, CurrentUser(validate).userId, commitFails).1)
  {
    match CurrentUser(validate)
    case Denied(statusCode, _) => (statusCode, db)
    case Authorized(userId) => (204, DeleteTrackingsByUserSpec(db, userId, commitFails).1)
  }

  /** Every row as a response body, or `None` when one of them fails response validation. */
  function OutAll(db: Tables, rows: map<int, Tracking>): (r: Option<map<int, TrackingOut>>)
    requires forall id :: id in rows ==> ReferencesResolve(db, rows[id])
    ensures r.Some? <==> forall id :: id in rows ==> ToOut(db, rows[id]).Some?
    ensures r.Some? ==> r.value.Keys == rows.Keys
    ensures r.Some? ==> forall id :: id in rows ==> Some(r.value[id]) == ToOut(db, rows[id])
  {
    if exists id :: id in rows && ToOut(db, rows[id]).None? then None
    else Some(map id | id in rows :: ToOut(db, rows[id]).value)
  }

  /** GET /trackings/me: the caller's rows of the type in the window; none is a 404. */
  function GetMe(db: Tables, validate: string -> Option<ValidateReply>, trackingType: string,
                 startDate: Option<int>, endDate: Option<int>): (r: ListResponse)
    requires Consistent(db)
    ensures CurrentUser(validate).Denied? ==> r == ListResponse(CurrentUser(validate).statusCode, map[])
    ensures CurrentUser(validate).Authorized? && AlchemyModelFactory(trackingType).Fail? ==> r == ListResponse(400, map[])
    ensures CurrentUser(validate).Authorized? && AlchemyModelFactory(trackingType).Ok? ==>
      var rows := GetTrackingsByUser(db, trackingType, CurrentUser(validate).userId, startDate, endDate).value;
      && (forall id :: id in rows ==> ReferencesResolve(db, rows[id]))
      && (|rows| == 0 ==> r == ListResponse(404, map[]))
      && (|rows| > 0 && OutAll(db, rows).None? ==> r == ListResponse(500, map[]))
      && (|rows| > 0 && OutAll(db, rows).Some? ==> r == ListResponse(200, OutAll(db, rows).value))
    ensures r.statusCode == 200 ==>
      && CurrentUser(validate).Authorized? && AlchemyModelFactory(trackingType).Ok? && |r.body| > 0
      && r.body.Keys == GetTrackingsByUser(db, trackingType, CurrentUser(validate).userId, startDate, endDate).value.Keys
    ensures r.statusCode == 200 ==> forall id :: id in r.body ==> r.body[id].userId == CurrentUser(validate).userId
  {
    match CurrentUser(validate)
    case Denied(statusCode, _) => ListResponse(statusCode, map[])
    case Authorized(userId) =>
      match GetTrackingsByUser(db, trackingType, userId, startDate, endDate)
      case Fail(_) => ListResponse(400, map[])
      case Ok(rows) =>
        var kind := AlchemyModelFactory(trackingType).value;
        assert forall id :: id in rows ==> id in Table(db, kind) && rows[id] == Table(db, kind)[id];
        if |rows| == 0 then ListResponse(404, map[])
        else
          match OutAll(db, rows)
          case None => ListResponse(500, map[])
          case Some(outs) =>
            assert |outs| == |rows| by { assert outs.Keys == rows.Keys; }
            ListResponse(200, outs)
  }

  /** The route's schema: DayCreate on /trackings/day, SleepCreate on /trackings/sleep. */
  function ParseCreate(body: map<string, Json>, kind: TrackingType): (r: Option<Payload>)
    ensures r.Some? ==> if kind == DayType then r.value.DayCreate? else r.value.SleepCreate?
  {
    if kind == DayType then ParseDayCreate(body) else ParseSleepCreate(body)
  }

  /**
   * POST /trackings/day and /trackings/sleep: the type is fixed by the
   * route; a body the schema rejects is the validation handler's 400,
   * TrackingNotValidError is a 400 too, and a stored row is answered 201
   * when it passes response validation.
   */
  function Create(db: Tables, newId: int, validate: string -> Option<ValidateReply>, body: map<string, Json>,
                  kind: TrackingType, commitFails: bool): (r: (Response, Tables))
    requires Consistent(db)
    ensures CurrentUser(validate).Denied? ==> r == (Response(CurrentUser(validate).statusCode, None), db)
    ensures r.0.InvalidBody? <==> CurrentUser(validate).Authorized? && ParseCreate(body, kind).None?
    ensures r.0.InvalidBody? ==> r == (InvalidBody(400, body), db)
    ensures CurrentUser(validate).Authorized? && ParseCreate(body, kind).Some? ==>
      var o := CreateTrackingSpec(db, newId, TrackingTypeValue(kind), ParseCreate(body, kind).value,
                                  CurrentUser(validate).userId, commitFails);
      && r.1 == o.db
      && (o.result.Fail? ==> r.0 == Response(400, None))
      && (o.result.Ok? ==> r.0 == Respond(db, o.result.value, 201))
    ensures r.1 != db ==> (CurrentUser(validate).Authorized? &&
      newId in Table(r.1, kind) && Table(r.1, kind)[newId].userId == CurrentUser(validate).userId &&
      KindOf(Table(r.1, kind)[newId]) == kind)
  {
    match CurrentUser(validate)
    case Denied(statusCode, _) => (Response(statusCode, None), db)
    case Authorized(userId) =>
      match ParseCreate(body, kind)
      case None => (InvalidBody(400, body), db)
      case Some(p) =>
        var o := CreateTrackingSpec(db, newId, TrackingTypeValue(kind), p, userId, commitFails);
        FactoryAcceptsTrackingTypes(kind);
        match o.result
        case Fail(e) => (Response(CreateErrorStatus(e), None), db)
        case Ok(t) => (Respond(db, t, 201), o.db)
  }

  /**
   * PUT /trackings/{type}/{id}: a body neither schema accepts is the
   * validation handler's 400; then NotFound 404, NotAllowed 401, NotUpdated
   * 400; otherwise the updated row is answered as `UpdateAnswer` says.
   */
  function Update(db: Tables, validate: string -> Option<ValidateReply>, trackingType: string, trackingId: int,
                  body: map<string, Json>, commitFails: bool): (r: (Response, Tables))
    requires Consistent(db)
    ensures CurrentUser(validate).Denied? ==> r == (Response(CurrentUser(validate).statusCode, None), db)
    ensures r.0.InvalidBody? <==> CurrentUser(validate).Authorized? && ParseTrackingUpdate(body).None?
    ensures r.0.InvalidBody? ==> r == (InvalidBody(400, body), db)
    ensures CurrentUser(validate).Authorized? && ParseTrackingUpdate(body).Some? ==>
      var o := UpdateTrackingSpec(db, ParseTrackingUpdate(body).value, trackingType, trackingId,
                                  CurrentUser(validate).userId, commitFails);
      && r.1 == o.db
      && Consistent(o.db)
      && (o.result.Fail? ==> r.0 == Response(UpdateErrorStatus(o.result.error), None))
      && (o.result.Ok? ==> ReferencesResolve(o.db, o.result.value)
                           && r.0 == UpdateAnswer(o.db, o.result.value, ParseTrackingUpdate(body).value))
  {
    match CurrentUser(validate)
    case Denied(statusCode, _) => (Response(statusCode, None), db)
    case Authorized(userId) =>
      match ParseTrackingUpdate(body)
      case None => (InvalidBody(400, body), db)
      case Some(p) =>
        var o := UpdateTrackingSpec(db, p, trackingType, trackingId, userId, commitFails);
        UpdatePreservesConsistent(db, p, trackingType, trackingId, userId, commitFails);
        match o.result
        case Fail(e) => (Response(UpdateErrorStatus(e), None), db)
        case Ok(t) =>
          var kind := AlchemyModelFactory(trackingType).value;
          assert trackingId in Table(o.db, kind) && Table(o.db, kind)[trackingId] == t;
          (UpdateAnswer(o.db, t, p), o.db)
  }

  /** DELETE /trackings/{type}/{id}: 204 on success; NotFound 404, NotAllowed 401, anything else 400. */
  function Delete(db: Tables, validate: string -> Option<ValidateReply>, trackingType: string, trackingId: int,
                  commitFails: bool): (r: (int, Tables))
    ensures CurrentUser(validate).Denied? ==> r == (CurrentUser(validate).statusCode, db)
    ensures CurrentUser(validate).Authorized? ==>
      var o := DeleteTrackingSpec(db, trackingType, trackingId, CurrentUser(validate).userId, commitFails);
      && r.1 == o.db
      && (o.result.Ok? ==> r.0 == 204)
      && (o.result.Fail? ==> r.0 == DeleteErrorStatus(o.result.error))
    ensures r.0 == 204 <==> (CurrentUser(validate).Authorized? &&
      DeleteTrackingSpec(db, trackingType, trackingId, CurrentUser(validate).userId, commitFails).result.Ok?)
    ensures r.0 != 204 ==> r.1 == db
  {
    match CurrentUser(validate)
    case Denied(statusCode, _) => (statusCode, db)
    case Authorized(userId) =>
      var o := DeleteTrackingSpec(db, trackingType, trackingId, userId, commitFails);
      match o.result
      case Fail(e) => (DeleteErrorStatus(e), db)
      case Ok(_) => (204, o.db)
  }

  /** GET /trackings/{type}/{id}: NotFound 404, NotAllowed 401, otherwise the caller's row. */
  function Get(db: Tables, validate: string -> Option<ValidateReply>, trackingType: string, trackingId: int): (r: Response)
    requires Consistent(db)
    ensures CurrentUser(validate).Denied? ==> r == Response(CurrentUser(validate).statusCode, None)
    ensures CurrentUser(validate).Authorized? ==>
      var g := GetTrackingByIdAndUser(db, trackingType, trackingId, CurrentUser(validate).userId);
      && (g.Fail? ==> r == Response(GetErrorStatus(g.error), None))
      && (g.Ok? ==> ReferencesResolve(db, g.value) && r == Respond(db, g.value, 200))
    ensures r.statusCode == 200 ==> r.body.Some? && r.body.value.userId == CurrentUser(validate).userId
  {
    match CurrentUser(validate)
    case Denied(statusCode, _) => Response(statusCode, None)
    case Authorized(userId) =>
      match GetTrackingByIdAndUser(db, trackingType, trackingId, userId)
      case Fail(e) => Response(GetErrorStatus(e), None)
      case Ok(t) =>
        var kind := AlchemyModelFactory(trackingType).value;
        assert trackingId in Table(db, kind);
        Respond(db, t, 200)
  }

  // ---------------------------------------------------------------------
  // Properties across the endpoints
  // ---------------------------------------------------------------------

  /**
   * Someone else's tracking can be neither read, updated nor deleted: the
   * answer is 401 and nothing changes.
   */
  lemma NonOwnerIsRejected(db: Tables, validate: string -> Option<ValidateReply>, trackingType: string,
                           trackingId: int, body: map<string, Json>, commitFails: bool)
    requires Consistent(db)
    requires CurrentUser(validate).Authorized?
    requires AlchemyModelFactory(trackingType).Ok?
    requires var table := Table(db, AlchemyModelFactory(trackingType).value);
      trackingId in table && table[trackingId].userId != CurrentUser(validate).userId
    ensures Get(db, validate, trackingType, trackingId).statusCode == 401
    ensures Delete(db, validate, trackingType, trackingId, commitFails) == (401, db)
    ensures ParseTrackingUpdate(body).Some? ==> Update(db, validate, trackingType, trackingId, body, commitFails) == (Response(401, None), db)
  {
  }

  /** A missing tracking is a 404 for read, update and delete alike. */
  lemma MissingIsNotFound(db: Tables, validate: string -> Option<ValidateReply>, trackingType: string,
                          trackingId: int, body: map<string, Json>, commitFails: bool)
    requires Consistent(db)
    requires CurrentUser(validate).Authorized?
    requires AlchemyModelFactory(trackingType).Ok?
    requires trackingId !in Table(db, AlchemyModelFactory(trackingType).value)
    ensures Get(db, validate, trackingType, trackingId).statusCode == 404
    ensures Delete(db, validate, trackingType, trackingId, commitFails) == (404, db)
    ensures ParseTrackingUpdate(body).Some? ==> Update(db, validate, trackingType, trackingId, body, commitFails) == (Response(404, None), db)
  {
  }

  /** DELETE /trackings/me answers 204 even when the bulk delete fails. */
  lemma DeleteMeAlways204(db: Tables, validate: string -> Option<ValidateReply>)
    requires CurrentUser(validate).Authorized?
    ensures DeleteMe(db, validate, true) == (204, db)
    ensures DeleteMe(db, validate, false).0 == 204
  {
  }

  /** A create never stores a row of the other type, nor one for another user. */
  lemma CreateStoresCallersRowOfRouteType(db: Tables, newId: int, validate: string -> Option<ValidateReply>,
                                          body: map<string, Json>, kind: TrackingType, commitFails: bool)
    requires Consistent(db)
    requires Create(db, newId, validate, body, kind, commitFails).1 != db
    ensures var after := Create(db, newId, validate, body, kind, commitFails).1;
      Table(after, kind)[newId].userId == CurrentUser(validate).userId && KindOf(Table(after, kind)[newId]) == kind
  {
  }

  /**
   * A create that stores its row answers 201 exactly when the payload has a
   * comment: the response schemas declare `comment: str`, so a row stored
   * with a null comment fails response validation and the client gets a
   * 500 although the row was committed.
   */
  lemma StoredCreateAnswers201IffComment(db: Tables, newId: int, validate: string -> Option<ValidateReply>,
                                         body: map<string, Json>, kind: TrackingType, commitFails: bool)
    requires Consistent(db)
    requires Create(db, newId, validate, body, kind, commitFails).1 != db
    ensures var parsed := ParseCreate(body, kind);
      var status := Create(db, newId, validate, body, kind, commitFails).0.statusCode;
      && parsed.Some?
      && (status == 201 <==> parsed.value.comment.Some?)
      && (status != 201 ==> status == 500)
  {
    var parsed := ParseCreate(body, kind);
    FactoryAcceptsTrackingTypes(kind);
    CreateStoresPayload(db, newId, TrackingTypeValue(kind), parsed.value, CurrentUser(validate).userId, commitFails);
  }

  /** A failing commit on create or update answers 400 and stores nothing. */
  lemma FailedCommitStoresNothing(db: Tables, newId: int, validate: string -> Option<ValidateReply>,
                                  body: map<string, Json>, kind: TrackingType, trackingType: string, trackingId: int)
    requires Consistent(db)
    requires CurrentUser(validate).Authorized?
    ensures ParseCreate(body, kind).Some? ==> Create(db, newId, validate, body, kind, true) == (Response(400, None), db)
    ensures ParseTrackingUpdate(body).Some? && AlchemyModelFactory(trackingType).Ok? ==>
      Update(db, validate, trackingType, trackingId, body, true).1 == db &&
      Update(db, validate, trackingType, trackingId, body, true).0.statusCode in {400, 401, 404}
  {
  }

  /** Response validation reads only the symptom and trigger tables. */
  lemma ToOutReadsOnlyReferencedTables(db1: Tables, db2: Tables, t: Tracking)
    requires db1.symptoms == db2.symptoms && db1.triggers == db2.triggers
    requires ReferencesResolve(db1, t)
    ensures ReferencesResolve(db2, t) && ToOut(db1, t) == ToOut(db2, t)
  {
    match t
    case Sleep(_, _, _, _, _, _, symptoms) =>
      assert SymptomRows(db1, symptoms) == SymptomRows(db2, symptoms);
    case Day(_, _, _, _, triggers, late, afternoon) =>
      assert TriggerRows(db1, triggers) == TriggerRows(db2, triggers);
      assert SymptomRows(db1, late) == SymptomRows(db2, late);
      assert SymptomRows(db1, afternoon) == SymptomRows(db2, afternoon);
  }

  /**
   * Reading back a create: after a 201 the new row is found under the new
   * id, and GET answers 200 with the very body the create answered.
   */
  lemma CreateThenGet(db: Tables, newId: int, validate: string -> Option<ValidateReply>,
                      body: map<string, Json>, kind: TrackingType, commitFails: bool)
    requires Consistent(db)
    requires newId !in Table(db, kind)
    requires Create(db, newId, validate, body, kind, commitFails).0.statusCode == 201
    ensures var r := Create(db, newId, validate, body, kind, commitFails);
      Consistent(r.1) && Get(r.1, validate, TrackingTypeValue(kind), newId) == Response(200, r.0.body)
  {
    var r := Create(db, newId, validate, body, kind, commitFails);
    var p := ParseCreate(body, kind).value;
    var userId := CurrentUser(validate).userId;
    FactoryAcceptsTrackingTypes(kind);
    var o := CreateTrackingSpec(db, newId, TrackingTypeValue(kind), p, userId, commitFails);
    CreatePreservesConsistent(db, newId, TrackingTypeValue(kind), p, userId, commitFails);
    var t := o.result.value;
    assert Table(r.1, kind)[newId] == t;
    ToOutReadsOnlyReferencedTables(db, r.1, t);
  }

  /** A SleepUpdate body sent to the Day route. */
  predicate SleepBodyOnDayRoute(trackingType: string, body: map<string, Json>)
  {
    && AlchemyModelFactory(trackingType) == Ok(DayType)
    && ParseTrackingUpdate(body).Some? && ParseTrackingUpdate(body).value.SleepUpdate?
  }

  /**
   * Reading back an update: after a 200, GET answers exactly what the update
   * answered, unless a SleepUpdate body went to the Day route.
   */
  lemma UpdateThenGet(db: Tables, validate: string -> Option<ValidateReply>, trackingType: string, trackingId: int,
                      body: map<string, Json>, commitFails: bool)
    requires Consistent(db)
    requires !SleepBodyOnDayRoute(trackingType, body)
    requires Update(db, validate, trackingType, trackingId, body, commitFails).0.statusCode == 200
    ensures var r := Update(db, validate, trackingType, trackingId, body, commitFails);
      Consistent(r.1) && Get(r.1, validate, trackingType, trackingId) == r.0
  {
    var r := Update(db, validate, trackingType, trackingId, body, commitFails);
    var o := UpdateTrackingSpec(db, ParseTrackingUpdate(body).value, trackingType, trackingId,
                                CurrentUser(validate).userId, commitFails);
    var kind := AlchemyModelFactory(trackingType).value;
    assert Table(r.1, kind)[trackingId] == o.result.value;
  }

  /**
   * A SleepUpdate on the Day route whose symptom ids are all stored answers
   * 200 as a SleepOut, yet the row reads back as a DayOut: the plain
   * attributes do not outlive the request.
   */
  lemma SleepBodyOnDayRouteReadsBackAsDay(db: Tables, validate: string -> Option<ValidateReply>, trackingId: int,
                                          body: map<string, Json>, commitFails: bool)
    requires Consistent(db)
    requires SleepBodyOnDayRoute("day", body)
    requires ParseTrackingUpdate(body).value.symptoms.Some?
    requires forall v :: v in ParseTrackingUpdate(body).value.symptoms.value ==> v in db.symptoms
    requires Update(db, validate, "day", trackingId, body, commitFails).0.statusCode == 200
    ensures var r := Update(db, validate, "day", trackingId, body, commitFails);
      && r.0.body.Some? && r.0.body.value.SleepOut?
      && Get(r.1, validate, "day", trackingId).statusCode == 200
      && Get(r.1, validate, "day", trackingId).body.value.DayOut?
  {
    var r := Update(db, validate, "day", trackingId, body, commitFails);
    var o := UpdateTrackingSpec(db, ParseTrackingUpdate(body).value, "day", trackingId,
                                CurrentUser(validate).userId, commitFails);
    assert Table(r.1, DayType)[trackingId] == o.result.value;
  }

  /** After a 204, the deleted tracking reads back as 404. */
  lemma DeleteThenGet(db: Tables, validate: string -> Option<ValidateReply>, trackingType: string, trackingId: int,
                      commitFails: bool)
    requires Consistent(db)
    requires Delete(db, validate, trackingType, trackingId, commitFails).0 == 204
    ensures var after := Delete(db, validate, trackingType, trackingId, commitFails).1;
      Consistent(after) && Get(after, validate, trackingType, trackingId) == Response(404, None)
  {
    DeletePreservesConsistent(db, trackingType, trackingId, CurrentUser(validate).userId, commitFails);
  }

  /** Every tracking GET /trackings/me lists is what GET of that id answers. */
  lemma GetMeAgreesWithGet(db: Tables, validate: string -> Option<ValidateReply>, trackingType: string,
                           startDate: Option<int>, endDate: Option<int>)
    requires Consistent(db)
    requires GetMe(db, validate, trackingType, startDate, endDate).statusCode == 200
    ensures var r := GetMe(db, validate, trackingType, startDate, endDate);
      forall id :: id in r.body ==> Get(db, validate, trackingType, id) == Response(200, Some(r.body[id]))
  {
    var r := GetMe(db, validate, trackingType, startDate, endDate);
    var userId := CurrentUser(validate).userId;
    var rows := GetTrackingsByUser(db, trackingType, userId, startDate, endDate).value;
    forall id | id in r.body
      ensures Get(db, validate, trackingType, id) == Response(200, Some(r.body[id]))
    {
      assert id in rows;
      assert GetTrackingByIdAndUser(db, trackingType, id, userId) == Ok(rows[id]);
    }
  }
}

=== FILE: tracking_schemas.dfy ===
/**
 * The tracking service's request and response schemas
 * (tracking_service/schemas/sleep.py, day.py, symptoms.py, triggers.py):
 * validation of a decoded JSON body into a payload, the dictionary a
 * payload dumps to, and the output records that resolve association ids
 * to full Symptom and Trigger rows.
 */
module TrackingSchemas {
  import opened Basics
  import opened Enums
  import opened TrackingModels

  /** A validated request body. Every field is required; `None` is an explicit null. */
  datatype Payload =
    | SleepCreate(duration: int, date: int, quality: SleepQuality, comment: Option<string>,
                  symptoms: Option<seq<int>>)
    | DayCreate(date: int, comment: Option<string>, triggers: Option<seq<int>>,
                lateMorningSymptoms: Option<seq<int>>, afternoonSymptoms: Option<seq<int>>)
    | SleepUpdate(duration: int, quality: SleepQuality, symptoms: Option<seq<int>>, text: string)
    | DayUpdate(comment: Option<string>, triggers: Option<seq<int>>,
                lateMorningSymptoms: Option<seq<int>>, afternoonSymptoms: Option<seq<int>>)

  /** The value of one entry of `model_dump()`. */
  datatype FieldValue =
    | IntField(n: int)
    | QualityField(q: SleepQuality)
    | TextField(text: Option<string>)
    | IdsField(ids: Option<seq<int>>)

  /** `model_dump()`: every field of the payload under its snake-case name. */
  function Dump(p: Payload): (d: map<string, FieldValue>)
    ensures "comment" in d && d["comment"].TextField?
    ensures "date" in d <==> p.SleepCreate? || p.DayCreate?
    ensures "duration" in d <==> p.SleepCreate? || p.SleepUpdate?
  {
    match p
    case SleepCreate(duration, date, quality, comment, symptoms) =>
      map["duration" := IntField(duration), "date" := IntField(date), "quality" := QualityField(quality),
          "comment" := TextField(comment), "symptoms" := IdsField(symptoms)]
    case DayCreate(date, comment, triggers, late, afternoon) =>
      map["date" := IntField(date), "comment" := TextField(comment), "triggers" := IdsField(triggers),
          "late_morning_symptoms" := IdsField(late), "afternoon_symptoms" := IdsField(afternoon)]
    case SleepUpdate(duration, quality, symptoms, comment) =>
      map["duration" := IntField(duration), "quality" := QualityField(quality),
          "symptoms" := IdsField(symptoms), "comment" := TextField(Some(comment))]
    case DayUpdate(comment, triggers, late, afternoon) =>
      map["comment" := TextField(comment), "triggers" := IdsField(triggers),
          "late_morning_symptoms" := IdsField(late), "afternoon_symptoms" := IdsField(afternoon)]
  }

  /** Neither update schema has a `date` field, so no update payload can carry one. */
  lemma UpdatesCarryNoDate(p: Payload)
    requires p.SleepUpdate? || p.DayUpdate?
    ensures "date" !in Dump(p)
  {
  }

  // ---------------------------------------------------------------------
  // Field validators: a required key, then the field's type.
  // ---------------------------------------------------------------------

  /**
   * `PositiveInt` in pydantic's lax mode: the value is converted as `int()`
   * converts a JSON value (an integer, a boolean as 0 or 1, or a decimal
   * text such as the `"8"` a command-line client sends), then must be above zero.
   */
  function PositiveIntField(body: map<string, Json>, key: string): (r: Option<int>)
    ensures r.Some? ==> r.value > 0
    ensures r.Some? <==> key in body && PyInt(body[key]).Some? && PyInt(body[key]).value > 0
    ensures r.Some? ==> PyInt(body[key]) == Some(r.value)
  {
    match Get(body, key)
    case Some(v) =>
      (match PyInt(v)
       case Some(n) => if n > 0 then Some(n) else None
       case None => None)
    case None => None
  }

  /** A required `datetime`, modelled as an integer. */
  function DateField(body: map<string, Json>, key: string): (r: Option<int>)
    ensures r.Some? <==> key in body && body[key].JInt?
  {
    match Get(body, key)
    case Some(JInt(n)) => Some(n)
    case _ => None
  }

  /** A required `SleepQuality`: one of the enumeration's texts. */
  function QualityFieldOf(body: map<string, Json>, key: string): (r: Option<SleepQuality>)
    ensures r.Some? ==> key in body && body[key] == JStr(SleepQualityValue(r.value))
  {
    match Get(body, key)
    case Some(JStr(s)) => ParseSleepQuality(s)
    case _ => None
  }

  /** A required `str | None`: the outer option is validity, the inner one nullness. */
  function NullableText(body: map<string, Json>, key: string): (r: Option<Option<string>>)
    ensures r.Some? <==> key in body && (body[key].JNull? || body[key].JStr?)
  {
    match Get(body, key)
    case Some(JNull) => Some(None)
    case Some(JStr(s)) => Some(Some(s))
    case _ => None
  }

  /** A required, non-null `str`. */
  function Text(body: map<string, Json>, key: string): (r: Option<string>)
    ensures r.Some? <==> key in body && body[key].JStr?
  {
    match Get(body, key)
    case Some(JStr(s)) => Some(s)
    case _ => None
  }

  /**
   * `list[int]` in pydantic's lax mode: every element converted as `int()`
   * converts it, or `None` if some element does not convert.
   */
  function IntItems(items: seq<Json>): (r: Option<seq<int>>)
    ensures r.Some? ==> |r.value| == |items| && forall i :: 0 <= i < |items| ==> PyInt(items[i]) == Some(r.value[i])
    ensures r.None? ==> exists i :: 0 <= i < |items| && PyInt(items[i]).None?
  {
    if |items| == 0 then Some([])
    else match PyInt(items[0])
      case None => None
      case Some(n) =>
        match IntItems(items[1..])
        case None => None
        case Some(rest) => Some([n] + rest)
  }

  /** A required `list[int] | None`. */
  function NullableIds(body: map<string, Json>, key: string): (r: Option<Option<seq<int>>>)
    ensures r.Some? <==> key in body && (body[key].JNull? || (body[key].JArr? && IntItems(body[key].items).Some?))
  {
    match Get(body, key)
    case Some(JNull) => Some(None)
    case Some(JArr(items)) =>
      (match IntItems(items) case None => None case Some(ids) => Some(Some(ids)))
    case _ => None
  }

  // ---------------------------------------------------------------------
  // The four schemas. Keys the schema does not name are ignored.
  // ---------------------------------------------------------------------

  function ParseSleepCreate(body: map<string, Json>): (r: Option<Payload>)
    ensures r.Some? ==> r.value.SleepCreate? && r.value.duration > 0
    ensures r.Some? <==>
      && PositiveIntField(body, "duration").Some? && DateField(body, "date").Some?
      && QualityFieldOf(body, "quality").Some? && NullableText(body, "comment").Some?
      && NullableIds(body, "symptoms").Some?
  {
    match (PositiveIntField(body, "duration"), DateField(body, "date"), QualityFieldOf(body, "quality"),
           NullableText(body, "comment"), NullableIds(body, "symptoms"))
    case (Some(duration), Some(date), Some(quality), Some(comment), Some(symptoms)) =>
      Some(SleepCreate(duration, date, quality, comment, symptoms))
    case _ => None
  }

  function ParseSleepUpdate(body: map<string, Json>): (r: Option<Payload>)
    ensures r.Some? ==> r.value.SleepUpdate? && r.value.duration > 0
    ensures r.Some? <==>
      && PositiveIntField(body, "duration").Some? && QualityFieldOf(body, "quality").Some?
      && NullableIds(body, "symptoms").Some? && Text(body, "comment").Some?
  {
    match (PositiveIntField(body, "duration"), QualityFieldOf(body, "quality"),
           NullableIds(body, "symptoms"), Text(body, "comment"))
    case (Some(duration), Some(quality), Some(symptoms), Some(comment)) =>
      Some(SleepUpdate(duration, quality, symptoms, comment))
    case _ => None
  }

  function ParseDayCreate(body: map<string, Json>): (r: Option<Payload>)
    ensures r.Some? ==> r.value.DayCreate?
    ensures r.Some? <==>
      && DateField(body, "date").Some? && NullableText(body, "comment").Some?
      && NullableIds(body, "triggers").Some? && NullableIds(body, "late_morning_symptoms").Some?
      && NullableIds(body, "afternoon_symptoms").Some?
  {
    match (DateField(body, "date"), NullableText(body, "comment"), NullableIds(body, "triggers"),
           NullableIds(body, "late_morning_symptoms"), NullableIds(body, "afternoon_symptoms"))
    case (Some(date), Some(comment), Some(triggers), Some(late), Some(afternoon)) =>
      Some(DayCreate(date, comment, triggers, late, afternoon))
    case _ => None
  }

  function ParseDayUpdate(body: map<string, Json>): (r: Option<Payload>)
    ensures r.Some? ==> r.value.DayUpdate?
    ensures r.Some? <==>
      && NullableText(body, "comment").Some? && NullableIds(body, "triggers").Some?
      && NullableIds(body, "late_morning_symptoms").Some? && NullableIds(body, "afternoon_symptoms").Some?
  {
    match (NullableText(body, "comment"), NullableIds(body, "triggers"),
           NullableIds(body, "late_morning_symptoms"), NullableIds(body, "afternoon_symptoms"))
    case (Some(comment), Some(triggers), Some(late), Some(afternoon)) =>
      Some(DayUpdate(comment, triggers, late, afternoon))
    case _ => None
  }

  /** `SleepUpdate | DayUpdate`: the first member of the union that accepts the body. */
  function ParseTrackingUpdate(body: map<string, Json>): (r: Option<Payload>)
    ensures r.Some? ==> r.value.SleepUpdate? || r.value.DayUpdate?
    ensures r.None? <==> ParseSleepUpdate(body).None? && ParseDayUpdate(body).None?
  {
    match ParseSleepUpdate(body)
    case Some(p) => Some(p)
    case None => ParseDayUpdate(body)
  }

  /** Both sleep schemas reject a duration that is not strictly positive. */
  lemma SleepSchemasRejectNonPositiveDuration(body: map<string, Json>, d: int)
    requires d <= 0
    ensures ParseSleepCreate(body["duration" := JInt(d)]).None?
    ensures ParseSleepUpdate(body["duration" := JInt(d)]).None?
  {
  }

  /** Both sleep schemas reject a quality text outside the SleepQuality values. */
  lemma SleepSchemasRejectUnknownQuality(body: map<string, Json>, s: string)
    requires s !in {"bad", "moderate", "good"}
    ensures ParseSleepCreate(body["quality" := JStr(s)]).None?
    ensures ParseSleepUpdate(body["quality" := JStr(s)]).None?
  {
    SleepQualityValues(s);
  }

  /** Both create schemas require a date; a null or missing one is rejected. */
  lemma CreateSchemasRequireDate(body: map<string, Json>)
    requires "date" !in body || body["date"].JNull?
    ensures ParseSleepCreate(body).None? && ParseDayCreate(body).None?
  {
  }

  /**
   * SleepCreate accepts a null comment, SleepUpdate does not: a body whose
   * comment is null is never a valid sleep update.
   */
  lemma SleepCommentNullability(body: map<string, Json>)
    requires "comment" in body && body["comment"].JNull?
    ensures ParseSleepUpdate(body).None?
    ensures ParseSleepCreate(body).Some? ==> ParseSleepCreate(body).value.comment.None?
  {
  }

  /**
   * An id list converts back to the same ids whether each id is sent as a
   * JSON integer or as its decimal text.
   */
  lemma {:induction false} IdListsConvert(ids: seq<int>)
    ensures IntItems(seq(|ids|, i requires 0 <= i < |ids| => JInt(ids[i]))) == Some(ids)
    ensures IntItems(seq(|ids|, i requires 0 <= i < |ids| => JStr(IntToString(ids[i])))) == Some(ids)
  {
    if |ids| > 0 {
      var ints := seq(|ids|, i requires 0 <= i < |ids| => JInt(ids[i]));
      var texts := seq(|ids|, i requires 0 <= i < |ids| => JStr(IntToString(ids[i])));
      IdListsConvert(ids[1..]);
      assert ints[1..] == seq(|ids[1..]|, i requires 0 <= i < |ids[1..]| => JInt(ids[1..][i]));
      assert texts[1..] == seq(|ids[1..]|, i requires 0 <= i < |ids[1..]| => JStr(IntToString(ids[1..][i])));
      IntStringRoundTrip(ids[0]);
      assert ids == [ids[0]] + ids[1..];
    }
  }

  /**
   * The sleep body the command-line client builds from `input()` text (the
   * duration a string) is a valid SleepCreate with that duration.
   */
  lemma ClientSleepBodyAccepted(date: int)
    ensures ParseSleepCreate(map["duration" := JStr("8"), "quality" := JStr("good"), "symptoms" := JArr([]),
                                 "comment" := JStr(""), "date" := JInt(date)])
            == Some(SleepCreate(8, date, Good, Some(""), Some([])))
  {
    assert AllDigits("8");
  }

  // ---------------------------------------------------------------------
  // Output schemas
  // ---------------------------------------------------------------------

  /** `SleepOut` and `DayOut`: associations as full rows, the comment a non-null text. */
  datatype TrackingOut =
    | SleepOut(id: int, userId: int, date: int, duration: int, quality: SleepQuality,
               comment: string, symptoms: seq<Symptom>)
    | DayOut(id: int, userId: int, date: int, comment: string, triggers: seq<Trigger>,
             lateMorningSymptoms: seq<Symptom>, afternoonSymptoms: seq<Symptom>)

  /** The rows the ids refer to, in the order of the ids. */
  function SymptomRows(db: Tables, ids: seq<int>): (rows: seq<Symptom>)
    requires forall v :: v in ids ==> v in db.symptoms
    ensures |rows| == |ids| && forall i :: 0 <= i < |ids| ==> ids[i] in db.symptoms && rows[i] == db.symptoms[ids[i]]
  {
    if |ids| == 0 then []
    else
      var first := ids[0];
      assert first in ids;
      [db.symptoms[first]] + SymptomRows(db, ids[1..])
  }

  function TriggerRows(db: Tables, ids: seq<int>): (rows: seq<Trigger>)
    requires forall v :: v in ids ==> v in db.triggers
    ensures |rows| == |ids| && forall i :: 0 <= i < |ids| ==> ids[i] in db.triggers && rows[i] == db.triggers[ids[i]]
  {
    if |ids| == 0 then []
    else
      var first := ids[0];
      assert first in ids;
      [db.triggers[first]] + TriggerRows(db, ids[1..])
  }

  /**
   * The response a stored tracking validates to, or `None` when it fails
   * response validation: a null comment (both output schemas declare a
   * non-null `str`) or a Sleep duration that is not a `PositiveInt`.
   */
  function ToOut(db: Tables, t: Tracking): (r: Option<TrackingOut>)
    requires ReferencesResolve(db, t)
    ensures r.None? <==> t.comment.None? || (t.Sleep? && t.duration <= 0)
    ensures r.Some? ==> r.value.id == t.id && r.value.userId == t.userId && r.value.date == t.date
    ensures r.Some? ==> r.value.SleepOut? == t.Sleep?
    ensures r.Some? ==> r.value.comment == t.comment.value
    ensures r.Some? && t.Sleep? ==> r.value.duration == t.duration && r.value.quality == t.quality
  {
    match t
    case Sleep(id, userId, date, duration, quality, comment, symptoms) =>
      if comment.None? || duration <= 0 then None
      else Some(SleepOut(id, userId, date, duration, quality, comment.value, SymptomRows(db, symptoms)))
    case Day(id, userId, date, comment, triggers, late, afternoon) =>
      if comment.None? then None
      else Some(DayOut(id, userId, date, comment.value, TriggerRows(db, triggers),
                       SymptomRows(db, late), SymptomRows(db, afternoon)))
  }

  /** The output rows carry exactly the ids the stored tracking refers to. */
  lemma {:induction false} OutRowsMatchIds(db: Tables, t: Tracking)
    requires ReferencesResolve(db, t) && SymptomsWellKeyed(db.symptoms) && TriggersWellKeyed(db.triggers)
    requires ToOut(db, t).Some?
    ensures var o := ToOut(db, t).value;
      match o
      case SleepOut(_, _, _, _, _, _, symptoms) =>
        |symptoms| == |t.symptoms| && forall i :: 0 <= i < |symptoms| ==> symptoms[i].id == t.symptoms[i]
      case DayOut(_, _, _, _, triggers, late, afternoon) =>
        && |triggers| == |t.triggers| && (forall i :: 0 <= i < |triggers| ==> triggers[i].id == t.triggers[i])
        && |late| == |t.lateMorningSymptoms| && (forall i :: 0 <= i < |late| ==> late[i].id == t.lateMorningSymptoms[i])
        && |afternoon| == |t.afternoonSymptoms| && (forall i :: 0 <= i < |afternoon| ==> afternoon[i].id == t.afternoonSymptoms[i])
  {
    match t
    case Sleep(_, _, _, _, _, _, symptoms) =>
      assert forall i :: 0 <= i < |symptoms| ==> symptoms[i] in symptoms;
    case Day(_, _, _, _, triggers, late, afternoon) =>
      assert forall i :: 0 <= i < |triggers| ==> triggers[i] in triggers;
      assert forall i :: 0 <= i < |late| ==> late[i] in late;
      assert forall i :: 0 <= i < |afternoon| ==> afternoon[i] in afternoon;
  }
}

=== FILE: tracking_store.dfy ===
/**
 * The tracking database as the service's session sees it: four tables
 * held as mutable maps, with the id sequences that hand out new keys.
 * Every method performs one data-access call of
 * tracking_service/crud.py and is proved to leave the tables exactly as
 * the corresponding function of `TrackingCrud` says, keeping the table
 * constraints.
 */
module TrackingDb {
  import opened Basics
  import opened Enums
  import opened TrackingModels
  import opened TrackingSchemas
  import opened TrackingCrud

  class TrackingStore {
    var sleeps: map<int, Tracking>
    var days: map<int, Tracking>
    var symptoms: map<int, Symptom>
    var triggers: map<int, Trigger>
    var nextSleepId: int
    var nextDayId: int
    var nextSymptomId: int
    var nextTriggerId: int

    /** The committed contents of the four tables. */
    function Snapshot(): Tables
      reads this
    {
      Tables(sleeps, days, symptoms, triggers)
    }

    /** The id the table named by the type string would hand out next. */
    function NewIdFor(trackingType: string): int
      reads this
    {
      if trackingType == "day" then nextDayId else nextSleepId
    }

    /** The table constraints hold and every sequence is past the keys in use. */
    ghost predicate Valid()
      reads this
    {
      && Consistent(Snapshot())
      && (forall id :: id in sleeps ==> id < nextSleepId)
      && (forall id :: id in days ==> id < nextDayId)
      && (forall id :: id in symptoms ==> id < nextSymptomId)
      && (forall id :: id in triggers ==> id < nextTriggerId)
    }

    constructor()
      ensures Valid()
      ensures Snapshot() == Tables(map[], map[], map[], map[])
    {
      sleeps, days, symptoms, triggers := map[], map[], map[], map[];
      nextSleepId, nextDayId, nextSymptomId, nextTriggerId := 1, 1, 1, 1;
    }

    /**
     * The first loop of `add_values_to_model`: pop each relationship
     * attribute from the dump and set it when given, failing on an unknown
     * id. `rest` is what is left of the dump.
     */
    method LinkAssociations(t: Tracking, data: map<string, FieldValue>) returns (r: Option<Tracking>, rest: map<string, FieldValue>)
      ensures r == FoldAssociations(Snapshot(), t, data, Associations)
      ensures r.Some? ==> rest == data - AssociationKeys()
    {
      rest := data;
      var current := t;
      var i := 0;
      while i < |Associations|
        invariant 0 <= i <= |Associations|
        invariant rest == data - KeysBefore(i)
        invariant FoldAssociations(Snapshot(), t, data, Associations[..i]) == Some(current)
      {
        var attribute := Associations[i];
        FoldStep(Snapshot(), t, data, i);
        KeysBeforeStep(i);
        PopStep(data, KeysBefore(i), attribute);
        var values := if attribute in rest then Some(rest[attribute]) else None;
        rest := rest - {attribute};
        if values.Some? && values.value.IdsField? && values.value.ids.Some? {
          var resolved := SetAssociation(Snapshot(), current, attribute, values.value.ids.value);
          if resolved.None? {
            FoldFailureStays(Snapshot(), t, data, i + 1);
            return None, rest;
          }
          current := resolved.value;
        }
        i := i + 1;
      }
      assert Associations[..|Associations|] == Associations;
      return Some(current), rest;
    }

    /** The second loop of `add_values_to_model`: every remaining entry of the dump set as a column. */
    method SetRemainingColumns(t: Tracking, rest: map<string, FieldValue>) returns (r: Tracking)
      ensures r == SetColumns(t, rest, Columns)
    {
      r := t;
      var j := 0;
      while j < |Columns|
        invariant 0 <= j <= |Columns|
        invariant r == SetColumns(t, rest, Columns[..j])
      {
        var key := Columns[j];
        assert Columns[..j + 1][..j] == Columns[..j];
        if key in rest {
          r := SetColumn(r, key, rest[key]);
        }
        j := j + 1;
      }
      assert Columns[..|Columns|] == Columns;
    }

    /**
     * `add_values_to_model`: the relationship attributes, then, for an
     * update, every remaining entry. The remaining entries are visited in
     * column order; they name distinct columns, so the order does not
     * matter.
     */
    method AddValuesToModel(t: Tracking, data: map<string, FieldValue>, update: bool) returns (r: Option<Tracking>)
      ensures r == AddValues(Snapshot(), t, data, update)
    {
      var linked, rest := LinkAssociations(t, data);
      if linked.None? {
        return None;
      }
      if !update {
        return linked;
      }
      var columns := SetRemainingColumns(linked.value, rest);
      return Some(columns);
    }

    /** Stores a Sleep or Day row under `id` in the table of `kind`; the sequences are untouched. */
    method StoreRow(kind: TrackingType, id: int, t: Tracking)
      modifies this
      ensures Snapshot() == WithTable(old(Snapshot()), kind, Table(old(Snapshot()), kind)[id := t])
      ensures nextSleepId == old(nextSleepId) && nextDayId == old(nextDayId)
      ensures nextSymptomId == old(nextSymptomId) && nextTriggerId == old(nextTriggerId)
    {
      if kind == SleepType {
        sleeps := sleeps[id := t];
      } else {
        days := days[id := t];
      }
    }

    /** Inserts a new Sleep or Day row under the next id of its table's sequence, advancing the sequence. */
    method InsertRow(kind: TrackingType, t: Tracking)
      requires Valid()
      requires t.id == (if kind == SleepType then nextSleepId else nextDayId)
      requires Consistent(WithTable(Snapshot(), kind, Table(Snapshot(), kind)[t.id := t]))
      modifies this
      ensures Valid()
      ensures Snapshot() == WithTable(old(Snapshot()), kind, Table(old(Snapshot()), kind)[t.id := t])
    {
      StoreRow(kind, t.id, t);
      if kind == SleepType {
        nextSleepId := nextSleepId + 1;
      } else {
        nextDayId := nextDayId + 1;
      }
    }

    /** `create_tracking`; `commitFails` stands for a database error during the commit. */
    method CreateTracking(tracking: Payload, trackingType: string, userId: int, commitFails: bool) returns (r: Result<Tracking>)
      requires Valid()
      requires tracking.SleepCreate? || tracking.DayCreate?
      modifies this
      ensures Valid()
      ensures Outcome(r, Snapshot()) == CreateTrackingSpec(old(Snapshot()), old(NewIdFor(trackingType)), trackingType, tracking, userId, commitFails)
    {
      var model := AlchemyModelFactory(trackingType);
      if model.Fail? {
        return Fail(model.error);
      }
      var kind := model.value;
      var newId := NewIdFor(trackingType);
      CreatePreservesConsistent(Snapshot(), newId, trackingType, tracking, userId, commitFails);
      var created := NewRecord(kind, newId, userId, tracking);
      if created.None? {
        return Fail(NotValid);
      }
      var linked := AddValuesToModel(created.value, Dump(tracking), false);
      if linked.None? {
        return Fail(NotValid);
      }
      var t := linked.value;
      if DateTaken(Table(Snapshot(), kind), userId, t.date) || commitFails {
        return Fail(NotValid);
      }
      InsertRow(kind, t);
      return Ok(t);
    }

    /** `update_tracking`; `commitFails` stands for a database error during the commit. */
    method UpdateTracking(tracking: Payload, trackingType: string, trackingId: int, userId: int, commitFails: bool) returns (r: Result<Tracking>)
      requires Valid()
      requires tracking.SleepUpdate? || tracking.DayUpdate?
      modifies this
      ensures Valid()
      ensures Outcome(r, Snapshot()) == UpdateTrackingSpec(old(Snapshot()), tracking, trackingType, trackingId, userId, commitFails)
    {
      var model := AlchemyModelFactory(trackingType);
      if model.Fail? {
        return Fail(model.error);
      }
      var kind := model.value;
      var table := if kind == SleepType then sleeps else days;
      if trackingId !in table {
        return Fail(NotFound);
      }
      if table[trackingId].userId != userId {
        return Fail(NotAllowed);
      }
      UpdatePreservesConsistent(Snapshot(), tracking, trackingType, trackingId, userId, commitFails);
      var updated := AddValuesToModel(table[trackingId], Dump(tracking), true);
      if updated.None? || commitFails {
        return Fail(NotUpdated);
      }
      StoreRow(kind, trackingId, updated.value);
      return Ok(updated.value);
    }

    /** `delete_tracking`; `commitFails` stands for a database error during the delete. */
    method DeleteTracking(trackingType: string, trackingId: int, userId: int, commitFails: bool) returns (r: Result<Tracking>)
      requires Valid()
      modifies this
      ensures Valid()
      ensures Outcome(r, Snapshot()) == DeleteTrackingSpec(old(Snapshot()), trackingType, trackingId, userId, commitFails)
    {
      var model := AlchemyModelFactory(trackingType);
      if model.Fail? {
        return Fail(model.error);
      }
      var kind := model.value;
      var table := if kind == SleepType then sleeps else days;
      if trackingId !in table {
        return Fail(NotFound);
      }
      var t := table[trackingId];
      if t.userId != userId {
        return Fail(NotAllowed);
      }
      if commitFails {
        return Fail(NotDeleted);
      }
      DeletePreservesConsistent(Snapshot(), trackingType, trackingId, userId, commitFails);
      if kind == SleepType {
        sleeps := sleeps - {trackingId};
      } else {
        days := days - {trackingId};
      }
      return Ok(t);
    }

    /** `delete_trackings_by_user`: both bulk deletes in one transaction. */
    method DeleteTrackingsByUser(userId: int, commitFails: bool) returns (ok: bool)
      requires Valid()
      modifies this
      ensures Valid()
      ensures (ok, Snapshot()) == DeleteTrackingsByUserSpec(old(Snapshot()), userId, commitFails)
    {
      if commitFails {
        return false;
      }
      PurgeUserPreservesConsistent(Snapshot(), userId);
      sleeps := Purge(sleeps, userId);
      days := Purge(days, userId);
      return true;
    }

    /** `create_symptom`; `None` when the unique name constraint rejects the row. */
    method CreateSymptom(name: string) returns (r: Option<Symptom>)
      requires Valid()
      modifies this
      ensures Valid()
      ensures (r, Snapshot()) == CreateSymptomSpec(old(Snapshot()), old(nextSymptomId), name)
    {
      if SymptomNameTaken(Snapshot(), name) {
        return None;
      }
      CreateSymptomPreservesConsistent(Snapshot(), nextSymptomId, name);
      var s := Symptom(nextSymptomId, name);
      symptoms := symptoms[nextSymptomId := s];
      nextSymptomId := nextSymptomId + 1;
      return Some(s);
    }

    /** `create_trigger`; `None` when the unique name constraint rejects the row. */
    method CreateTrigger(name: string, category: TriggerCategory) returns (r: Option<Trigger>)
      requires Valid()
      modifies this
      ensures Valid()
      ensures (r, Snapshot()) == CreateTriggerSpec(old(Snapshot()), old(nextTriggerId), name, category)
    {
      if TriggerNameTaken(Snapshot(), name) {
        return None;
      }
      CreateTriggerPreservesConsistent(Snapshot(), nextTriggerId, name, category);
      var t := Trigger(nextTriggerId, name, category);
      triggers := triggers[nextTriggerId := t];
      nextTriggerId := nextTriggerId + 1;
      return Some(t);
    }
  }
}

=== FILE: user_authentication.dfy ===
/**
 * Token issuance and checking in the user service
 * (user_service/authentication.py). Signing and signature checking are
 * not modelled: a token is the claims it carries, and `jwt.decode` of a
 * token signed with the service key only checks its expiry against the
 * clock, which is a parameter. `None` for the decoded claims stands for
 * any `PyJWTError`.
 */
module UserAuthentication {
  import opened Basics
  import opened UserCrud

  /** The default lifetime of a token, in seconds (`ACCESS_TOKEN_EXPIRE` minutes). */
  const DefaultLifetime := 30 * 60

  /** The scopes every issued token carries (`SCOPES`). */
  const IssuedScopes: seq<string> := ["me", "items"]

  type Claims = map<string, Json>

  /** A checked request either passes with a value or ends with an HTTP error. */
  datatype Verdict<T> = Granted(value: T) | Refused(statusCode: int, detail: string)

  // ---------------------------------------------------------------------
  // Issuing tokens
  // ---------------------------------------------------------------------

  function ScopesJson(scopes: seq<string>): (j: Json)
    ensures j.JArr? && |j.items| == |scopes|
    ensures forall i :: 0 <= i < |scopes| ==> j.items[i] == JStr(scopes[i])
  {
    if |scopes| == 0 then JArr([])
    else JArr([JStr(scopes[0])] + ScopesJson(scopes[1..]).items)
  }

  /** The lifetime `create_access_token` uses: a missing or zero `timedelta` is falsy and gives the default. */
  function Lifetime(expiresDelta: Option<int>): int
  {
    if expiresDelta.Some? && expiresDelta.value != 0 then expiresDelta.value else DefaultLifetime
  }

  /**
   * `create_access_token`: a copy of the data with `exp` set to the issue
   * time plus the lifetime and `scopes` always set to `SCOPES`, whatever
   * the data said.
   */
  function CreateAccessToken(data: Claims, expiresDelta: Option<int>, now: int): (claims: Claims)
    ensures claims.Keys == data.Keys + {"exp", "scopes"}
    ensures claims["scopes"] == ScopesJson(IssuedScopes)
    ensures claims["exp"] == JInt(now + Lifetime(expiresDelta))
    ensures forall k :: k in data && k != "exp" && k != "scopes" ==> claims[k] == data[k]
  {
    data["exp" := JInt(now + Lifetime(expiresDelta))]["scopes" := ScopesJson(IssuedScopes)]
  }

  /** `jwt.decode` of a token signed with the service key, at time `now`: an expired token raises. */
  function DecodeSigned(claims: Claims, now: int): (r: Option<Claims>)
    ensures r.Some? ==> r.value == claims
    ensures r.None? <==> "exp" in claims && (!claims["exp"].JInt? || claims["exp"].n <= now)
  {
    if "exp" in claims && (!claims["exp"].JInt? || claims["exp"].n <= now) then None else Some(claims)
  }

  /** A token decodes from the moment it is issued until, and not including, its expiry. */
  lemma IssuedTokenLifetime(data: Claims, expiresDelta: Option<int>, issuedAt: int, now: int)
    requires Lifetime(expiresDelta) > 0
    ensures DecodeSigned(CreateAccessToken(data, expiresDelta, issuedAt), now).Some? <==>
      now < issuedAt + Lifetime(expiresDelta)
  {
  }

  // ---------------------------------------------------------------------
  // Checking tokens
  // ---------------------------------------------------------------------

  /** What `TokenData(scopes=..., user_id=...)` makes of the decoded claims. */
  datatype ClaimsReading =
    | NoSubject                                   // `payload.get("sub")` is None
    | BadClaims                                   // pydantic rejects `sub` or `scopes`
    | Subject(userId: int, scopes: seq<string>)

  /** The items of a JSON array, when every one is a string. */
  function StrItems(items: seq<Json>): (r: Option<seq<string>>)
    ensures r.Some? <==> forall i :: 0 <= i < |items| ==> items[i].JStr?
    ensures r.Some? ==> |r.value| == |items| && forall i :: 0 <= i < |items| ==> items[i] == JStr(r.value[i])
  {
    if |items| == 0 then Some([])
    else if !items[0].JStr? then None
    else
      match StrItems(items[1..])
      case None => None
      case Some(rest) => Some([items[0].s] + rest)
  }

  /** A list of strings, as `list[str]` accepts it from JSON. */
  function StrList(j: Json): (r: Option<seq<string>>)
  {
    if j.JArr? then StrItems(j.items) else None
  }

  /** `payload.get("sub")` and `payload.get("scopes", [])` through `TokenData`. */
  function ReadClaims(claims: Claims): (r: ClaimsReading)
    ensures r.NoSubject? <==> "sub" !in claims || claims["sub"] == JNull
    ensures r.Subject? ==> Some(r.userId) == PyInt(claims["sub"])
  {
    if "sub" !in claims || claims["sub"] == JNull then NoSubject
    else
      var scopes := if "scopes" in claims then StrList(claims["scopes"]) else Some([]);
      match (PyInt(claims["sub"]), scopes)
      case (Some(userId), Some(granted)) => Subject(userId, granted)
      case _ => BadClaims
  }

  /** Every required scope is among the token's scopes. */
  predicate HasScopes(required: seq<string>, granted: seq<string>)
  {
    forall i :: 0 <= i < |required| ==> required[i] in granted
  }

  /** The scope loop of `verify_token` and `get_current_user`: is some required scope missing? */
  method MissingScope(required: seq<string>, granted: seq<string>) returns (missing: bool)
    ensures missing <==> !HasScopes(required, granted)
    ensures missing ==> exists s :: s in required && s !in granted
  {
    for i := 0 to |required|
      invariant forall k :: 0 <= k < i ==> required[k] in granted
    {
      if required[i] !in granted {
        return true;
      }
    }
    return false;
  }

  /**
   * `verify_token`: an undecodable token and a missing subject are 401, a
   * subject pydantic rejects escapes as a 500, an unknown user is 404, and
   * a missing scope is 401; otherwise the subject as an integer.
   */
  function VerifyTokenSpec(required: seq<string>, decoded: Option<Claims>, users: map<int, User>): (r: Verdict<int>)
    ensures r.Granted? <==>
      && decoded.Some? && ReadClaims(decoded.value).Subject?
      && ReadClaims(decoded.value).userId in users
      && HasScopes(required, ReadClaims(decoded.value).scopes)
    ensures r.Granted? ==> r.value == ReadClaims(decoded.value).userId
    ensures r.Refused? ==> r.statusCode in {401, 404, 500}
    ensures decoded.None? ==> r == Refused(401, "Could not validate credentials")
    ensures decoded.Some? && ReadClaims(decoded.value).Subject? && ReadClaims(decoded.value).userId !in users ==>
      r == Refused(404, "User not found")
  {
    match decoded
    case None => Refused(401, "Could not validate credentials")
    case Some(claims) =>
      match ReadClaims(claims)
      case NoSubject => Refused(401, "Unauthorized")
      case BadClaims => Refused(500, "Internal Server Error")
      case Subject(userId, granted) =>
        if userId !in users then Refused(404, "User not found")
        else if !HasScopes(required, granted) then Refused(401, "Not enough permissions")
        else Granted(userId)
  }

  method VerifyToken(required: seq<string>, decoded: Option<Claims>, users: map<int, User>) returns (r: Verdict<int>)
    ensures r == VerifyTokenSpec(required, decoded, users)
  {
    if decoded.None? {
      return Refused(401, "Could not validate credentials");
    }
    var reading := ReadClaims(decoded.value);
    if reading.NoSubject? {
      return Refused(401, "Unauthorized");
    }
    if reading.BadClaims? {
      return Refused(500, "Internal Server Error");
    }
    if reading.userId !in users {
      return Refused(404, "User not found");
    }
    var missing := MissingScope(required, reading.scopes);
    if missing {
      return Refused(401, "Not enough permissions");
    }
    return Granted(reading.userId);
  }

  /**
   * `get_current_user`: the same checks, but every failure before the
   * scope check (including an unknown user) is the one credentials error,
   * a 401; the value is the user's row.
   */
  function GetCurrentUserSpec(required: seq<string>, decoded: Option<Claims>, users: map<int, User>): (r: Verdict<User>)
    ensures r.Granted? <==> VerifyTokenSpec(required, decoded, users).Granted?
    ensures r.Granted? ==> r.value == users[VerifyTokenSpec(required, decoded, users).value]
    ensures r.Refused? ==> r.statusCode in {401, 500}
  {
    match decoded
    case None => Refused(401, "Could not validate credentials")
    case Some(claims) =>
      match ReadClaims(claims)
      case NoSubject => Refused(401, "Could not validate credentials")
      case BadClaims => Refused(500, "Internal Server Error")
      case Subject(userId, granted) =>
        if userId !in users then Refused(401, "Could not validate credentials")
        else if !HasScopes(required, granted) then Refused(401, "Not enough permissions")
        else Granted(users[userId])
  }

  method GetCurrentUser(required: seq<string>, decoded: Option<Claims>, users: map<int, User>) returns (r: Verdict<User>)
    ensures r == GetCurrentUserSpec(required, decoded, users)
  {
    if decoded.None? {
      return Refused(401, "Could not validate credentials");
    }
    var reading := ReadClaims(decoded.value);
    if reading.NoSubject? || (reading.Subject? && reading.userId !in users) {
      return Refused(401, "Could not validate credentials");
    }
    if reading.BadClaims? {
      return Refused(500, "Internal Server Error");
    }
    var missing := MissingScope(required, reading.scopes);
    if missing {
      return Refused(401, "Not enough permissions");
    }
    return Granted(users[reading.userId]);
  }

  /** The two checks disagree only on an unknown user: 404 in `verify_token`, 401 in `get_current_user`. */
  lemma UnknownUserStatusDiffers(required: seq<string>, claims: Claims, users: map<int, User>)
    requires ReadClaims(claims).Subject? && ReadClaims(claims).userId !in users
    ensures VerifyTokenSpec(required, Some(claims), users).statusCode == 404
    ensures GetCurrentUserSpec(required, Some(claims), users).statusCode == 401
  {
  }

  /** `verify`: 401 exactly when the password does not match the hash (`matches` is bcrypt's check). */
  function Verify(password: string, hashedPassword: string, matches: (string, string) -> bool): (r: Verdict<()>)
    ensures r.Granted? <==> matches(password, hashedPassword)
    ensures r.Refused? ==> r == Refused(401, "Incorrect email or password")
  {
    if matches(password, hashedPassword) then Granted(()) else Refused(401, "Incorrect email or password")
  }

  /** The claims of a token issued for a user id, as login issues them. */
  function LoginClaims(userId: int, now: int): Claims
  {
    CreateAccessToken(map["sub" := JStr(IntToString(userId))], Some(DefaultLifetime), now)
  }

  /** The scopes a token's claims grant, read back. */
  lemma {:induction false} IssuedScopesReadBack(userId: int, now: int)
    ensures ReadClaims(LoginClaims(userId, now)) == Subject(userId, IssuedScopes)
  {
    var claims := LoginClaims(userId, now);
    IntStringRoundTrip(userId);
    assert claims["sub"] == JStr(IntToString(userId));
    var items := ScopesJson(IssuedScopes).items;
    assert items == [JStr("me"), JStr("items")];
    var read := StrItems(items).value;
    assert |read| == 2 && JStr(read[0]) == JStr("me") && JStr(read[1]) == JStr("items");
    assert read == IssuedScopes;
  }

  /**
   * A token issued to a stored user passes `verify_token`, for as long as
   * it has not expired, exactly for the requests whose scopes are among
   * "me" and "items".
   */
  lemma IssuedTokenVerifies(required: seq<string>, userId: int, users: map<int, User>, issuedAt: int, now: int)
    requires userId in users
    requires now < issuedAt + DefaultLifetime
    ensures var decoded := DecodeSigned(LoginClaims(userId, issuedAt), now);
      VerifyTokenSpec(required, decoded, users) ==
        if HasScopes(required, IssuedScopes) then Granted(userId) else Refused(401, "Not enough permissions")
  {
    IssuedScopesReadBack(userId, issuedAt);
  }
}

=== FILE: user_crud.dfy ===
/**
 * The user table and its data-access calls (user_service/models.py,
 * user_service/crud.py). The pure functions say what each call does to
 * the table; the class `UserStore` performs the calls in place and is
 * proved to agree with them. Password hashing is a parameter, and a
 * failing commit is the flag `commitFails`.
 */
module UserCrud {
  import opened Basics
  import opened UserSchemes

  datatype Role = USER | ADMIN

  /** A row of `users`. */
  datatype User = User(id: int, name: string, email: string, hashedPassword: string, role: Role)

  /** The exceptions of user_service/crud.py. */
  datatype UserError = Exists | NotValid | NotFound | NotDeleted | NotUpdated | NotAllowed

  datatype Result<T> = Ok(value: T) | Fail(error: UserError)

  /** The result of a call together with the table it leaves behind. */
  datatype Outcome<T> = Outcome(result: Result<T>, users: map<int, User>)

  /** Rows are stored under their own id, and the unique constraint on `email` holds. */
  ghost predicate WellFormed(users: map<int, User>)
  {
    && (forall id :: id in users ==> users[id].id == id)
    && (forall i, j :: i in users && j in users && users[i].email == users[j].email ==> i == j)
  }

  predicate EmailTaken(users: map<int, User>, email: string)
  {
    exists id :: id in users && users[id].email == email
  }

  /** `get_user_by_email`: the one row with that e-mail, if any. */
  function GetUserByEmail(users: map<int, User>, email: string): (r: Option<User>)
    requires WellFormed(users)
    ensures r.Some? <==> EmailTaken(users, email)
    ensures r.Some? ==> r.value.email == email && r.value.id in users && users[r.value.id] == r.value
  {
    if EmailTaken(users, email) then
      var id :| id in users && users[id].email == email;
      Some(users[id])
    else None
  }

  /** `get_user_by_id`. */
  function GetUserById(users: map<int, User>, userId: int): (r: Option<User>)
    requires WellFormed(users)
    ensures r.Some? <==> userId in users
    ensures r.Some? ==> r.value == users[userId] && r.value.id == userId
  {
    if userId in users then Some(users[userId]) else None
  }

  /**
   * `create_user`: an e-mail already stored is UserExistsError; otherwise
   * the row is inserted with the hashed password and the role, and any
   * failure of the insert is UserNotValidError. An insert under an id that
   * is already used is such a failure.
   */
  function CreateUserSpec(users: map<int, User>, newId: int, u: UserCreate, role: Role,
                          hash: string -> string, commitFails: bool): (o: Outcome<User>)
    ensures o.result.Fail? ==> o.users == users
    ensures o.result == Fail(Exists) <==> EmailTaken(users, u.email)
    ensures o.result == Fail(NotValid) <==> !EmailTaken(users, u.email) && (commitFails || newId in users)
    ensures o.result.Ok? ==>
      && o.result.value == User(newId, u.name, u.email, hash(u.password), role)
      && o.users == users[newId := o.result.value]
  {
    if EmailTaken(users, u.email) then Outcome(Fail(Exists), users)
    else
      var row := User(newId, u.name, u.email, hash(u.password), role);
      if commitFails || newId in users then Outcome(Fail(NotValid), users)
      else Outcome(Ok(row), users[newId := row])
  }

  /**
   * `delete_user`: an unknown id is UserNotFoundError (not a database
   * error, so it passes the `except` unchanged); a failing delete is
   * UserNotDeletedError.
   */
  function DeleteUserSpec(users: map<int, User>, userId: int, commitFails: bool): (o: Outcome<()>)
    ensures o.result.Fail? ==> o.users == users
    ensures o.result == Fail(NotFound) <==> userId !in users
    ensures o.result == Fail(NotDeleted) <==> userId in users && commitFails
    ensures o.result.Ok? ==> o.users == users - {userId}
  {
    if userId !in users then Outcome(Fail(NotFound), users)
    else if commitFails then Outcome(Fail(NotDeleted), users)
    else Outcome(Ok(()), users - {userId})
  }

  /** The fields `model_dump` yields for an update body, in declaration order; both are required. */
  function UpdateFields(u: UserUpdate): seq<(string, string)>
  {
    [("email", u.email), ("name", u.name)]
  }

  /** `setattr(db_user, key, value)` for a column of the update body. */
  function SetAttr(row: User, key: string, value: string): User
  {
    if key == "email" then row.(email := value)
    else if key == "name" then row.(name := value)
    else row
  }

  function SetAttrs(row: User, fields: seq<(string, string)>): User
    decreases |fields|
  {
    if |fields| == 0 then row
    else SetAttrs(SetAttr(row, fields[0].0, fields[0].1), fields[1..])
  }

  /** The row after the update: e-mail and name replaced, id, role and hash kept. */
  lemma UpdateSetsExactlyThePayload(row: User, u: UserUpdate)
    ensures SetAttrs(row, UpdateFields(u)) == User(row.id, u.name, u.email, row.hashedPassword, row.role)
  {
    var fields := UpdateFields(u);
    var afterEmail := SetAttr(row, "email", u.email);
    assert fields[1..] == [("name", u.name)];
    assert SetAttrs(afterEmail, fields[1..]) == SetAttrs(SetAttr(afterEmail, "name", u.name), []);
  }

  /**
   * `update_user`: an unknown id is UserNotFoundError; the new row is
   * committed, and a commit that fails, or that breaks the unique e-mail
   * constraint, is UserNotUpdatedError. On success the refreshed row is
   * the value (the function as written returns nothing; see
   * `UserRouter.UpdateMeAsWritten`).
   */
  function UpdateUserSpec(users: map<int, User>, u: UserUpdate, userId: int, commitFails: bool): (o: Outcome<User>)
    ensures o.result.Fail? ==> o.users == users
    ensures o.result == Fail(NotFound) <==> userId !in users
    ensures o.result == Fail(NotUpdated) <==>
      userId in users && (commitFails || exists id :: id in users && id != userId && users[id].email == u.email)
    ensures o.result.Ok? ==>
      && o.result.value == User(users[userId].id, u.name, u.email, users[userId].hashedPassword, users[userId].role)
      && o.users == users[userId := o.result.value]
  {
    if userId !in users then Outcome(Fail(NotFound), users)
    else
      var row := SetAttrs(users[userId], UpdateFields(u));
      UpdateSetsExactlyThePayload(users[userId], u);
      if commitFails || exists id :: id in users && id != userId && users[id].email == u.email then
        Outcome(Fail(NotUpdated), users)
      else Outcome(Ok(row), users[userId := row])
  }

  /** Each call keeps the rows under their own ids and the e-mails unique. */
  lemma CreatePreservesWellFormed(users: map<int, User>, newId: int, u: UserCreate, role: Role,
                                  hash: string -> string, commitFails: bool)
    requires WellFormed(users)
    ensures WellFormed(CreateUserSpec(users, newId, u, role, hash, commitFails).users)
  {
  }

  lemma UpdatePreservesWellFormed(users: map<int, User>, u: UserUpdate, userId: int, commitFails: bool)
    requires WellFormed(users)
    ensures WellFormed(UpdateUserSpec(users, u, userId, commitFails).users)
  {
    var o := UpdateUserSpec(users, u, userId, commitFails);
    if o.result.Ok? {
      forall i, j | i in o.users && j in o.users && o.users[i].email == o.users[j].email
        ensures i == j
      {
        if i != userId && j != userId {
          assert users[i].email == users[j].email;
        }
      }
    }
  }

  lemma DeletePreservesWellFormed(users: map<int, User>, userId: int, commitFails: bool)
    requires WellFormed(users)
    ensures WellFormed(DeleteUserSpec(users, userId, commitFails).users)
  {
  }

  /** A second user with a stored e-mail is refused and nothing is stored. */
  lemma DuplicateEmailRejected(users: map<int, User>, id1: int, id2: int, u: UserCreate, v: UserCreate,
                               role1: Role, role2: Role, hash: string -> string)
    requires u.email == v.email
    requires CreateUserSpec(users, id1, u, role1, hash, false).result.Ok?
    ensures var after := CreateUserSpec(users, id1, u, role1, hash, false).users;
      CreateUserSpec(after, id2, v, role2, hash, false) == Outcome(Fail(Exists), after)
  {
    var after := CreateUserSpec(users, id1, u, role1, hash, false).users;
    assert after[id1].email == v.email;
  }

  /** Deleting the same id twice: the second call finds no user. */
  lemma SecondDeleteNotFound(users: map<int, User>, userId: int)
    requires DeleteUserSpec(users, userId, false).result.Ok?
    ensures var after := DeleteUserSpec(users, userId, false).users;
      DeleteUserSpec(after, userId, false) == Outcome(Fail(NotFound), after)
  {
  }

  /** A created user is found again by its e-mail. */
  lemma CreatedUserFoundByEmail(users: map<int, User>, newId: int, u: UserCreate, role: Role,
                                hash: string -> string)
    requires WellFormed(users)
    requires CreateUserSpec(users, newId, u, role, hash, false).result.Ok?
    ensures var o := CreateUserSpec(users, newId, u, role, hash, false);
      WellFormed(o.users) && GetUserByEmail(o.users, u.email) == Some(o.result.value)
  {
    var o := CreateUserSpec(users, newId, u, role, hash, false);
    CreatePreservesWellFormed(users, newId, u, role, hash, false);
    assert o.users[newId].email == u.email;
  }

  /** The user table held in place, with the id sequence of its primary key. */
  class UserStore {
    var users: map<int, User>
    var nextId: int

    ghost predicate Valid()
      reads this
    {
      WellFormed(users) && forall id :: id in users ==> id < nextId
    }

    constructor()
      ensures Valid() && users == map[]
    {
      users, nextId := map[], 1;
    }

    /** `create_user`: the lookup by e-mail, the hash, then the insert and commit. */
    method CreateUser(u: UserCreate, role: Role, hash: string -> string, commitFails: bool) returns (r: Result<User>)
      requires Valid()
      modifies this
      ensures Valid()
      ensures Outcome(r, users) == CreateUserSpec(old(users), old(nextId), u, role, hash, commitFails)
    {
      var existing := GetUserByEmail(users, u.email);
      if existing.Some? {
        return Fail(Exists);
      }
      var hashedPassword := hash(u.password);
      if commitFails {
        return Fail(NotValid);
      }
      assert nextId !in users by {
        assert forall id :: id in users ==> id < nextId;
      }
      var row := User(nextId, u.name, u.email, hashedPassword, role);
      CreatePreservesWellFormed(users, nextId, u, role, hash, commitFails);
      users := users[nextId := row];
      nextId := nextId + 1;
      return Ok(row);
    }

    /** `delete_user`. */
    method DeleteUser(userId: int, commitFails: bool) returns (r: Result<()>)
      requires Valid()
      modifies this
      ensures Valid()
      ensures Outcome(r, users) == DeleteUserSpec(old(users), userId, commitFails)
      ensures nextId == old(nextId)
    {
      if userId !in users {
        return Fail(NotFound);
      }
      if commitFails {
        return Fail(NotDeleted);
      }
      users := users - {userId};
      return Ok(());
    }

    /** `update_user`: every dumped field is set on the row in turn, then the row is committed. */
    method UpdateUser(u: UserUpdate, userId: int, commitFails: bool) returns (r: Result<User>)
      requires Valid()
      modifies this
      ensures Valid()
      ensures Outcome(r, users) == UpdateUserSpec(old(users), u, userId, commitFails)
      ensures nextId == old(nextId)
    {
      if userId !in users {
        return Fail(NotFound);
      }
      var fields := UpdateFields(u);
      var row := users[userId];
      var i := 0;
      while i < |fields|
        invariant 0 <= i <= |fields|
        invariant SetAttrs(row, fields[i..]) == SetAttrs(users[userId], fields)
      {
        row := SetAttr(row, fields[i].0, fields[i].1);
        assert fields[i..][1..] == fields[i + 1..];
        i := i + 1;
      }
      if commitFails || exists id :: id in users && id != userId && users[id].email == row.email {
        UpdateSetsExactlyThePayload(users[userId], u);
        return Fail(NotUpdated);
      }
      UpdateSetsExactlyThePayload(users[userId], u);
      UpdatePreservesWellFormed(users, u, userId, commitFails);
      users := users[userId := row];
      return Ok(row);
    }
  }
}

=== FILE: user_routers.dfy ===
/**
 * The user service's endpoints (user_service/routers/user.py and
 * user_service/routers/auth.py): status decisions over the user table,
 * and DELETE /users/me, which deletes the caller and then publishes one
 * USER_DELETED event. The exchange is an append-only list of published
 * bodies; whether the broker is reachable is the flag `busUp`.
 */
module UserRouter {
  import opened Basics
  import opened UserSchemes
  import opened UserCrud
  import opened UserAuthentication

  /** The scopes the user endpoints require. */
  const EndpointScopes: seq<string> := ["me"]

  /** `UserOut`: the row without its password hash. */
  datatype UserOut = UserOut(id: int, email: string, name: string, role: Role)

  function ToUserOut(u: User): (out: UserOut)
    ensures out.id == u.id && out.email == u.email && out.name == u.name && out.role == u.role
  {
    UserOut(u.id, u.email, u.name, u.role)
  }

  /**
   * An answer: a status and, for a 200 or 201, the user in the body; or the
   * service's `RequestValidationError` handler's 400, which echoes the
   * request body as `input_data` (its per-error `detail` texts are not modelled).
   */
  datatype Reply =
    | Reply(statusCode: int, user: Option<UserOut>)
    | InvalidBody(statusCode: int, inputData: map<string, Json>)

  // ---------------------------------------------------------------------
  // GET /users/me, POST /users/, POST /users/admin, PUT /users/
  // ---------------------------------------------------------------------

  /** GET /users/me: the caller's own row, through `get_current_user`. */
  function ReadMe(decoded: Option<Claims>, users: map<int, User>): (r: Reply)
    ensures r.Reply?
    ensures r.statusCode == 200 <==> VerifyTokenSpec(EndpointScopes, decoded, users).Granted?
    ensures r.statusCode == 200 ==> r.user == Some(ToUserOut(users[VerifyTokenSpec(EndpointScopes, decoded, users).value]))
  {
    match GetCurrentUserSpec(EndpointScopes, decoded, users)
    case Refused(statusCode, _) => Reply(statusCode, None)
    case Granted(u) => Reply(200, Some(ToUserOut(u)))
  }

  /** POST /users/: anyone may register; both crud errors are a 400. */
  function CreateUser(users: map<int, User>, newId: int, body: map<string, Json>,
                      normalise: string -> Option<string>, hash: string -> string, commitFails: bool): (r: (Reply, map<int, User>))
    ensures r.0.InvalidBody? <==> ParseUserCreate(body, normalise).None?
    ensures r.0.InvalidBody? ==> r == (InvalidBody(400, body), users)
    ensures r.0.statusCode == 201 ==>
      var u := ParseUserCreate(body, normalise).value;
      r.1 == users[newId := User(newId, u.name, u.email, hash(u.password), USER)]
      && r.0.user == Some(UserOut(newId, u.email, u.name, USER))
    ensures r.0.statusCode != 201 ==> r.1 == users && r.0.statusCode == 400
    ensures ParseUserCreate(body, normalise).Some? ==>
      var o := CreateUserSpec(users, newId, ParseUserCreate(body, normalise).value, USER, hash, commitFails);
      && r.1 == o.users
      && (r.0.statusCode == 201 <==> o.result.Ok?)
      && (o.result.Fail? ==> r.0 == Reply(400, None))
      && (o.result.Ok? ==> r.0.user == Some(ToUserOut(o.result.value)))
  {
    match ParseUserCreate(body, normalise)
    case None => (InvalidBody(400, body), users)
    case Some(u) =>
      var o := CreateUserSpec(users, newId, u, USER, hash, commitFails);
      match o.result
      case Fail(_) => (Reply(400, None), users)
      case Ok(row) => (Reply(201, Some(ToUserOut(row))), o.users)
  }

  /**
   * POST /users/admin: any authenticated caller may create an ADMIN; a
   * duplicate e-mail is a 400, and UserNotValidError is not caught.
   */
  function CreateAdmin(users: map<int, User>, newId: int, decoded: Option<Claims>, body: map<string, Json>,
                       normalise: string -> Option<string>, hash: string -> string, commitFails: bool): (r: (Reply, map<int, User>))
    ensures VerifyTokenSpec(EndpointScopes, decoded, users).Refused? ==>
      r == (Reply(VerifyTokenSpec(EndpointScopes, decoded, users).statusCode, None), users)
    ensures r.0.statusCode == 201 ==>
      && ParseUserCreate(body, normalise).Some?
      && var u := ParseUserCreate(body, normalise).value;
      r.1 == users[newId := User(newId, u.name, u.email, hash(u.password), ADMIN)]
    ensures r.0.statusCode != 201 ==> r.1 == users
    ensures VerifyTokenSpec(EndpointScopes, decoded, users).Granted? && ParseUserCreate(body, normalise).Some? ==>
      (r.0.statusCode == 400 <==> EmailTaken(users, ParseUserCreate(body, normalise).value.email))
    ensures r.0.InvalidBody? <==>
      VerifyTokenSpec(EndpointScopes, decoded, users).Granted? && ParseUserCreate(body, normalise).None?
    ensures r.0.InvalidBody? ==> r == (InvalidBody(400, body), users)
    ensures VerifyTokenSpec(EndpointScopes, decoded, users).Granted? && ParseUserCreate(body, normalise).Some? ==>
      var o := CreateUserSpec(users, newId, ParseUserCreate(body, normalise).value, ADMIN, hash, commitFails);
      && r.1 == o.users
      && (r.0.statusCode == 201 <==> o.result.Ok?)
      && (o.result == Fail(Exists) ==> r.0 == Reply(400, None))
      && (o.result == Fail(NotValid) ==> r.0 == Reply(500, None))
      && (o.result.Ok? ==> r.0.user == Some(ToUserOut(o.result.value)))
  {
    match VerifyTokenSpec(EndpointScopes, decoded, users)
    case Refused(statusCode, _) => (Reply(statusCode, None), users)
    case Granted(_) =>
      match ParseUserCreate(body, normalise)
      case None => (InvalidBody(400, body), users)
      case Some(u) =>
        var o := CreateUserSpec(users, newId, u, ADMIN, hash, commitFails);
        match o.result
        case Fail(Exists) => (Reply(400, None), users)
        case Fail(_) => (Reply(500, None), users)
        case Ok(row) => (Reply(201, Some(ToUserOut(row))), o.users)
  }

  /** A stored e-mail is refused with 400 on both create paths, and nothing is stored. */
  lemma DuplicateEmailIs400(users: map<int, User>, newId: int, decoded: Option<Claims>, body: map<string, Json>,
                            normalise: string -> Option<string>, hash: string -> string, commitFails: bool)
    requires ParseUserCreate(body, normalise).Some?
    requires EmailTaken(users, ParseUserCreate(body, normalise).value.email)
    requires VerifyTokenSpec(EndpointScopes, decoded, users).Granted?
    ensures CreateUser(users, newId, body, normalise, hash, commitFails) == (Reply(400, None), users)
    ensures CreateAdmin(users, newId, decoded, body, normalise, hash, commitFails) == (Reply(400, None), users)
  {
  }

  /**
   * A user created through either route, with a password whose hash the
   * password check accepts, can log in at once, and the token names the
   * new id.
   */
  lemma CreatedUserCanLogIn(users: map<int, User>, newId: int, decoded: Option<Claims>, body: map<string, Json>,
                            normalise: string -> Option<string>, hash: string -> string, commitFails: bool,
                            matches: (string, string) -> bool, encode: Claims -> string, now: int)
    requires WellFormed(users)
    requires ParseUserCreate(body, normalise).Some?
    requires var u := ParseUserCreate(body, normalise).value; matches(u.password, hash(u.password))
    ensures var u := ParseUserCreate(body, normalise).value;
      var r := CreateUser(users, newId, body, normalise, hash, commitFails);
      r.0.statusCode == 201 ==>
        && WellFormed(r.1)
        && Login(r.1, u.email, u.password, matches, encode, now) == Granted(TokenReply(encode(LoginClaims(newId, now)), "bearer"))
    ensures var u := ParseUserCreate(body, normalise).value;
      var r := CreateAdmin(users, newId, decoded, body, normalise, hash, commitFails);
      r.0.statusCode == 201 ==>
        && WellFormed(r.1)
        && Login(r.1, u.email, u.password, matches, encode, now) == Granted(TokenReply(encode(LoginClaims(newId, now)), "bearer"))
  {
    var u := ParseUserCreate(body, normalise).value;
    if CreateUser(users, newId, body, normalise, hash, commitFails).0.statusCode == 201 {
      CreatedUserFoundByEmail(users, newId, u, USER, hash);
    }
    if CreateAdmin(users, newId, decoded, body, normalise, hash, commitFails).0.statusCode == 201 {
      CreatedUserFoundByEmail(users, newId, u, ADMIN, hash);
    }
  }

  /** The errors PUT /users/ catches: UserExistsError 400, UserNotFoundError 404, UserNotAllowedError 401. */
  function UpdateErrorStatus(e: UserError): (s: int)
    ensures e == Exists ==> s == 400
    ensures e == NotFound ==> s == 404
    ensures e == NotAllowed ==> s == 401
    ensures e in {NotValid, NotDeleted, NotUpdated} ==> s == 500
  {
    match e
    case Exists => 400
    case NotFound => 404
    case NotAllowed => 401
    case _ => 500
  }

  /**
   * PUT /users/ as written: `update_user` returns nothing, so after a
   * committed update the handler returns `None`, which fails validation
   * against `UserOut` and answers 500.
   */
  function UpdateMeAsWritten(users: map<int, User>, decoded: Option<Claims>, body: map<string, Json>,
                             normalise: string -> Option<string>, commitFails: bool): (r: (Reply, map<int, User>))
    ensures VerifyTokenSpec(EndpointScopes, decoded, users).Refused? ==>
      r == (Reply(VerifyTokenSpec(EndpointScopes, decoded, users).statusCode, None), users)
    ensures r.0.InvalidBody? <==>
      VerifyTokenSpec(EndpointScopes, decoded, users).Granted? && ParseUserUpdate(body, normalise).None?
    ensures r.0.InvalidBody? ==> r == (InvalidBody(400, body), users)
  {
    match VerifyTokenSpec(EndpointScopes, decoded, users)
    case Refused(statusCode, _) => (Reply(statusCode, None), users)
    case Granted(userId) =>
      match ParseUserUpdate(body, normalise)
      case None => (InvalidBody(400, body), users)
      case Some(u) =>
        var o := UpdateUserSpec(users, u, userId, commitFails);
        match o.result
        case Fail(e) => (Reply(UpdateErrorStatus(e), None), users)
        case Ok(_) => (Reply(500, None), o.users)
  }

  /** A committed update is answered 500 by the endpoint as written: the change is stored but reported as failed. */
  lemma UpdateMeAsWrittenAnswers500(users: map<int, User>, decoded: Option<Claims>, body: map<string, Json>,
                                    normalise: string -> Option<string>)
    requires VerifyTokenSpec(EndpointScopes, decoded, users).Granted?
    requires ParseUserUpdate(body, normalise).Some?
    requires UpdateUserSpec(users, ParseUserUpdate(body, normalise).value,
                            VerifyTokenSpec(EndpointScopes, decoded, users).value, false).result.Ok?
    ensures var r := UpdateMeAsWritten(users, decoded, body, normalise, false);
      var userId := VerifyTokenSpec(EndpointScopes, decoded, users).value;
      var u := ParseUserUpdate(body, normalise).value;
      && r.0 == Reply(500, None)
      && r.1 == users[userId := User(users[userId].id, u.name, u.email, users[userId].hashedPassword, users[userId].role)]
  {
  }

  /** An e-mail validator that accepts every address unchanged, for the example below. */
  function AcceptAnyEmail(s: string): Option<string>
  {
    Some(s)
  }

  /** The example's token: subject "1" with the scope "me". */
  lemma ExampleTokenGranted(users: map<int, User>)
    requires 1 in users
    ensures VerifyTokenSpec(EndpointScopes, Some(map["sub" := JStr("1"), "scopes" := JArr([JStr("me")])]), users) == Granted(1)
  {
    var claims := map["sub" := JStr("1"), "scopes" := JArr([JStr("me")])];
    assert ParseInt("1") == Some(1) by { assert AllDigits("1"); }
    var read := StrItems([JStr("me")]);
    assert read.Some? && |read.value| == 1 && JStr(read.value[0]) == JStr("me");
    assert read.value == ["me"];
    assert ReadClaims(claims) == Subject(1, ["me"]);
  }

  /** The example's body: a valid update to the name "Alicia". */
  lemma ExampleBodyParses()
    ensures ParseUserUpdate(map["email" := JStr("a@x.org"), "name" := JStr("Alicia")], AcceptAnyEmail) ==
      Some(UserUpdate("a@x.org", "Alicia"))
  {
    var body := map["email" := JStr("a@x.org"), "name" := JStr("Alicia")];
    assert ValidateName("Alicia").Accepted? by {
      assert ClassRun("a") == 1;
      assert ClassRun("ia") == 2;
      assert ClassRun("cia") == 3;
      assert ClassRun("icia") == 4;
      assert ClassRun("licia") == 5;
      assert ClassRun("Alicia") == 6;
    }
    assert NameField(body) == Some("Alicia");
    assert EmailField(body, AcceptAnyEmail) == Some("a@x.org");
  }

  /** The example's update commits: no other user holds the e-mail. */
  lemma ExampleUpdateCommits(users: map<int, User>)
    requires users == map[1 := User(1, "Alice", "a@x.org", "h", USER)]
    ensures UpdateUserSpec(users, UserUpdate("a@x.org", "Alicia"), 1, false).result.Ok?
  {
    assert !exists id :: id in users && id != 1 && users[id].email == "a@x.org";
  }

  /** A concrete case: a stored user renames itself and is told the request failed. */
  lemma UpdateMeAsWrittenExample()
    ensures var users := map[1 := User(1, "Alice", "a@x.org", "h", USER)];
      var decoded := Some(map["sub" := JStr("1"), "scopes" := JArr([JStr("me")])]);
      var body := map["email" := JStr("a@x.org"), "name" := JStr("Alicia")];
      UpdateMeAsWritten(users, decoded, body, AcceptAnyEmail, false).0.statusCode == 500
  {
    var users := map[1 := User(1, "Alice", "a@x.org", "h", USER)];
    var claims := map["sub" := JStr("1"), "scopes" := JArr([JStr("me")])];
    var body := map["email" := JStr("a@x.org"), "name" := JStr("Alicia")];
    ExampleTokenGranted(users);
    ExampleBodyParses();
    ExampleUpdateCommits(users);
    UpdateMeAsWrittenAnswers500(users, Some(claims), body, AcceptAnyEmail);
  }

  /**
   * PUT /users/ as intended: the updated row is returned and answered 200;
   * the update sets e-mail and name and keeps id, role and hash.
   */
  function UpdateMe(users: map<int, User>, decoded: Option<Claims>, body: map<string, Json>,
                    normalise: string -> Option<string>, commitFails: bool): (r: (Reply, map<int, User>))
    requires WellFormed(users)
    ensures VerifyTokenSpec(EndpointScopes, decoded, users).Refused? ==>
      r == (Reply(VerifyTokenSpec(EndpointScopes, decoded, users).statusCode, None), users)
    ensures r.0.InvalidBody? <==>
      VerifyTokenSpec(EndpointScopes, decoded, users).Granted? && ParseUserUpdate(body, normalise).None?
    ensures r.0.InvalidBody? ==> r == (InvalidBody(400, body), users)
    ensures r.0.statusCode == 200 <==>
      && VerifyTokenSpec(EndpointScopes, decoded, users).Granted?
      && ParseUserUpdate(body, normalise).Some?
      && UpdateUserSpec(users, ParseUserUpdate(body, normalise).value,
                        VerifyTokenSpec(EndpointScopes, decoded, users).value, commitFails).result.Ok?
    ensures r.0.statusCode == 200 ==>
      var userId := VerifyTokenSpec(EndpointScopes, decoded, users).value;
      var u := ParseUserUpdate(body, normalise).value;
      var before := users[userId];
      && r.1 == users[userId := User(userId, u.name, u.email, before.hashedPassword, before.role)]
      && r.0.user == Some(UserOut(userId, u.email, u.name, before.role))
    ensures r.0.statusCode != 200 ==> r.1 == users
  {
    match VerifyTokenSpec(EndpointScopes, decoded, users)
    case Refused(statusCode, _) => (Reply(statusCode, None), users)
    case Granted(userId) =>
      match ParseUserUpdate(body, normalise)
      case None => (InvalidBody(400, body), users)
      case Some(u) =>
        var o := UpdateUserSpec(users, u, userId, commitFails);
        match o.result
        case Fail(e) => (Reply(UpdateErrorStatus(e), None), users)
        case Ok(row) => (Reply(200, Some(ToUserOut(row))), o.users)
  }

  /** Where the intended endpoint answers 200, the one as written stores the same table and answers 500. */
  lemma UpdateMeDiffersOnlyInTheAnswer(users: map<int, User>, decoded: Option<Claims>, body: map<string, Json>,
                                       normalise: string -> Option<string>, commitFails: bool)
    requires WellFormed(users)
    ensures var intended := UpdateMe(users, decoded, body, normalise, commitFails);
      var written := UpdateMeAsWritten(users, decoded, body, normalise, commitFails);
      && written.1 == intended.1
      && (intended.0.statusCode == 200 ==> written.0 == Reply(500, None))
      && (intended.0.statusCode != 200 ==> written.0 == intended.0)
  {
  }

  // ---------------------------------------------------------------------
  // DELETE /users/me and the event exchange
  // ---------------------------------------------------------------------

  /** The body `delete_user` publishes: `{"type": "USER_DELETED", "user_id": id}`. */
  function DeletedEvent(userId: int): Json
  {
    JObj(map["type" := JStr("USER_DELETED"), "user_id" := JInt(userId)])
  }

  /**
   * DELETE /users/me on the table and the published bodies: the caller
   * from `verify_token`, then `crud.delete_user` (UserNotDeletedError is a
   * 404; UserNotFoundError is not caught), then the publish, which has no
   * `try` of its own: an unreachable broker fails the request after the
   * user is gone.
   */
  function DeleteMeSpec(users: map<int, User>, published: seq<Json>, decoded: Option<Claims>,
                        commitFails: bool, busUp: bool): (r: (int, map<int, User>, seq<Json>))
    ensures r.0 == 204 <==> VerifyTokenSpec(EndpointScopes, decoded, users).Granted? && !commitFails && busUp
    ensures r.0 == 204 ==>
      var userId := VerifyTokenSpec(EndpointScopes, decoded, users).value;
      r.1 == users - {userId} && r.2 == published + [DeletedEvent(userId)]
    ensures r.0 != 204 ==> r.2 == published
    ensures r.1 != users ==> r.0 in {204, 500}
  {
    match VerifyTokenSpec(EndpointScopes, decoded, users)
    case Refused(statusCode, _) => (statusCode, users, published)
    case Granted(userId) =>
      var o := DeleteUserSpec(users, userId, commitFails);
      match o.result
      case Fail(NotDeleted) => (404, users, published)
      case Fail(_) => (500, users, published)
      case Ok(_) =>
        if busUp then (204, o.users, published + [DeletedEvent(userId)])
        else (500, o.users, published)
  }

  /** The fanout exchange, as the bodies published to it in order. */
  class EventBus {
    var published: seq<Json>

    constructor()
      ensures published == []
    {
      published := [];
    }

    /** `publish_user_delete_event`: appends the body, or raises when the broker is unreachable. */
    method Publish(event: Json, busUp: bool) returns (ok: bool)
      modifies this
      ensures ok == busUp
      ensures published == if busUp then old(published) + [event] else old(published)
    {
      if !busUp {
        return false;
      }
      published := published + [event];
      return true;
    }
  }

  /** DELETE /users/me on the store and the exchange. */
  method DeleteMe(store: UserStore, bus: EventBus, decoded: Option<Claims>, commitFails: bool, busUp: bool)
    returns (statusCode: int)
    requires store.Valid()
    modifies store, bus
    ensures store.Valid()
    ensures (statusCode, store.users, bus.published) ==
      DeleteMeSpec(old(store.users), old(bus.published), decoded, commitFails, busUp)
  {
    var caller := VerifyToken(EndpointScopes, decoded, store.users);
    if caller.Refused? {
      return caller.statusCode;
    }
    var deleted := store.DeleteUser(caller.value, commitFails);
    if deleted.Fail? {
      return if deleted.error == NotDeleted then 404 else 500;
    }
    var ok := bus.Publish(DeletedEvent(caller.value), busUp);
    if !ok {
      return 500;
    }
    return 204;
  }

  /** A failed delete publishes nothing, and the deleted id is always the caller's own. */
  lemma DeleteMePublishesOnlyTheCaller(users: map<int, User>, published: seq<Json>, decoded: Option<Claims>,
                                       commitFails: bool, busUp: bool)
    ensures var r := DeleteMeSpec(users, published, decoded, commitFails, busUp);
      && (r.2 == published || r.2 == published + [DeletedEvent(VerifyTokenSpec(EndpointScopes, decoded, users).value)])
      && (commitFails ==> r.1 == users && r.2 == published)
  {
  }

  /** With the broker down, the user is deleted but no event is published: the tracking data is never cleaned up. */
  lemma BrokerDownLosesTheEvent(users: map<int, User>, published: seq<Json>, decoded: Option<Claims>)
    requires VerifyTokenSpec(EndpointScopes, decoded, users).Granted?
    ensures var userId := VerifyTokenSpec(EndpointScopes, decoded, users).value;
      DeleteMeSpec(users, published, decoded, false, false) == (500, users - {userId}, published)
  {
  }

  // ---------------------------------------------------------------------
  // GET /token-validate and POST /token
  // ---------------------------------------------------------------------

  /**
   * The status and body of a reply. An HTTPException's body is the JSON
   * `{"detail": ...}`; an unhandled exception's 500 is Starlette's plain
   * text, modelled as a JSON text.
   */
  datatype JsonReply = JsonReply(statusCode: int, body: Json)

  /** `validate_token`: the `scopes` query parameter is split on "," (absent: "") and passed to `verify_token`. */
  function ValidateToken(scopesParam: Option<string>, decoded: Option<Claims>, users: map<int, User>): (r: JsonReply)
    ensures var required := Split(if scopesParam.Some? then scopesParam.value else "", ',');
      && (r.statusCode == 200 <==> VerifyTokenSpec(required, decoded, users).Granted?)
      && (r.statusCode == 200 ==> r.body == JObj(map["user_id" := JInt(VerifyTokenSpec(required, decoded, users).value)]))
      && (r.statusCode != 200 ==> r.statusCode == VerifyTokenSpec(required, decoded, users).statusCode)
      && (r.statusCode != 200 ==> (r.body.JObj? <==> r.statusCode != 500))
  {
    var required := Split(if scopesParam.Some? then scopesParam.value else "", ',');
    match VerifyTokenSpec(required, decoded, users)
    case Granted(userId) => JsonReply(200, JObj(map["user_id" := JInt(userId)]))
    case Refused(statusCode, detail) =>
      if statusCode == 500 then JsonReply(500, JStr(detail))
      else JsonReply(statusCode, JObj(map["detail" := JStr(detail)]))
  }

  /** Without a `scopes` parameter the required scope is "", which no issued token carries: 401. */
  lemma ValidateWithoutScopesRefused(userId: int, users: map<int, User>, issuedAt: int, now: int)
    requires userId in users
    requires now < issuedAt + DefaultLifetime
    ensures ValidateToken(None, DecodeSigned(LoginClaims(userId, issuedAt), now), users).statusCode == 401
  {
    assert Split("", ',') == [""];
    assert [""][0] !in IssuedScopes;
    assert !HasScopes([""], IssuedScopes);
    IssuedTokenVerifies([""], userId, users, issuedAt, now);
  }

  /** The reply of POST /token. */
  datatype TokenReply = TokenReply(accessToken: string, tokenType: string)

  /**
   * `login_for_access_token`: an unknown e-mail is 401 "Incorrect username
   * or password", a wrong password 401 from `verify`; otherwise a bearer
   * token with subject `str(user.id)`. `encode` is the JWT encoder and
   * `matches` bcrypt's check.
   */
  function Login(users: map<int, User>, username: string, password: string,
                 matches: (string, string) -> bool, encode: Claims -> string, now: int): (r: Verdict<TokenReply>)
    requires WellFormed(users)
    ensures r.Granted? <==> EmailTaken(users, username) && matches(password, GetUserByEmail(users, username).value.hashedPassword)
    ensures r.Granted? ==> r.value == TokenReply(encode(LoginClaims(GetUserByEmail(users, username).value.id, now)), "bearer")
    ensures !EmailTaken(users, username) ==> r == Refused(401, "Incorrect username or password")
    ensures r.Refused? ==> r.statusCode == 401
  {
    match GetUserByEmail(users, username)
    case None => Refused(401, "Incorrect username or password")
    case Some(user) =>
      match Verify(password, user.hashedPassword, matches)
      case Refused(statusCode, detail) => Refused(statusCode, detail)
      case Granted(_) => Granted(TokenReply(encode(LoginClaims(user.id, now)), "bearer"))
  }

  /** The token a login hands out lets that user through `verify_token` with scope "me" until it expires. */
  lemma LoginTokenOpensEndpoints(users: map<int, User>, username: string, password: string,
                                 matches: (string, string) -> bool, encode: Claims -> string, issuedAt: int, now: int)
    requires WellFormed(users)
    requires Login(users, username, password, matches, encode, issuedAt).Granted?
    requires now < issuedAt + DefaultLifetime
    ensures var user := GetUserByEmail(users, username).value;
      VerifyTokenSpec(EndpointScopes, DecodeSigned(LoginClaims(user.id, issuedAt), now), users) == Granted(user.id)
  {
    var user := GetUserByEmail(users, username).value;
    assert HasScopes(EndpointScopes, IssuedScopes);
    IssuedTokenVerifies(EndpointScopes, user.id, users, issuedAt, now);
  }
}

=== FILE: user_schemes.dfy ===
/**
 * The request schemas of the user service (user_service/schemes.py):
 * `UserUpdate` (e-mail and name) and `UserCreate` (adds a password),
 * with the name validator `ensure_valid_name`. E-mail validation is a
 * foreign library and is a parameter: it either rejects a string or
 * returns its normalised form.
 */
module UserSchemes {
  import opened Basics

  /** A character of the name pattern's class: ASCII letters and digits, the umlauts, and "_". */
  predicate NameChar(c: char)
  {
    || ('a' <= c <= 'z') || ('A' <= c <= 'Z') || ('0' <= c <= '9')
    || c == 'ö' || c == 'ä' || c == 'ü' || c == 'Ö' || c == 'Ä' || c == 'Ü' || c == '_'
  }

  /** How far the greedy `[...]*` of the pattern runs from the start of the string. */
  function ClassRun(s: string): (k: nat)
    ensures k <= |s|
    ensures forall i :: 0 <= i < k ==> NameChar(s[i])
    ensures k < |s| ==> !NameChar(s[k])
  {
    if |s| == 0 || !NameChar(s[0]) then 0 else 1 + ClassRun(s[1..])
  }

  /**
   * `re.match(r"^[a-zA-Z0-9öäüÖÄÜ_]*$", s)`: after the run, `$` holds at
   * the end of the string or just before a final newline. Backtracking to
   * a shorter run cannot help, since every character inside the run is a
   * class character and hence neither the end nor a newline.
   */
  predicate PatternMatches(s: string)
  {
    var k := ClassRun(s);
    k == |s| || (k == |s| - 1 && s[k] == '\n')
  }

  datatype NameError = TooShort | HasSpace | InvalidCharacters

  datatype NameCheck = Accepted(name: string) | Rejected(reason: NameError)

  /**
   * The `name` field: `constr(min_length=2)` first, then the after-validator
   * `ensure_valid_name`, which rejects a space before it tries the pattern
   * and returns the value unchanged.
   */
  function ValidateName(value: string): (r: NameCheck)
    ensures r.Accepted? ==> r.name == value && |value| >= 2 && PatternMatches(value)
    ensures r == Rejected(TooShort) <==> |value| < 2
    ensures r == Rejected(HasSpace) <==> |value| >= 2 && ' ' in value
  {
    if |value| < 2 then Rejected(TooShort)
    else if ' ' in value then Rejected(HasSpace)
    else if !PatternMatches(value) then Rejected(InvalidCharacters)
    else Accepted(value)
  }

  /** A string the pattern matches has no space, so the explicit space check never changes acceptance. */
  lemma {:induction false} MatchedNamesHaveNoSpace(s: string)
    requires PatternMatches(s)
    ensures ' ' !in s
  {
    var k := ClassRun(s);
    forall i | 0 <= i < |s|
      ensures s[i] != ' '
    {
      if i < k {
        assert NameChar(s[i]);
      } else {
        assert s[i] == '\n';
      }
    }
  }

  /**
   * The accepted names are exactly those of at least two characters made
   * of class characters, optionally followed by one final newline.
   */
  lemma AcceptedNames(s: string)
    ensures ValidateName(s).Accepted? <==>
      && |s| >= 2
      && (|| (forall i :: 0 <= i < |s| ==> NameChar(s[i]))
          || (s[|s| - 1] == '\n' && forall i :: 0 <= i < |s| - 1 ==> NameChar(s[i])))
  {
    var k := ClassRun(s);
    if PatternMatches(s) {
      MatchedNamesHaveNoSpace(s);
    }
    if |s| >= 2 && s[|s| - 1] == '\n' && (forall i :: 0 <= i < |s| - 1 ==> NameChar(s[i])) {
      assert !NameChar(s[|s| - 1]);
      assert k == |s| - 1;
    }
  }

  /** An accepted name comes back unchanged. */
  lemma AcceptedNameUnchanged()
    ensures ValidateName("Test_User") == Accepted("Test_User")
  {
    var s := "Test_User";
    assert forall i :: 0 <= i < |s| ==> NameChar(s[i]);
    AcceptedNames(s);
  }

  /** Each rejection carries its reason. */
  lemma NameRejectionExamples()
    ensures ValidateName("Grumpy Cat") == Rejected(HasSpace)
    ensures ValidateName("a") == Rejected(TooShort)
    ensures ValidateName("ab!") == Rejected(InvalidCharacters)
  {
    assert "Grumpy Cat"[6] == ' ';
    assert ClassRun("!") == 0;
    assert ClassRun("b!") == 1;
    assert ClassRun("ab!") == 2;
  }

  /** One final newline slips through the pattern: a one-letter name plus newline passes the length check too. */
  lemma TrailingNewlineAccepted()
    ensures ValidateName("Jö\n") == Accepted("Jö\n")
  {
    assert ClassRun("\n") == 0;
    assert ClassRun("ö\n") == 1;
    assert ClassRun("Jö\n") == 2;
  }

  /** The body of PUT /users/. */
  datatype UserUpdate = UserUpdate(email: string, name: string)

  /** The body of POST /users/ and /users/admin. */
  datatype UserCreate = UserCreate(email: string, name: string, password: string)

  /** A required string field; pydantic does not turn other JSON values into strings. */
  function StrField(body: map<string, Json>, key: string): (r: Option<string>)
    ensures r.Some? <==> key in body && body[key].JStr?
    ensures r.Some? ==> body[key] == JStr(r.value)
  {
    if key in body && body[key].JStr? then Some(body[key].s) else None
  }

  /** `EmailStr`: `normalise` is the e-mail validator, `None` for an invalid address. */
  function EmailField(body: map<string, Json>, normalise: string -> Option<string>): (r: Option<string>)
    ensures r.Some? <==> StrField(body, "email").Some? && normalise(StrField(body, "email").value).Some?
  {
    match StrField(body, "email")
    case None => None
    case Some(raw) => normalise(raw)
  }

  function NameField(body: map<string, Json>): (r: Option<string>)
    ensures r.Some? <==> StrField(body, "name").Some? && ValidateName(StrField(body, "name").value).Accepted?
    ensures r.Some? ==> body["name"] == JStr(r.value)
  {
    match StrField(body, "name")
    case None => None
    case Some(raw) =>
      match ValidateName(raw)
      case Accepted(name) => Some(name)
      case Rejected(_) => None
  }

  function ParseUserUpdate(body: map<string, Json>, normalise: string -> Option<string>): (r: Option<UserUpdate>)
    ensures r.Some? <==> EmailField(body, normalise).Some? && NameField(body).Some?
    ensures r.Some? ==> ValidateName(r.value.name).Accepted?
  {
    match (EmailField(body, normalise), NameField(body))
    case (Some(email), Some(name)) => Some(UserUpdate(email, name))
    case _ => None
  }

  /** `UserCreate`: the update's fields plus `password: constr(min_length=4)`. */
  function ParseUserCreate(body: map<string, Json>, normalise: string -> Option<string>): (r: Option<UserCreate>)
    ensures r.Some? <==>
      && ParseUserUpdate(body, normalise).Some?
      && StrField(body, "password").Some? && |StrField(body, "password").value| >= 4
    ensures r.Some? ==> |r.value.password| >= 4 && ValidateName(r.value.name).Accepted?
  {
    match (ParseUserUpdate(body, normalise), StrField(body, "password"))
    case (Some(u), Some(password)) =>
      if |password| >= 4 then Some(UserCreate(u.email, u.name, password)) else None
    case _ => None
  }

  /** A create body is valid only if it is also a valid update body, with the same e-mail and name. */
  lemma CreateBodyIsUpdateBody(body: map<string, Json>, normalise: string -> Option<string>)
    requires ParseUserCreate(body, normalise).Some?
    ensures var c := ParseUserCreate(body, normalise).value;
      ParseUserUpdate(body, normalise) == Some(UserUpdate(c.email, c.name))
  {
  }
}
